=== FILE: README.md ===
# Waveguide compiler core in Dafny

Waveguide (the nodespeak repository) compiles a small data-flow language for
audio processing. Its front end works in stages:

- The parser turns source text into the *vague* IR.
- The vague IR holds scopes with named symbols, intermediate variables,
  parameter lists and a body of statements. Its compile-time values
  (`KnownData`) may still be unknown.
- The *resolver* (`structure/resolve.rs`) instantiates templated functions:
  - it copies scopes under a conversion table that maps old variable ids to
    their clones;
  - it infers template parameters;
  - it pins `Automatic` outputs;
  - it inserts casts where an argument's type differs from the parameter's.
- The *simplifier* (`resolved/ingest`) folds expressions whose values are
  known at compile time. It inlines calls, and leaves residual code for
  whatever depends on run-time data.
- The *trivial* IR encodes constants as little-endian bytes: four per integer
  or float, one per boolean, arrays item by item. It also renders them as text.
- The *x86-64 specialiser* translates trivial instructions into its own
  instruction set, one variable at a time.

This project models these stages as pure functions and small methods over
immutable datatypes, and proves what each stage promises:

- lookups find the nearest definition;
- a copied scope answers name lookups as the original does;
- a table pushed before an instance is restored by the matching pop, and
  converting a call converts its callee and every access, in order;
- template inference picks the biggest common type;
- folding is faithful to Rust's `i64` arithmetic and commutes where the
  operator does;
- integer encodings decode back;
- type names are injective;
- the specialiser is a consistent, memoised renaming;
- the operator table of the parser round-trips.

Files, one module each unless noted:

| file | module | models |
|---|---|---|
| `wrappers.dfy` | `Wrappers` | `Option`/`Result` with `:-` |
| `ints.dfy` | `Ints` | Rust `i64`/`i32`/`u32` arithmetic written out over unbounded integers |
| `decimal.dfy` | `Decimal` | decimal text of integers, `parse_dec_int` |
| `text.dfy` | `Text` | joining rendered parts with a separator |
| `types.dfy` | `Types` | the shared data model: `DataType`, `KnownData`, `RuntimeData`, `Variable`, `Problem` |
| `vague_data.dfy` | `VagueData` | `vague/structure/known_data.rs` |
| `variables.dfy` | `Variables` | `structure/variable.rs` |
| `store.dfy` | `Store` | the scope/variable arena of both program structures |
| `vague_program.dfy` | `VagueProgram` | reading values out of the vague program |
| `func_call.dfy` | `FuncCalls` | `structure/func_call.rs` |
| `unify.dfy` | `Unify` | `biggest_type` |
| `fold.dfy` | `Fold` | compile-time binary operations, `resolve_known_data`, `resolve_operator` |
| `resolve_table.dfy` | `ResolveTable` | the resolver's conversion table and its stack |
| `resolve_copy.dfy` | `ResolveCopy` | `copy_scope` |
| `resolve_types.dfy` | `ResolveTypes` | dynamic types and template parameters |
| `resolve_emit.dfy` | `ResolveEmit` | pinning `Automatic` outputs, passing arguments, casts |
| `resolve_calls.dfy` | `ResolveCalls` | `resolve_function_call`, `resolve_body`, `entry_point` |
| `simplify_state.dfy` | `SimplifyState` | the simplifier's state and table stack |
| `simplify_exprs.dfy` | `SimplifyExprs` | variables, indexing and binary operations in the simplifier |
| `simplify_calls.dfy` | `SimplifyCalls` | inlining of function calls |
| `simplify_assign.dfy` | `SimplifyAssign` | `simplifier/statements.rs` |
| `trivial.dfy` | `Trivial` | trivial-IR constants, their encoding and rendering, trivial variables |
| `specialize.dfy` | `TrivialCode`, `X86Code`, `Specialize` | the x86-64 specialiser |
| `parser.dfy` | `Parser` | the operator table and the operator-stack drain of the parser |

Conventions used throughout:

- Every panic in the source is modelled as an error path:
  - a failed `assert!`, `unwrap`, `unimplemented!` or out-of-range index
    becomes `None` or `Err(Abort)`;
  - `i64` overflow aborts, as a debug build does.
- Hash-map iteration (symbols of a scope, template tables) happens in an
  arbitrary order. A method picks the order with `:|`, and every contract
  holds whatever order is picked.
- Unbounded recursion is bounded by fuel; running out gives `Err(OutOfFuel)`:
  - nested function instantiation;
  - chains of dynamic types.
- Code that the core calls but that is not part of this model enters as
  function-valued parameters. These are listed under "Left out".

## Model

| member | source | states |
|---|---|---|
| Ints.TruncDivRem | src/resolved/ingest/util.rs:100-110 | Rust's truncating `/` and `%` satisfy the division identity; the remainder is smaller than the divisor and has the dividend's sign |
| Ints.LeBytes4RoundTrip | src/trivial/structure/known_data.rs:99-104 | the four little-endian bytes of an `i32` decode back to the same `i32` |
| Decimal.ParseDecIntOfText | src/parser/parser.rs:25-27 | parsing the decimal text of any `i64` gives the number back |
| Decimal.ParseDecInt | src/parser/parser.rs:25-27 | a parsed literal fits in `i64`, and a literal with nothing left once underscores are removed is rejected, where the `unwrap` panics |
| Decimal.ParseDecIntIgnoresUnderscores | src/parser/parser.rs:25-27 | underscores in a literal do not change its value; a literal of underscores alone is rejected |
| Decimal.NatTextInjective | src/trivial/structure/variable.rs:11-19 | distinct numbers have distinct decimal texts |
| Text.SeparatedLoopIsJoin | src/vague/structure/known_data.rs:195-218 | the render loop that writes a separator after every part but the last produces the parts joined by the separator |
| Types.DataEqReflexive | src/vague/structure/known_data.rs:16-20 | value equality, which compares functions by body, is reflexive |
| Types.DataEqSymmetric | src/vague/structure/known_data.rs:16-20 | value equality is symmetric |
| Types.SameFunctionIffOnlyHeaderDiffers | src/structure/variable.rs:112-116 | two functions are equal exactly when they differ at most in header position (and, for macros, in built-in marker) |
| VagueData.BuildArray | src/vague/structure/known_data.rs:64-75 | an empty dimension list yields the void value and nothing else does |
| VagueData.NewArray | src/vague/structure/known_data.rs:76-79 | a new array has the requested length and void items |
| VagueData.NewArrayIsBuildArray | src/vague/structure/known_data.rs:64-79 | `new_array(n)` is `build_array([n])` |
| VagueData.Index | src/vague/structure/known_data.rs:115-124 | no indexes yield the value itself; indexing a non-array fails |
| VagueData.GetDataType | src/vague/structure/known_data.rs:99-114 | a value has a type unless it is unknown or an array whose first item has none (an empty array included); the type is an array type exactly for an array, with the array's length and its first item's type |
| VagueData.IndexBuildArray | src/vague/structure/known_data.rs:64-75 | indexing a built array succeeds exactly for in-bounds positions and yields the array built from the remaining dimensions |
| VagueData.BuildArrayDataType | src/vague/structure/known_data.rs:99-114 | a built array has a type exactly when no dimension is zero, and then its type nests the dimensions around `Void` |
| VagueData.Collect | src/vague/structure/known_data.rs:80-98 | collecting succeeds exactly for a non-empty list of items of one type, and the array's type is that item type wrapped with the length |
| VagueData.MatchesIffDataType | src/vague/structure/known_data.rs:174-192 | a value matches a type exactly when the type inferred from the value is that type |
| VagueData.RequireInt | src/vague/structure/known_data.rs:132-138 | succeeds exactly on an integer, and returns its payload |
| VagueData.RequireArray | src/vague/structure/known_data.rs:160-166 | succeeds exactly on an array, and returns its items |
| VagueData.RenderArray | src/vague/structure/known_data.rs:195-218 | an array renders as its items' renderings joined by `", "` inside brackets |
| Variables.NewVariable | src/structure/variable.rs:295-311 | a new variable's temporary value starts equal to its initial value, which is unknown when none is given |
| Variables.Constant | src/structure/variable.rs:320-323 | a constant is permanent and holds its value as both initial and temporary value |
| Variables.FunctionDef | src/structure/variable.rs:324-331 | a function definition is a permanent variable of function type holding the function, defined at its header |
| Variables.AutomaticVariable | src/structure/variable.rs:336-339 | an automatic variable is not permanent, has type `Automatic` and unknown values |
| Variables.IntLiteral | src/structure/variable.rs:344-347 | an integer literal is a permanent `Int` variable holding the value |
| Variables.ResetIdempotent | src/structure/variable.rs:400-403 | resetting a temporary value twice is resetting once, and a new variable is already reset |
| Variables.IsAutomatic | src/structure/variable.rs:25-32 | true exactly for the `Automatic` type |
| Variables.EquivalentNoDynamic | src/structure/variable.rs:33-84 | for a type without dynamic parts and without size lists, equivalence is equality |
| Variables.EquivalentSymmetric | src/structure/variable.rs:33-84 | equivalence of types is symmetric |
| Variables.SizedArrayEquivalent | src/structure/variable.rs:60-80 | two array types with size lists are equivalent exactly when their bases are and every pair of sizes up to the shorter list reads as the same known value |
| Variables.SizesAgreeZip | src/structure/variable.rs:68-78 | the size loop succeeds exactly when every pair formed by zipping the two lists agrees; sizes past the shorter list are never read |
| Variables.ExtraSizesIgnored | src/structure/variable.rs:68-78 | `[n][m]Int` is equivalent to `[n]Int` whenever `n` is known, because the zip stops at the shorter list |
| Variables.SizesAgreeSymmetric | src/structure/variable.rs:68-78 | size agreement is symmetric |
| Variables.DynamicOnlyMatchesDynamic | src/structure/variable.rs:33-84 | a dynamic type is never equivalent to a non-dynamic one |
| Variables.MatchesIgnoresLength | src/structure/variable.rs:194-252 | matching a value against an array type ignores the array's sizes: a literal length, the values of a size list and its number of sizes |
| Variables.UniformMatchesInferredType | src/structure/variable.rs:194-252 | a uniform value matches the type inferred from it |
| Store.NewProgram | src/resolved/structure/program.rs:86-92 | a new program has one parentless root scope, which is the entry point, and no variables |
| Store.CreateScope | src/vague/structure/program.rs:103-108 | a parentless scope is appended, its id is the old scope count, and parents stay below their children |
| Store.CreateChildScope | src/vague/structure/program.rs:109-116 | a child scope is appended with the given parent, exactly when the parent exists, and parents stay below their children |
| Store.LookupNearest | src/vague/structure/program.rs:117-126 | `LookupSymbol` finds a name exactly when some scope along the parent chain defines it, and returns the nearest such definition |
| Store.DefineThenLookup | src/vague/structure/program.rs:229-239 | after defining a symbol, looking it up from that scope finds the new variable |
| Store.ChildLookup | src/vague/structure/program.rs:109-126 | a fresh child scope answers every lookup as its parent does |
| Store.LookupUnchanged | src/vague/structure/program.rs:103-126 | appending scopes does not change lookups from existing scopes |
| Store.ModifyVariable | src/vague/structure/program.rs:127-131 | replaces exactly one variable, and fails on a missing id |
| Store.AdoptVariable | src/vague/structure/program.rs:132-137 | the variable is appended, its id is the old variable count, and the scopes do not change |
| Store.SetDataType | src/vague/structure/program.rs:138-142 | changes exactly the type of one variable, and fails on a missing id |
| Store.ResetAllTemporaryValue | src/vague/structure/program.rs:211-216 | every variable's temporary value is reset to its initial value, and nothing else changes |
| Store.AdoptAndDefineSymbol | src/vague/structure/program.rs:229-239 | the variable is appended and the name is bound to it in that scope only; every other scope is unchanged |
| Store.AdoptAndDefineIntermediate | src/resolved/structure/program.rs:154-162 | the variable is appended and listed after the scope's existing intermediates; other scopes are unchanged |
| VagueProgram.BorrowValueOf | src/vague/structure/program.rs:143-172 | a literal reads as itself, a variable as its temporary value, and a missing variable or a complex expression fails |
| VagueProgram.AccessReadsElement | src/vague/structure/program.rs:143-172 | an indexed access reads the element of the base's value at the indexes' values |
| VagueProgram.ReadsOnlyTemporaries | src/vague/structure/program.rs:143-172 | reading an expression depends only on the variables' temporary values |
| VagueProgram.ModifyThenRead | src/vague/structure/program.rs:127-172 | reading a variable after replacing it gives the replacement's temporary value |
| VagueProgram.ReadBuiltArray | src/vague/structure/program.rs:143-172 | indexing a built array literal with integer literals succeeds exactly in bounds |
| FuncCalls.AddIndexesInOrder | src/structure/func_call.rs:11-21 | adding indexes one at a time to a new access yields the access with those indexes in order |
| FuncCalls.NewCall | src/structure/func_call.rs:52-60 | a new call has the given callee and position and no inputs or outputs |
| FuncCalls.SetPosition | src/structure/func_call.rs:61-63 | only the position changes |
| FuncCalls.SetFunction | src/structure/func_call.rs:69-71 | only the callee changes |
| FuncCalls.BorrowDataType | src/structure/func_call.rs:34-40 | an unindexed access to an existing variable has the variable's type; anything else panics |
| FuncCalls.AddInput | src/structure/func_call.rs:73-76 | appends one input and changes nothing else |
| FuncCalls.AddOutput | src/structure/func_call.rs:81-84 | appends one output and changes nothing else |
| Unify.BiggestType | src/resolved/ingest/util.rs:167-207 | `Automatic` yields the other type, equal types yield themselves, and an array operand yields an array |
| Unify.BiggestTypeSymmetric | src/resolved/ingest/util.rs:167-207 | the biggest common type does not depend on operand order |
| Unify.BiggestTypeUpperBound | src/resolved/ingest/util.rs:167-207 | both operands widen into their biggest common type |
| Unify.BiggestTypeLeast | src/resolved/ingest/util.rs:167-207 | any type both operands widen into is reached from their biggest common type, which therefore exists |
| Unify.BiggestTypeFails | src/resolved/ingest/util.rs:199-205 | distinct scalar types have no biggest common type |
| Fold.IntArith | src/resolved/ingest/util.rs:82-117 | `i64` arithmetic: an in-range result is the mathematical one, with truncating division and remainder and `Pow` for powers; between `i64` operands, division and remainder fail exactly on a zero divisor and on `i64::MIN / -1`; overflow and an exponent outside `u32` abort |
| Fold.SameData | src/resolved/ingest/util.rs:125-133 | `==` is defined exactly on two values of the same variant and then agrees with the derived equality, which compares floats as IEEE numbers, also inside arrays |
| Fold.ValueEqWithoutFloats | src/resolved/ingest/util.rs:125-133 | without floats, `==` is structural equality with functions compared by body |
| Fold.SameDataSymmetric | src/resolved/ingest/util.rs:125-142 | `==` gives the same answer with the operands swapped, when no float is involved or float equality is symmetric |
| Fold.ComputeImpl | src/resolved/ingest/util.rs:76-166 | `&&` and `||` short-circuit: a `false` (for `&&`) or `true` (for `||`) left operand decides without reading the right one; logical and comparison operators yield booleans; bitwise operators need integers; arithmetic and ordering on booleans abort |
| Fold.Compute | src/resolved/ingest/util.rs:13-74 | the result is an array exactly when an operand is, and stays within `i64` |
| Fold.Broadcast | src/resolved/ingest/util.rs:18-53 | two arrays combine item by item when their lengths agree or one has length 1 |
| Fold.MapLeft | src/resolved/ingest/util.rs:54-62 | an array and a scalar combine item by item, and fail exactly when some item fails |
| Fold.ComputeLengthMismatch | src/resolved/ingest/util.rs:18-53 | arrays of different lengths, neither of length 1, do not combine |
| Fold.ComputeCommutative | src/resolved/ingest/util.rs:13-166 | for a commutative operator, swapping the operands, nested arrays included, gives the same result; for `&&` and `||` only on booleans or arrays of booleans, as short-circuiting makes `false && 5` fold and `5 && false` abort |
| Fold.ResolveLift | src/resolved/ingest/util.rs:208-225 | a run-time value lifted to a compile-time value resolves back to itself |
| Fold.LiftResolve | src/resolved/ingest/util.rs:208-225 | a resolvable compile-time value is the lift of its resolution |
| Fold.ResolveKnownData | src/resolved/ingest/util.rs:208-225 | a converted array keeps its length |
| Fold.ResolveOperatorFaithful | src/resolved/ingest/util.rs:226-247 | each operator maps to the resolved operator of the same name, and the mapping is a bijection |
| ResolveTable.PushTable | src/structure/resolve.rs:37-39 | the current table is saved on top of the stack, and nothing else changes |
| ResolveTable.PopTable | src/structure/resolve.rs:41-46 | popping restores the table saved last and fails on an empty stack |
| ResolveTable.AddConversion | src/structure/resolve.rs:48-54 | adding a conversion fails on an id that already has one; otherwise only that id's conversion changes |
| ResolveTable.Convert | src/structure/resolve.rs:56-60 | an id without a conversion converts to itself |
| ResolveTable.PushAddPop | src/structure/resolve.rs:37-54 | conversions added after a push are forgotten by the matching pop |
| ResolveTable.ConvertFuncCall | src/structure/resolve.rs:62-85 | a converted call converts its callee and every input and output access, keeping their order and its position |
| ResolveTable.ConvertWithEmptyTable | src/structure/resolve.rs:62-85 | with an empty table, conversion leaves a call unchanged |
| ResolveCopy.CopyScope | src/structure/resolve.rs:87-130 | copying succeeds whenever the owned ids are fresh and valid; the copy clones every symbol and intermediate, records each conversion and converts the parameter lists |
| ResolveCopy.CopiedLookup | src/structure/resolve.rs:87-130 | a name the original scope binds looks up, in the copy, its clone; any other name looks up as it does in the parent |
| ResolveTypes.ResolveDynamicDataType | src/structure/resolve.rs:151-167 | a non-dynamic type resolves to itself, and a resolved type contains no unresolved dynamic part |
| ResolveTypes.ResolveMoreFuel | src/structure/resolve.rs:151-167 | a resolution that succeeds keeps its result with more fuel |
| ResolveTypes.ResolveFollowsTarget | src/structure/resolve.rs:151-167 | a dynamic type resolves as the type its target variable holds |
| ResolveTypes.SelfReferenceRunsOut | src/structure/resolve.rs:151-167 | a dynamic type that refers to itself never resolves |
| ResolveTypes.ResolveDynamicDataTypes | src/structure/resolve.rs:169-196 | every symbol and intermediate of the scope ends resolved, and every other variable is unchanged |
| ResolveTypes.CombineTypeIntoTable | src/structure/resolve.rs:132-149 | a new parameter takes the argument's type; a known one takes the biggest common type, or `Void` when there is none |
| ResolveTypes.CombineClash | src/structure/resolve.rs:132-149 | two uses of one parameter with incompatible types leave it `Void` |
| ResolveTypes.CollectedSingle | src/structure/resolve.rs:275-308 | a parameter used once is inferred as the type of the argument at that position |
| ResolveTypes.ResolveTemplatedType | src/structure/resolve.rs:220-232 | a non-dynamic type stays; a dynamic one takes its parameter's inferred type; a parameter never inferred aborts |
| ResolveTypes.CollectedResolve | src/structure/resolve.rs:275-308 | every template parameter a call mentions has an inferred type |
| ResolveEmit.ResolveAutomaticOutputs | src/structure/resolve.rs:342-353 | only outputs of type `Automatic` get a type; such a base takes the type listed for the first of its outputs whose listed type is not `Automatic`, and stays `Automatic` when there is none |
| ResolveEmit.PassArguments | src/structure/resolve.rs:355-409 | each argument of a different type is replaced by a fresh variable of the expected type joined by a cast, in order; inputs' casts come before the call |
| ResolveEmit.NoCastsWhenSame | src/structure/resolve.rs:355-409 | arguments passed unchanged need no casts |
| ResolveEmit.EmitCall | src/structure/resolve.rs:314-409 | the scope body gains exactly the input casts, the call and the output casts, in that order |
| ResolveEmit.PinToParameters | src/structure/resolve.rs:440-449 | an `Automatic` output takes the type of its instance parameter; when no output is a parameter, the base takes the type of the parameter of its first output whose parameter is typed |
| ResolveCalls.CheckCall | src/structure/resolve.rs:239-273 | a callee that is not a function, or a wrong number of inputs or outputs, is reported as such; otherwise the call is converted |
| ResolveCalls.SetTemplateParameters | src/structure/resolve.rs:198-212 | each template parameter holds its inferred type as initial value, and no other variable changes |
| ResolveCalls.ResolveFunctionCall | src/structure/resolve.rs:234-516 | a checked call is emitted: a built-in against its declared types with template parameters filled in, any other function through a new instance with the table restored afterwards |
| ResolveCalls.Instantiate | src/structure/resolve.rs:410-436 | an instance is a fresh copy of the body scope with template parameters set, types resolved and statements resolved into it |
| ResolveCalls.ResolveBody | src/structure/resolve.rs:518-527 | each statement of the source scope adds at least one statement to the destination, and earlier scopes only grow |
| ResolveCalls.EntryPoint | src/structure/resolve.rs:529-535 | the entry scope is copied under its own parent with converted parameter lists and gets at least its original number of statements |
| ResolveCalls.ResolveScope | src/structure/resolve.rs:9-33 | resolving a scope appends its resolved copy and leaves the existing scopes as they were |
| SimplifyState.PopTable | src/resolved/ingest/expressions.rs:398 | the pop after an inlined call restores the table saved by the push at line 281, and fails on an empty stack |
| SimplifyExprs.SimplifyVariable | src/resolved/ingest/expressions.rs:9-33 | a variable whose temporary value has a type is interpreted as that value; any other becomes a reference to its converted id |
| SimplifyExprs.SimplifyVariableReads | src/resolved/ingest/expressions.rs:9-33 | the interpreted value of a variable is what the program reads for it, and is not unknown |
| SimplifyExprs.SplitIndexes | src/resolved/ingest/expressions.rs:52-88 | the leading compile-time indexes are taken as integers and the rest left as residual code, exactly when every known index is an integer |
| SimplifyExprs.KnownAccess | src/resolved/ingest/expressions.rs:89-151 | indexing a known array by known positions yields the element; with run-time positions left, it yields a residual access into the element |
| SimplifyExprs.RuntimeIndexes | src/resolved/ingest/expressions.rs:154-180 | succeeds exactly when every index is run-time or an integer |
| SimplifyExprs.SimplifyAccess | src/resolved/ingest/expressions.rs:35-192 | the result's type is the base's with one array level per index removed; known data with integer indexes is read at those positions; too many indexes abort |
| SimplifyExprs.IndexAppend | src/resolved/ingest/expressions.rs:89-151 | indexing by a concatenation of positions is indexing by one part and then the other |
| SimplifyExprs.ResidualAccessReads | src/resolved/ingest/expressions.rs:89-151 | the residual access into the known element reads what direct indexing of the whole array would |
| SimplifyExprs.SimplifyBinary | src/resolved/ingest/expressions.rs:194-270 | operands without a biggest common type are reported; two known operands are folded; otherwise both are converted to the common type in a residual operation |
| SimplifyExprs.SimplifyBinaryWidens | src/resolved/ingest/expressions.rs:194-270 | each operand's type widens into the result's type |
| SimplifyExprs.SimplifyBinaryCommutes | src/resolved/ingest/expressions.rs:194-270 | for a commutative operator on known operands, swapping them gives the same result; for `&&` and `||` the operands must be booleans or arrays of booleans |
| SimplifyCalls.Callee | src/resolved/ingest/expressions.rs:283-296 | a callee that is not known at compile time is a vague function |
| SimplifyCalls.BindThenRead | src/resolved/ingest/expressions.rs:309-320 | a parameter bound to an argument reads back as that argument |
| SimplifyCalls.BindOutputs | src/resolved/ingest/expressions.rs:322-366 | an inline return, or a run-time return, yields a return variable; without one there is none |
| SimplifyCalls.SurvivorsSpec | src/resolved/ingest/expressions.rs:371-395 | no `return` survives into the residual body, and it is empty exactly when every statement was interpreted |
| SimplifyCalls.RunBody | src/resolved/ingest/expressions.rs:371-395 | statements run in order and stop right after the first `return` |
| SimplifyCalls.Finish | src/resolved/ingest/expressions.rs:396-439 | the table saved by the push is restored; a residual call is appended only when the body leaves code; the value is the inline return's, or `Void` |
| SimplifyCalls.SimplifyFuncCall | src/resolved/ingest/expressions.rs:272-440 | a call fails as its callee fails, with `WrongNumberOfInputs` or `WrongNumberOfOutputs` on a count mismatch; otherwise its value is the inline-return parameter's compile-time value after the body, or a run-time variable when that is unknown, or `Void` without an inline return; the table stack is back as it was |
| SimplifyCalls.InlineBody | src/resolved/ingest/expressions.rs:322-440 | after the inputs are bound: an output count mismatch is `WrongNumberOfOutputs`, and the value is the inline-return parameter's value or `Void` |
| SimplifyAssign.SimplifyAssign | src/simplifier/statements.rs:6-54 | the target is simplified before the value; an `Automatic` target takes the value's type; a known value is assigned at once and a run-time value leaves a residual assignment and makes the variables it may write unknown |
| SimplifyAssign.Pin | src/simplifier/statements.rs:14-21 | an `Automatic` target is pinned; any other target must be equivalent to the value's type, or the assignment aborts |
| SimplifyAssign.MismatchAborts | src/simplifier/statements.rs:16-21 | assigning a value of a different type, without dynamic parts or size lists, to a typed target aborts |
| Trivial.BuildArray | src/trivial/structure/known_data.rs:61-68 | each level holds as many copies of the next as its dimension says |
| Trivial.GetType | src/trivial/structure/known_data.rs:70-80 | an array's type is its first item's type wrapped with the array's length; an empty array has none |
| Trivial.BuildArrayType | src/trivial/structure/known_data.rs:61-80 | a built array's type wraps the element's type in the dimensions |
| Trivial.BinaryData | src/trivial/structure/known_data.rs:82-95 | scalars encode as one 32-bit word (booleans as 1 or 0, integers wrapped to 32 bits) and arrays have no single word |
| Trivial.AddBinaryData | src/trivial/structure/known_data.rs:97-122 | appending a value's encoding to a buffer adds exactly that encoding after the existing bytes |
| Trivial.EncodingLength | src/trivial/structure/known_data.rs:97-122 | a value encodes to one byte per boolean leaf and four bytes per integer or float leaf |
| Trivial.IntArrayDecodes | src/trivial/structure/known_data.rs:97-122 | an integer array encodes to four bytes per item, and each four-byte group decodes to that item wrapped to `i32` |
| Trivial.RenderArray | src/trivial/structure/known_data.rs:13-31 | an array renders as its items' renderings joined by `", "` inside brackets |
| Trivial.RequireInt | src/trivial/structure/known_data.rs:124-130 | succeeds exactly on an integer, and returns its payload |
| Trivial.TypeTextInjective | src/trivial/structure/variable.rs:11-19 | distinct trivial types have distinct names |
| Trivial.WrapText | src/trivial/structure/variable.rs:11-19 | a type wrapped in dimensions is named by the bracketed dimensions before the element's name |
| Trivial.NewVariable | src/trivial/structure/variable.rs:33-41 | a new variable's type reads back as the one given |
| Trivial.VariableText | src/trivial/structure/variable.rs:27-31 | a variable is rendered as its type's name |
| X86Code.AdoptVariable | src/specialized/x86_64/ingest.rs:121-132 | a variable is appended and its id is the old count |
| Specialize.SpecializeOperator | src/specialized/x86_64/ingest.rs:29-45 | each trivial operator maps to the x86 operator of the same name |
| Specialize.SpecializeOperatorInjective | src/specialized/x86_64/ingest.rs:29-45 | distinct operators stay distinct |
| Specialize.SpecializeCondition | src/specialized/x86_64/ingest.rs:47-56 | each condition maps to the x86 condition of the same name |
| Specialize.SpecializeConditionInjective | src/specialized/x86_64/ingest.rs:47-56 | distinct conditions stay distinct |
| Specialize.SpecializeVariable | src/specialized/x86_64/ingest.rs:121-132 | a variable already seen maps to its earlier clone; a new one is cloned once and recorded; an id that does not exist aborts |
| Specialize.SpecializeVariableMemoised | src/specialized/x86_64/ingest.rs:121-132 | specialising keeps the mapping consistent and injective, only extends it, and specialising the same variable again gives the same clone without change |
| Specialize.SpecializeValue | src/specialized/x86_64/ingest.rs:90-119 | a supported value is translated to the x86 value denoting the same literal or the clone of the same variable; the instructions do not change |
| Specialize.SpecializeInstruction | src/specialized/x86_64/ingest.rs:58-88 | a supported instruction appends exactly one x86 instruction with the same operation, condition and translated operands; anything else aborts |
| Specialize.Ingest | src/specialized/x86_64/ingest.rs:5-27 | ingestion succeeds exactly when every instruction is supported, and then the k-th x86 instruction specialises the k-th trivial one under one consistent variable mapping |
| Parser.OperatorTable | src/parser/parser.rs:94-192 | the operator constants have distinct ids equal to their table positions; all but `**` are left-associative; precedence follows the operator groups |
| Parser.OpStrToOperator | src/parser/parser.rs:194-236 | a recognised symbol yields the operator at its table position; an unrecognised one yields nothing |
| Parser.OperatorTextRoundTrip | src/parser/parser.rs:194-236 | every operator's symbol is recognised as that operator |
| Parser.OperatorToOpFn | src/parser/parser.rs:238-280 | every real operator, and only those, has a built-in function |
| Parser.OperatorCallsItsBuiltin | src/parser/parser.rs:194-280 | a recognised symbol's operator calls the built-in named for that symbol |
| Parser.Drain | src/parser/parser.rs:326-347 | draining the operator stack succeeds exactly when there is one more operand than there are calls to make and every stacked operator has a built-in; it emits one call per operator, from the top, feeding each result to the next, and leaves the final result on the operand stack |

## Left out

- Floating point. Float values are opaque bit patterns. Arithmetic, comparison
  and rendering of floats are function parameters (`FloatOps`, `FloatBits`,
  the float printer). Folding and encoding carry preconditions only where the
  model needs them.
- Problem descriptions and file positions in diagnostics. Errors are the
  `Problem` variants, without message text.
- The source's own parsing of text into the vague IR is not modelled:
  - the pest grammar and the tree walk (`convert_expr_part` and its
    callers) are not part of this model;
  - of the parser, the model covers the operator table, `parse_dec_int` and
    the drain of the operator stack at the end of an expression;
  - the reduction inside the loop is not covered. When the incoming
    operator binds more weakly than the operator on top of the stack, the
    loop enters its reducing branch. That branch never re-reads the top of
    the stack and never pushes the operator, so it combines operands pass
    after pass until `operand_stack.pop().unwrap()` panics on an empty
    operand stack; for `a * b + c` that happens at the second pass.
- `find_parent_function`, `lookup_and_clone_parent_function` and
  `make_intermediate_auto_var` are not modelled.
- The LLVM back end, the command-line driver and the C++ prototype are not
  modelled.
- Collaborators whose code is not part of this model enter as parameters:
  - in the simplifier, the expression dispatcher, `inflate`, `to_output_type`,
    the simplifier's `copy_scope`, the compile-time and run-time assignment
    helpers and the pinning of non-variable targets (`Oracles`,
    `AssignOracles`);
  - `get_physical_size` of the specialiser (`PhysicalSize`);
  - the table of built-in function ids the parser calls (`Builtins`).
- `create_cast` and `add_func_call` of the resolver are not part of this
  model. A cast is modelled as a call of the cast built-in with one input
  and one output, appended to the scope body.
- Fuel:
  - instantiation of functions nested deeper than the fuel given;
  - chains of dynamic types longer than the fuel given;
  both end in `OutOfFuel`, where the source recurses without bound.
- The specialiser's source instructions are the operator and comparison
  forms of the trivial IR. Any other instruction kind, and any indexed
  value, is `Abort`, as the source's `unimplemented!` would panic.
- SimplifyCalls.RunBody: does not state where surviving statements are
  copied, only their order and where execution stops, because the copy is
  made by the simplifier's `copy_scope`, which is a parameter.
- ResolveTypes.CombineTypeIntoTable: `structure::biggest_common_type`,
  which the source calls here, is not part of this model. The resolved IR's
  `biggest_type` (`Unify.BiggestType`) stands in for it, with `Void` for
  "no common type".
- ResolveTypes.CombineClash: states the clash for the same stand-in,
  `Unify.BiggestType`, not for `structure::biggest_common_type`, which is
  not part of this model.
- Variables.EquivalentNoDynamic: covers only types whose arrays have
  literal lengths. For arrays with size lists, equivalence is not equality:
  the size lists are zipped, so `[n][m]Int` is equivalent to `[n]Int`
  (`Variables.ExtraSizesIgnored`).
- SimplifyAssign.MismatchAborts: covers only types without size lists, for
  the same reason: an assignment between array types whose size lists agree
  up to the shorter list does not abort.
- ResolveCalls.EntryPoint: `enable_automatic_interpretation` and
  `disable_automatic_interpretation` are not modelled. They switch a mode
  of the program whose effect lies in code that is not part of this model.
- SimplifyExprs.SimplifyAccess: `clone_and_unwrap` is not part of this
  model. `Unwrap` assumes it removes one array level per index and fails
  when there are more indexes than levels.
- Variables.SizedArrayEquivalent, Variables.SizesAgreeZip: reading a size
  through `borrow_value_of` of the structure program is not part of this
  model. `SizeValue` reads it as the vague program reads an access: the base
  variable's temporary value, indexed by the values of the index variables.
- SimplifyState.PopTable: the bodies of the simplifier's own `push_table`,
  `pop_table`, `add_conversion`, `convert`, `set_temporary_value` and
  `borrow_temporary_value` are not part of this model, only their call sites
  (src/resolved/ingest/expressions.rs:14-20, 281, 316-318, 347, 363, 398, 411).
  Their behaviour is assumed. `PopTable` gives `None` on an empty stack.
  `AddConversion` overwrites an earlier conversion, whereas the resolver's
  `add_conversion` asserts there is none. `SimplifyVariable` reads an
  unknown value, or an empty array, as having no data type and takes the
  run-time path. That follows the `Result`-returning `get_data_type` that
  expressions.rs:14-15 is written against. The vague `get_data_type` at
  src/vague/structure/known_data.rs:99-113 returns a bare type instead, and
  panics on an empty array.
- SimplifyCalls.SimplifyFuncCall: states the residual call only through
  `Finish`, because the scope the body is copied into comes from the
  simplifier's `copy_scope`, which is a parameter.
- SimplifyCalls.SimplifyFuncCall: the table stack is only proved restored
  under the hypothesis `Disciplined`, which says that every collaborator
  leaves the stack as it found it; the collaborators' code is not part of
  this model.
- ResolveCalls.ResolveBody: states that the destination only grows, not the
  exact statements added, which are described call by call in
  `ResolveFunctionCall`.
- ResolveCopy.CopyScope: requires that the scope being copied exists, as do
  `ResolveFunctionCall`, `ResolveBody`, `Instantiate`, `PassArguments`,
  `EmitCall`, `Store.AdoptAndDefineSymbol` and
  `Store.AdoptAndDefineIntermediate` for the scopes they write into. The source indexes the arena
  and would panic on a missing scope; every caller passes a scope it has
  just created or read from an existing function.
- Balance of the table stacks on error paths is not claimed. The code
  returns early with `?` before its `pop_table`, so after an error the stack
  can hold an extra table. The model does the same.
- A second inline return in one call raises no error. The code keeps the
  last one, and so does the model.

=== FILE: decimal.dfy ===
/** Decimal text: Rust's `{}` formatting of integers and `str::parse::<i64>`,
    shared by the value printers and by the literal parser. */
module Decimal {
  import opened Wrappers
  import opened Ints

  predicate IsDigit(c: char) {
    '0' <= c <= '9'
  }

  predicate AllDigits(s: string) {
    forall i | 0 <= i < |s| :: IsDigit(s[i])
  }

  function DigitChar(d: nat): (c: char)
    requires d < 10
    ensures IsDigit(c) && c as int - '0' as int == d
  {
    ('0' as int + d) as char
  }

  /** Decimal text of a natural number with no leading zeros. */
  function NatText(n: nat): (s: string)
    ensures |s| > 0 && AllDigits(s)
    decreases n
  {
    if n < 10 then [DigitChar(n)] else NatText(n / 10) + [DigitChar(n % 10)]
  }

  /** Rust's `{}` of a signed integer. */
  function IntText(x: int): (s: string)
    ensures |s| > 0
  {
    if x < 0 then "-" + NatText(-x) else NatText(x)
  }

  /** The number a string of decimal digits denotes. */
  function DigitsValue(s: string): nat
    requires AllDigits(s)
    decreases |s|
  {
    if s == [] then 0 else 10 * DigitsValue(s[..|s| - 1]) + (s[|s| - 1] as int - '0' as int)
  }

  /** Reading back the decimal text of `n` gives `n`. */
  lemma {:induction false} NatTextValue(n: nat)
    ensures DigitsValue(NatText(n)) == n
    decreases n
  {
    if n >= 10 {
      NatTextValue(n / 10);
      var s := NatText(n);
      assert s[..|s| - 1] == NatText(n / 10);
    }
  }

  /** Different numbers print differently. */
  lemma NatTextInjective(a: nat, b: nat)
    requires NatText(a) == NatText(b)
    ensures a == b
  {
    NatTextValue(a);
    NatTextValue(b);
  }

  /** `str::replace("_", "")`. */
  function RemoveUnderscores(s: string): (r: string)
    ensures forall i | 0 <= i < |r| :: r[i] != '_'
    ensures |r| <= |s|
  {
    if s == [] then [] else (if s[0] == '_' then [] else [s[0]]) + RemoveUnderscores(s[1..])
  }

  lemma {:induction false} RemoveUnderscoresFixed(s: string)
    requires forall i | 0 <= i < |s| :: s[i] != '_'
    ensures RemoveUnderscores(s) == s
    decreases |s|
  {
    if s != [] {
      RemoveUnderscoresFixed(s[1..]);
    }
  }

  lemma {:induction false} AllUnderscoresVanish(s: string)
    requires forall i | 0 <= i < |s| :: s[i] == '_'
    ensures RemoveUnderscores(s) == []
    decreases |s|
  {
    if s != [] {
      AllUnderscoresVanish(s[1..]);
    }
  }

  /** `str::parse::<i64>`: an optional `+` or `-`, then one or more decimal
      digits whose value fits in `i64`; anything else is an error. */
  function ParseI64(s: string): (r: Option<int>)
    ensures r.Some? ==> IsI64(r.value)
  {
    if |s| > 0 && (s[0] == '+' || s[0] == '-') then
      var digits := s[1..];
      if |digits| > 0 && AllDigits(digits) then
        var v := if s[0] == '-' then -(DigitsValue(digits) as int) else DigitsValue(digits);
        if IsI64(v) then Some(v) else None
      else None
    else if |s| > 0 && AllDigits(s) && IsI64(DigitsValue(s)) then Some(DigitsValue(s))
    else None
  }

  /** `parse_dec_int`: drop every underscore, then parse as `i64`; `None`
      stands for the `unwrap` panic. */
  function ParseDecInt(input: string): (r: Option<int>)
    ensures r.Some? ==> IsI64(r.value)
    ensures RemoveUnderscores(input) == [] ==> r.None?
  {
    ParseI64(RemoveUnderscores(input))
  }

  /** Every `i64` survives printing and re-parsing. */
  lemma ParseDecIntOfText(x: int)
    requires IsI64(x)
    ensures ParseDecInt(IntText(x)) == Some(x)
  {
    if x < 0 {
      NegativeTextParses(x);
    } else {
      NatTextParses(x);
    }
  }

  lemma NegativeTextParses(x: int)
    requires IsI64(x) && x < 0
    ensures ParseDecInt(IntText(x)) == Some(x)
  {
    var s := IntText(x);
    var t := NatText(-x);
    NatTextValue(-x);
    assert s == "-" + t && s[1..] == t;
    forall i | 0 <= i < |s| ensures s[i] != '_' {
      if i > 0 { assert s[i] == t[i - 1]; }
    }
    RemoveUnderscoresFixed(s);
    assert s[0] == '-';
  }

  lemma NatTextParses(x: int)
    requires IsI64(x) && x >= 0
    ensures ParseDecInt(IntText(x)) == Some(x)
  {
    var s := IntText(x);
    NatTextValue(x);
    assert IsDigit(s[0]);
    RemoveUnderscoresFixed(s);
  }

  /** Underscores are digit separators only: removing them first changes
      nothing, and a numeral made only of underscores is rejected. */
  lemma ParseDecIntIgnoresUnderscores(s: string)
    ensures ParseDecInt(RemoveUnderscores(s)) == ParseDecInt(s)
    ensures (forall i | 0 <= i < |s| :: s[i] == '_') ==> ParseDecInt(s) == None
  {
    RemoveUnderscoresFixed(RemoveUnderscores(s));
    if forall i | 0 <= i < |s| :: s[i] == '_' {
      AllUnderscoresVanish(s);
    }
  }
}

=== FILE: fold.dfy ===
/** Compile-time evaluation of binary operations, and the conversion of
    compile-time values and operators into the resolved IR. */
module Fold {
  import opened Wrappers
  import opened Ints
  import opened Types
  import VagueData

  /** Floating-point arithmetic and comparison are outside this model; they
      enter as opaque functions of the bit patterns. */
  datatype FloatOps = FloatOps(arith: (BinaryOperator, nat, nat) -> nat, compare: (BinaryOperator, nat, nat) -> bool)

  /** `i64` arithmetic with Rust's debug-build semantics: overflow, division
      by zero and an exponent outside `u32` abort. */
  function IntArith(op: BinaryOperator, x: int, y: int): (r: Option<int>)
    requires op in {Add, Subtract, Multiply, Divide, Modulo, Power}
    ensures r.Some? ==> IsI64(r.value)
    ensures op == Add ==> r == (if IsI64(x + y) then Some(x + y) else None)
    ensures op == Subtract ==> r == (if IsI64(x - y) then Some(x - y) else None)
    ensures op == Multiply ==> r == (if IsI64(x * y) then Some(x * y) else None)
    ensures op in {Divide, Modulo} && r.Some? ==> y != 0 && !(x == I64_MIN && y == -1)
    ensures op in {Divide, Modulo} && IsI64(x) && IsI64(y) ==> (r.Some? <==> y != 0 && !(x == I64_MIN && y == -1))
    ensures op == Divide && r.Some? ==> x == y * r.value + TruncRem(x, y)
    ensures op == Modulo && r.Some? ==> x == y * TruncDiv(x, y) + r.value && Abs(r.value) < Abs(y)
    ensures op == Power ==> r == (if 0 <= y < TWO_32 && IsI64(Pow(x, y)) then Some(Pow(x, y)) else None)
  {
    match op
    case Add => if IsI64(x + y) then Some(x + y) else None
    case Subtract => if IsI64(x - y) then Some(x - y) else None
    case Multiply => if IsI64(x * y) then Some(x * y) else None
    case Divide =>
      if y == 0 || (x == I64_MIN && y == -1) then None
      else
        TruncDivRem(x, y);
        if IsI64(x) && IsI64(y) then I64DivisionInRange(x, y); DivideOrAbort(x, y)
        else DivideOrAbort(x, y)
    case Modulo =>
      if y == 0 || (x == I64_MIN && y == -1) then None
      else
        TruncDivRem(x, y);
        if IsI64(x) && IsI64(y) then I64DivisionInRange(x, y); RemainderOrAbort(x, y)
        else RemainderOrAbort(x, y)
    case Power =>
      if 0 <= y < TWO_32 then
        var p := Pow(x, y);
        if IsI64(p) then Some(p) else None
      else None
  }

  function DivideOrAbort(x: int, y: int): Option<int>
    requires y != 0
  {
    var q := TruncDiv(x, y);
    if IsI64(q) then Some(q) else None
  }

  function RemainderOrAbort(x: int, y: int): Option<int>
    requires y != 0
  {
    var m := TruncRem(x, y);
    if IsI64(m) then Some(m) else None
  }

  /** Between `i64` operands the only overflowing division is `i64::MIN / -1`. */
  lemma I64DivisionInRange(x: int, y: int)
    requires IsI64(x) && IsI64(y) && y != 0 && !(x == I64_MIN && y == -1)
    ensures IsI64(TruncDiv(x, y)) && IsI64(TruncRem(x, y))
  {
    TruncMagnitudes(x, y);
    if Abs(y) == 1 {
      assert Abs(x) / Abs(y) == Abs(x);
    } else {
      SmallQuotient(Abs(x), Abs(y));
    }
  }

  lemma SmallQuotient(a: nat, b: nat)
    requires 2 <= b && a <= TWO_63
    ensures a / b <= TWO_63 / 2
  {
    var q := a / b;
    NaturalDivMod(a, b);
    assert q * 2 <= q * b;
  }

  /** The derived `==` of the vague IR's values: floats compare as IEEE
      numbers, functions by body only, arrays item by item. */
  predicate ValueEq(a: KnownData, b: KnownData, fl: FloatOps) {
    match a
    case FloatValue(x) => b.FloatValue? && fl.compare(Equal, x, b.bits)
    case FunctionValue(f) => b.FunctionValue? && SameFunction(f, b.f, false)
    case ArrayValue(xs) =>
      b.ArrayValue? && |xs| == |b.items| &&
      forall i | 0 <= i < |xs| :: ValueEq(xs[i], b.items[i], fl)
    case _ => a == b
  }

  /** Values of the same variant, the only pairs `==` accepts. */
  predicate SameVariant(a: KnownData, b: KnownData) {
    match a
    case BoolValue(_) => b.BoolValue?
    case IntValue(_) => b.IntValue?
    case FloatValue(_) => b.FloatValue?
    case TypeValue(_) => b.TypeValue?
    case FunctionValue(_) => b.FunctionValue?
    case ArrayValue(_) => b.ArrayValue?
    case _ => false
  }

  /** `==` between two values of the vague IR: payloads of the same variant are
      compared; any other pairing aborts. */
  function SameData(a: KnownData, b: KnownData, fl: FloatOps): (r: Option<bool>)
    ensures r.Some? <==> SameVariant(a, b)
    ensures r.Some? ==> r.value == ValueEq(a, b, fl)
  {
    match a
    case BoolValue(x) => var y :- VagueData.RequireBool(b); Some(x == y)
    case IntValue(x) => var y :- VagueData.RequireInt(b); Some(x == y)
    case FloatValue(x) => var y :- VagueData.RequireFloat(b); Some(fl.compare(Equal, x, y))
    case TypeValue(t) => var u :- VagueData.RequireDataType(b); Some(t == u)
    case FunctionValue(f) => var g :- VagueData.RequireMacro(b); Some(SameFunction(f, g, false))
    case ArrayValue(_) => var items :- VagueData.RequireArray(b); Some(ValueEq(a, ArrayValue(items), fl))
    case VoidValue => None
    case Unknown => None
  }

  /** Without floats, `==` is the model's structural equality (functions by
      body). */
  lemma {:induction false} ValueEqWithoutFloats(a: KnownData, b: KnownData, fl: FloatOps)
    requires FloatFree(a)
    ensures ValueEq(a, b, fl) <==> DataEq(a, b, false)
  {
    if a.ArrayValue? && b.ArrayValue? && |a.items| == |b.items| {
      forall i | 0 <= i < |a.items| ensures ValueEq(a.items[i], b.items[i], fl) <==> DataEq(a.items[i], b.items[i], false) {
        ValueEqWithoutFloats(a.items[i], b.items[i], fl);
      }
    }
  }

  /** IEEE equality is symmetric. */
  ghost predicate SymmetricEquality(fl: FloatOps) {
    forall x: nat, y: nat :: fl.compare(Equal, x, y) == fl.compare(Equal, y, x)
  }

  lemma {:induction false} ValueEqSymmetric(a: KnownData, b: KnownData, fl: FloatOps)
    requires (FloatFree(a) && FloatFree(b)) || SymmetricEquality(fl)
    requires ValueEq(a, b, fl)
    ensures ValueEq(b, a, fl)
  {
    if a.ArrayValue? {
      forall i | 0 <= i < |b.items| ensures ValueEq(b.items[i], a.items[i], fl) {
        ValueEqSymmetric(a.items[i], b.items[i], fl);
      }
    }
  }

  /** One binary operation on two non-broadcast operands. */
  function ComputeImpl(a: KnownData, op: BinaryOperator, b: KnownData, fl: FloatOps): (r: Option<KnownData>)
    requires I64Data(a) && I64Data(b)
    ensures r.Some? ==> I64Data(r.value) && !r.value.ArrayValue?
    ensures r.Some? && op in {And, Or, Xor, Equal, NotEqual, LessThan, GreaterThan, LessThanOrEqual, GreaterThanOrEqual} ==> r.value.BoolValue?
    ensures r.Some? && op in {BAnd, BOr, BXor} ==> r.value.IntValue? && a.IntValue? && b.IntValue?
    ensures r.Some? && op in {And, Or, Xor} ==> a.BoolValue?
    ensures r.Some? && op == Xor ==> b.BoolValue?
    ensures op == And && a == BoolValue(false) ==> r == Some(BoolValue(false))
    ensures op == Or && a == BoolValue(true) ==> r == Some(BoolValue(true))
    ensures op in {And, Or, Xor} && a.BoolValue? && b.BoolValue? ==>
              r == Some(BoolValue(if op == And then a.b && b.b else if op == Or then a.b || b.b else a.b != b.b))
    ensures a.BoolValue? && op in {Add, Subtract, Multiply, Divide, Modulo, Power, LessThan, GreaterThan, LessThanOrEqual, GreaterThanOrEqual} ==> r.None?
  {
    match op
    case And => var x :- VagueData.RequireBool(a); if !x then Some(BoolValue(false)) else var y :- VagueData.RequireBool(b); Some(BoolValue(y))
    case Or => var x :- VagueData.RequireBool(a); if x then Some(BoolValue(true)) else var y :- VagueData.RequireBool(b); Some(BoolValue(y))
    case Xor => var x :- VagueData.RequireBool(a); var y :- VagueData.RequireBool(b); Some(BoolValue(x != y))
    case BAnd => var x :- VagueData.RequireInt(a); var y :- VagueData.RequireInt(b); Some(IntValue(BitAnd(x, y)))
    case BOr => var x :- VagueData.RequireInt(a); var y :- VagueData.RequireInt(b); Some(IntValue(BitOr(x, y)))
    case BXor => var x :- VagueData.RequireInt(a); var y :- VagueData.RequireInt(b); Some(IntValue(BitXor(x, y)))
    case Equal => var same :- SameData(a, b, fl); Some(BoolValue(same))
    case NotEqual => var same :- SameData(a, b, fl); Some(BoolValue(!same))
    case LessThan => Order(a, op, b, fl)
    case GreaterThan => Order(a, op, b, fl)
    case LessThanOrEqual => Order(a, op, b, fl)
    case GreaterThanOrEqual => Order(a, op, b, fl)
    case Add => Arith(a, op, b, fl)
    case Subtract => Arith(a, op, b, fl)
    case Multiply => Arith(a, op, b, fl)
    case Divide => Arith(a, op, b, fl)
    case Modulo => Arith(a, op, b, fl)
    case Power => Arith(a, op, b, fl)
  }

  /** The ordering comparisons: integers against integers, floats against floats. */
  function Order(a: KnownData, op: BinaryOperator, b: KnownData, fl: FloatOps): (r: Option<KnownData>)
    requires op in {LessThan, GreaterThan, LessThanOrEqual, GreaterThanOrEqual}
    ensures r.Some? ==> r.value.BoolValue? && (a.IntValue? || a.FloatValue?)
  {
    match a
    case IntValue(x) => var y :- VagueData.RequireInt(b); Some(BoolValue(IntCompare(op, x, y)))
    case FloatValue(x) => var y :- VagueData.RequireFloat(b); Some(BoolValue(fl.compare(op, x, y)))
    case _ => None
  }

  /** The arithmetic operators: integers against integers, floats against floats. */
  function Arith(a: KnownData, op: BinaryOperator, b: KnownData, fl: FloatOps): (r: Option<KnownData>)
    requires op in {Add, Subtract, Multiply, Divide, Modulo, Power}
    ensures r.Some? ==> (r.value.IntValue? && IsI64(r.value.i)) || r.value.FloatValue?
    ensures a.IntValue? ==> r == (if b.IntValue? && IntArith(op, a.i, b.i).Some? then Some(IntValue(IntArith(op, a.i, b.i).value)) else None)
  {
    match a
    case IntValue(x) => var y :- VagueData.RequireInt(b); var v :- IntArith(op, x, y); Some(IntValue(v))
    case FloatValue(x) => var y :- VagueData.RequireFloat(b); Some(FloatValue(fl.arith(op, x, y)))
    case _ => None
  }

  function IntCompare(op: BinaryOperator, x: int, y: int): bool
    requires op in {LessThan, GreaterThan, LessThanOrEqual, GreaterThanOrEqual}
  {
    match op
    case LessThan => x < y
    case GreaterThan => x > y
    case LessThanOrEqual => x <= y
    case GreaterThanOrEqual => x >= y
  }

  /** The item a broadcast reads: a one-item array supplies its item at every
      position. */
  function Pick(items: seq<KnownData>, i: nat): KnownData
    requires |items| == 1 || i < |items|
  {
    if |items| == 1 then items[0] else items[i]
  }

  /** Lengths two arrays can be combined at: equal, or one of them 1, and never
      an empty array against a non-empty one. */
  predicate Compatible(n: nat, m: nat) {
    (n == m || n == 1 || m == 1) && !(Max(n, m) > 0 && (n == 0 || m == 0))
  }

  /** A binary operation on compile-time values. Two arrays combine item by item,
      a one-item array standing for any length; an array and a scalar combine
      every item with the scalar. */
  function Compute(a: KnownData, op: BinaryOperator, b: KnownData, fl: FloatOps): (r: Option<KnownData>)
    requires I64Data(a) && I64Data(b)
    ensures r.Some? ==> I64Data(r.value)
    ensures r.Some? ==> (r.value.ArrayValue? <==> a.ArrayValue? || b.ArrayValue?)
    decreases a, b, 1
  {
    if a.ArrayValue? && b.ArrayValue? then Broadcast(a, op, b, fl)
    else if a.ArrayValue? then MapLeft(a.items, op, b, fl)
    else if b.ArrayValue? then MapRight(a, op, b.items, fl)
    else ComputeImpl(a, op, b, fl)
  }

  /** Two arrays, as the source's loop combines them: each side's position
      advances unless that side alone has length 1. */
  function Broadcast(a: KnownData, op: BinaryOperator, b: KnownData, fl: FloatOps): (r: Option<KnownData>)
    requires a.ArrayValue? && b.ArrayValue? && I64Data(a) && I64Data(b)
    ensures r.Some? <==> Compatible(|a.items|, |b.items|) &&
                         forall i | 0 <= i < Max(|a.items|, |b.items|) :: Compute(Pick(a.items, i), op, Pick(b.items, i), fl).Some?
    ensures r.Some? ==>
              r.value.ArrayValue? && |r.value.items| == Max(|a.items|, |b.items|) && I64Data(r.value) &&
              forall i | 0 <= i < |r.value.items| :: Compute(Pick(a.items, i), op, Pick(b.items, i), fl) == Some(r.value.items[i])
    decreases a, b, 0
  {
    var xs, ys := a.items, b.items;
    if !(|xs| == |ys| || |xs| == 1 || |ys| == 1) then None
    else
      var incA := |xs| == |ys| || |xs| != 1;
      var incB := |xs| == |ys| || |xs| == 1;
      var n := Max(|xs|, |ys|);
      if n > 0 && (|xs| == 0 || |ys| == 0) then None
      else
        var rs := seq(n, i requires 0 <= i < n =>
          Compute(xs[if incA then i else 0], op, ys[if incB then i else 0], fl));
        assert forall i | 0 <= i < n :: rs[i] == Compute(Pick(xs, i), op, Pick(ys, i), fl);
        if forall i | 0 <= i < n :: rs[i].Some? then
          Some(ArrayValue(seq(n, i requires 0 <= i < n => rs[i].value)))
        else None
  }

  /** An array on the left of a scalar. */
  function MapLeft(xs: seq<KnownData>, op: BinaryOperator, b: KnownData, fl: FloatOps): (r: Option<KnownData>)
    requires I64Data(ArrayValue(xs)) && I64Data(b)
    ensures r.Some? <==> forall i | 0 <= i < |xs| :: ComputeImpl(xs[i], op, b, fl).Some?
    ensures r.Some? ==>
              r.value.ArrayValue? && |r.value.items| == |xs| && I64Data(r.value) &&
              forall i | 0 <= i < |xs| :: ComputeImpl(xs[i], op, b, fl) == Some(r.value.items[i])
  {
    var rs := seq(|xs|, i requires 0 <= i < |xs| => ComputeImpl(xs[i], op, b, fl));
    assert forall i | 0 <= i < |xs| :: rs[i] == ComputeImpl(xs[i], op, b, fl);
    if forall i | 0 <= i < |xs| :: rs[i].Some? then
      Some(ArrayValue(seq(|xs|, i requires 0 <= i < |xs| => rs[i].value)))
    else None
  }

  /** An array on the right of a scalar. */
  function MapRight(a: KnownData, op: BinaryOperator, ys: seq<KnownData>, fl: FloatOps): (r: Option<KnownData>)
    requires I64Data(a) && I64Data(ArrayValue(ys))
    ensures r.Some? <==> forall i | 0 <= i < |ys| :: ComputeImpl(a, op, ys[i], fl).Some?
    ensures r.Some? ==>
              r.value.ArrayValue? && |r.value.items| == |ys| && I64Data(r.value) &&
              forall i | 0 <= i < |ys| :: ComputeImpl(a, op, ys[i], fl) == Some(r.value.items[i])
  {
    var rs := seq(|ys|, i requires 0 <= i < |ys| => ComputeImpl(a, op, ys[i], fl));
    assert forall i | 0 <= i < |ys| :: rs[i] == ComputeImpl(a, op, ys[i], fl);
    if forall i | 0 <= i < |ys| :: rs[i].Some? then
      Some(ArrayValue(seq(|ys|, i requires 0 <= i < |ys| => rs[i].value)))
    else None
  }

  /** Arrays of lengths that are neither equal nor 1 cannot be combined. */
  lemma ComputeLengthMismatch(xs: seq<KnownData>, op: BinaryOperator, ys: seq<KnownData>, fl: FloatOps)
    requires I64Data(ArrayValue(xs)) && I64Data(ArrayValue(ys))
    requires |xs| != |ys| && |xs| != 1 && |ys| != 1
    ensures Compute(ArrayValue(xs), op, ArrayValue(ys), fl).None?
  {
    assert !Compatible(|xs|, |ys|);
  }

  predicate Commutative(op: BinaryOperator) {
    op in {Add, Multiply, And, Or, Xor, BAnd, BOr, BXor, Equal, NotEqual}
  }

  /** A boolean, or an array of booleans: the operands `&&` and `||` commute
      on. They short-circuit, so `false && 5` folds to `false` while `5 && false`
      aborts. */
  predicate BoolVector(k: KnownData) {
    k.BoolValue? || (k.ArrayValue? && forall i | 0 <= i < |k.items| :: k.items[i].BoolValue?)
  }

  lemma SameDataSymmetric(a: KnownData, b: KnownData, fl: FloatOps)
    requires (FloatFree(a) && FloatFree(b)) || SymmetricEquality(fl)
    ensures SameData(a, b, fl) == SameData(b, a, fl)
  {
    if ValueEq(a, b, fl) { ValueEqSymmetric(a, b, fl); }
    if ValueEq(b, a, fl) { ValueEqSymmetric(b, a, fl); }
  }

  lemma ComputeImplCommutative(a: KnownData, op: BinaryOperator, b: KnownData, fl: FloatOps)
    requires I64Data(a) && I64Data(b) && FloatFree(a) && FloatFree(b) && Commutative(op)
    requires op in {And, Or} ==> a.BoolValue? && b.BoolValue?
    ensures ComputeImpl(a, op, b, fl) == ComputeImpl(b, op, a, fl)
  {
    if op in {Equal, NotEqual} {
      SameDataSymmetric(a, b, fl);
    } else if op in {BAnd, BOr, BXor} {
      BitwiseCommutative(a, op, b, fl);
    } else if op in {Add, Multiply} {
      ArithCommutative(a, op, b, fl);
    } else {
      LogicalCommutative(a, op, b, fl);
    }
  }

  lemma LogicalCommutative(a: KnownData, op: BinaryOperator, b: KnownData, fl: FloatOps)
    requires I64Data(a) && I64Data(b) && op in {And, Or, Xor}
    requires op in {And, Or} ==> a.BoolValue? && b.BoolValue?
    ensures ComputeImpl(a, op, b, fl) == ComputeImpl(b, op, a, fl)
  {
    if a.BoolValue? && b.BoolValue? {
      assert ComputeImpl(a, op, b, fl).Some? && ComputeImpl(b, op, a, fl).Some?;
    }
  }

  lemma BitwiseCommutative(a: KnownData, op: BinaryOperator, b: KnownData, fl: FloatOps)
    requires I64Data(a) && I64Data(b) && op in {BAnd, BOr, BXor}
    ensures ComputeImpl(a, op, b, fl) == ComputeImpl(b, op, a, fl)
  {
    if a.IntValue? && b.IntValue? {
      assert ToBits(a.i) & ToBits(b.i) == ToBits(b.i) & ToBits(a.i);
      assert ToBits(a.i) | ToBits(b.i) == ToBits(b.i) | ToBits(a.i);
      assert ToBits(a.i) ^ ToBits(b.i) == ToBits(b.i) ^ ToBits(a.i);
    }
  }

  lemma ArithCommutative(a: KnownData, op: BinaryOperator, b: KnownData, fl: FloatOps)
    requires I64Data(a) && I64Data(b) && !a.FloatValue? && !b.FloatValue? && op in {Add, Multiply}
    ensures ComputeImpl(a, op, b, fl) == ComputeImpl(b, op, a, fl)
  {
    assert ComputeImpl(a, op, b, fl) == Arith(a, op, b, fl);
    assert ComputeImpl(b, op, a, fl) == Arith(b, op, a, fl);
  }

  /** Commutative operators fold to the same value in either operand order,
      broadcasting included. */
  lemma {:induction false} ComputeCommutative(a: KnownData, op: BinaryOperator, b: KnownData, fl: FloatOps)
    requires I64Data(a) && I64Data(b) && FloatFree(a) && FloatFree(b) && Commutative(op)
    requires op in {And, Or} ==> BoolVector(a) && BoolVector(b)
    ensures Compute(a, op, b, fl) == Compute(b, op, a, fl)
    decreases a, b
  {
    if a.ArrayValue? && b.ArrayValue? {
      var xs, ys := a.items, b.items;
      forall i | 0 <= i < Max(|xs|, |ys|) && Compatible(|xs|, |ys|)
        ensures Compute(Pick(xs, i), op, Pick(ys, i), fl) == Compute(Pick(ys, i), op, Pick(xs, i), fl)
      {
        var x, y := Pick(xs, i), Pick(ys, i);
        assert x in xs && y in ys;
        ComputeCommutative(x, op, y, fl);
      }
      ArraysCommute(xs, op, ys, fl);
    } else {
      NotBothArraysCommute(a, op, b, fl);
    }
  }

  lemma NotBothArraysCommute(a: KnownData, op: BinaryOperator, b: KnownData, fl: FloatOps)
    requires I64Data(a) && I64Data(b) && FloatFree(a) && FloatFree(b) && Commutative(op)
    requires op in {And, Or} ==> BoolVector(a) && BoolVector(b)
    requires !(a.ArrayValue? && b.ArrayValue?)
    ensures Compute(a, op, b, fl) == Compute(b, op, a, fl)
  {
    if a.ArrayValue? {
      ScalarCommutes(a.items, op, b, fl);
    } else if b.ArrayValue? {
      ScalarCommutes(b.items, op, a, fl);
    } else {
      ComputeImplCommutative(a, op, b, fl);
    }
  }

  lemma ArraysCommute(xs: seq<KnownData>, op: BinaryOperator, ys: seq<KnownData>, fl: FloatOps)
    requires I64Data(ArrayValue(xs)) && I64Data(ArrayValue(ys))
    requires forall i | 0 <= i < Max(|xs|, |ys|) && Compatible(|xs|, |ys|) ::
               Compute(Pick(xs, i), op, Pick(ys, i), fl) == Compute(Pick(ys, i), op, Pick(xs, i), fl)
    ensures Compute(ArrayValue(xs), op, ArrayValue(ys), fl) == Compute(ArrayValue(ys), op, ArrayValue(xs), fl)
  {
    var ab, ba := Broadcast(ArrayValue(xs), op, ArrayValue(ys), fl), Broadcast(ArrayValue(ys), op, ArrayValue(xs), fl);
    assert Max(|ys|, |xs|) == Max(|xs|, |ys|);
    if ab.Some? {
      assert ba.Some?;
      assert ab.value.items == ba.value.items;
    }
  }

  lemma ScalarCommutes(xs: seq<KnownData>, op: BinaryOperator, s: KnownData, fl: FloatOps)
    requires I64Data(ArrayValue(xs)) && I64Data(s) && !s.ArrayValue? && !s.FloatValue? && Commutative(op)
    requires FloatFree(ArrayValue(xs))
    requires op in {And, Or} ==> BoolVector(ArrayValue(xs)) && s.BoolValue?
    ensures Compute(ArrayValue(xs), op, s, fl) == Compute(s, op, ArrayValue(xs), fl)
  {
    forall i | 0 <= i < |xs| ensures ComputeImpl(xs[i], op, s, fl) == ComputeImpl(s, op, xs[i], fl) {
      ComputeImplCommutative(xs[i], op, s, fl);
    }
    var l, r := MapLeft(xs, op, s, fl), MapRight(s, op, xs, fl);
    if l.Some? {
      assert r.Some?;
      assert l.value.items == r.value.items;
    }
  }

  /** A run-time value seen as a compile-time value. */
  function Lift(r: RuntimeData): (k: KnownData)
    ensures !k.Unknown? && !k.VoidValue? && !k.TypeValue? && !k.FunctionValue?
  {
    match r
    case RtBool(b) => BoolValue(b)
    case RtInt(i) => IntValue(i)
    case RtFloat(bits) => FloatValue(bits)
    case RtArray(items) => ArrayValue(seq(|items|, i requires 0 <= i < |items| => Lift(items[i])))
  }

  /** Converts a compile-time value for use at run time. Data types, macros and
      `Void` (at any depth) have no run-time form. */
  function ResolveKnownData(k: KnownData): (r: Option<RuntimeData>)
    ensures r.Some? && k.ArrayValue? ==> r.value.RtArray? && |r.value.items| == |k.items|
  {
    match k
    case BoolValue(b) => Some(RtBool(b))
    case IntValue(i) => Some(RtInt(i))
    case FloatValue(bits) => Some(RtFloat(bits))
    case ArrayValue(items) =>
      var rs := seq(|items|, i requires 0 <= i < |items| => ResolveKnownData(items[i]));
      if forall i | 0 <= i < |items| :: rs[i].Some? then
        Some(RtArray(seq(|items|, i requires 0 <= i < |items| => rs[i].value)))
      else None
    case _ => None
  }

  /** Resolving undoes lifting, and a value resolves exactly when it is the
      lifting of a run-time value. */
  lemma {:induction false} ResolveLift(r: RuntimeData)
    ensures ResolveKnownData(Lift(r)) == Some(r)
  {
    if r.RtArray? {
      forall i | 0 <= i < |r.items| ensures ResolveKnownData(Lift(r).items[i]) == Some(r.items[i]) {
        ResolveLift(r.items[i]);
      }
      assert ResolveKnownData(Lift(r)).value.items == r.items;
    }
  }

  lemma {:induction false} LiftResolve(k: KnownData)
    requires ResolveKnownData(k).Some?
    ensures Lift(ResolveKnownData(k).value) == k
  {
    if k.ArrayValue? {
      forall i | 0 <= i < |k.items| ensures ResolveKnownData(k.items[i]).Some? && Lift(ResolveKnownData(k.items[i]).value) == k.items[i] {
        var rs := seq(|k.items|, j requires 0 <= j < |k.items| => ResolveKnownData(k.items[j]));
        assert rs[i].Some?;
        LiftResolve(k.items[i]);
      }
      assert Lift(ResolveKnownData(k).value).items == k.items;
    }
  }

  function ResolveOperator(op: BinaryOperator): ROperator {
    match op
    case Add => RAdd
    case And => RAnd
    case BAnd => RBAnd
    case BOr => RBOr
    case BXor => RBXor
    case Divide => RDivide
    case Equal => REqual
    case GreaterThan => RGreaterThan
    case GreaterThanOrEqual => RGreaterThanOrEqual
    case LessThan => RLessThan
    case LessThanOrEqual => RLessThanOrEqual
    case Modulo => RModulo
    case Multiply => RMultiply
    case NotEqual => RNotEqual
    case Or => ROr
    case Power => RPower
    case Subtract => RSubtract
    case Xor => RXor
  }

  /** The operators' common names, used to check that conversion keeps each
      operator's meaning. */
  function OperatorName(op: BinaryOperator): string {
    match op
    case Add => "add" case Subtract => "subtract" case Multiply => "multiply" case Divide => "divide"
    case Modulo => "modulo" case Power => "power" case And => "and" case Or => "or" case Xor => "xor"
    case BAnd => "band" case BOr => "bor" case BXor => "bxor" case Equal => "equal" case NotEqual => "not equal"
    case LessThan => "less than" case GreaterThan => "greater than"
    case LessThanOrEqual => "less than or equal" case GreaterThanOrEqual => "greater than or equal"
  }

  function ROperatorName(op: ROperator): string {
    match op
    case RAdd => "add" case RSubtract => "subtract" case RMultiply => "multiply" case RDivide => "divide"
    case RModulo => "modulo" case RPower => "power" case RAnd => "and" case ROr => "or" case RXor => "xor"
    case RBAnd => "band" case RBOr => "bor" case RBXor => "bxor" case REqual => "equal" case RNotEqual => "not equal"
    case RLessThan => "less than" case RGreaterThan => "greater than"
    case RLessThanOrEqual => "less than or equal" case RGreaterThanOrEqual => "greater than or equal"
  }

  /** The inverse conversion, from the resolved IR's operators back. */
  function UnresolveOperator(rop: ROperator): BinaryOperator {
    match rop
    case RAdd => Add
    case RSubtract => Subtract
    case RMultiply => Multiply
    case RDivide => Divide
    case RModulo => Modulo
    case RPower => Power
    case RAnd => And
    case ROr => Or
    case RXor => Xor
    case RBAnd => BAnd
    case RBOr => BOr
    case RBXor => BXor
    case REqual => Equal
    case RNotEqual => NotEqual
    case RLessThan => LessThan
    case RGreaterThan => GreaterThan
    case RLessThanOrEqual => LessThanOrEqual
    case RGreaterThanOrEqual => GreaterThanOrEqual
  }

  /** Operator conversion keeps the operator's name and is a bijection. */
  lemma ResolveOperatorFaithful(op: BinaryOperator, rop: ROperator)
    ensures ROperatorName(ResolveOperator(op)) == OperatorName(op)
    ensures UnresolveOperator(ResolveOperator(op)) == op
    ensures ResolveOperator(UnresolveOperator(rop)) == rop
  {
  }
}

=== FILE: func_call.dfy ===
/** Variable accesses and function calls of the structure generation of the IR.
    Both are append-only records of variable ids. */
module FuncCalls {
  import opened Wrappers
  import opened Types
  import opened Variables

  /** A call of the function held by variable `callee`. */
  datatype FuncCall = FuncCall(callee: VarId, position: Position, inputs: seq<VarAccess>, outputs: seq<VarAccess>)

  function NewAccess(base: VarId): (a: VarAccess)
    ensures a.base == base && a.indexes == []
  {
    VarAccess(base, [])
  }

  /** Adds one index after those already present. */
  function AddIndex(a: VarAccess, index: VarId): (r: VarAccess)
    ensures r.base == a.base && |r.indexes| == |a.indexes| + 1
    ensures r.indexes[..|a.indexes|] == a.indexes && r.indexes[|a.indexes|] == index
  {
    a.(indexes := a.indexes + [index])
  }

  /** Adding indexes one by one keeps them in the order they were added. */
  lemma {:induction false} AddIndexesInOrder(base: VarId, ids: seq<VarId>)
    ensures AddIndexes(NewAccess(base), ids) == VarAccess(base, ids)
  {
    if |ids| > 0 {
      AddIndexesInOrder(base, ids[..|ids| - 1]);
      assert ids[..|ids| - 1] + [ids[|ids| - 1]] == ids;
    }
  }

  /** Folds `AddIndex` over `ids`, first to last. */
  function AddIndexes(a: VarAccess, ids: seq<VarId>): VarAccess {
    if |ids| == 0 then a else AddIndex(AddIndexes(a, ids[..|ids| - 1]), ids[|ids| - 1])
  }

  /** The data type of an unindexed access: its base variable's type. `None`
      where the source panics: a base that is not a variable of the program,
      or an access with indexes. */
  function BorrowDataType(a: VarAccess, vars: seq<Variable>): (r: Option<DataType>)
    ensures r.Some? <==> a.base < |vars| && a.indexes == []
    ensures r.Some? ==> r.value == vars[a.base].dataType
  {
    if a.base < |vars| && a.indexes == [] then Some(vars[a.base].dataType) else None
  }

  function NewCall(callee: VarId, position: Position): (c: FuncCall)
    ensures c.callee == callee && c.position == position && c.inputs == [] && c.outputs == []
  {
    FuncCall(callee, position, [], [])
  }

  function SetPosition(c: FuncCall, position: Position): (r: FuncCall)
    ensures r.position == position && r.(position := c.position) == c
  {
    c.(position := position)
  }

  function SetFunction(c: FuncCall, callee: VarId): (r: FuncCall)
    ensures r.callee == callee && r.(callee := c.callee) == c
  {
    c.(callee := callee)
  }

  /** Appends an input; the outputs do not change. */
  function AddInput(c: FuncCall, input: VarAccess): (r: FuncCall)
    ensures |r.inputs| == |c.inputs| + 1 && r.inputs[..|c.inputs|] == c.inputs && r.inputs[|c.inputs|] == input
    ensures r.(inputs := c.inputs) == c
  {
    c.(inputs := c.inputs + [input])
  }

  /** Appends an output; the inputs do not change. */
  function AddOutput(c: FuncCall, output: VarAccess): (r: FuncCall)
    ensures |r.outputs| == |c.outputs| + 1 && r.outputs[..|c.outputs|] == c.outputs && r.outputs[|c.outputs|] == output
    ensures r.(outputs := c.outputs) == c
  {
    c.(outputs := c.outputs + [output])
  }
}

=== FILE: ints.dfy ===
/** Fixed-width integer semantics of the source language (Rust `i64`, `i32`,
    `u32`) written out over Dafny's unbounded integers. */
module Ints {

  const I64_MIN: int := -0x8000_0000_0000_0000
  const I64_MAX: int := 0x7fff_ffff_ffff_ffff
  const TWO_31: int := 0x8000_0000
  const TWO_32: int := 0x1_0000_0000
  const TWO_63: int := 0x8000_0000_0000_0000
  const TWO_64: int := 0x1_0000_0000_0000_0000

  type Byte = b: int | 0 <= b < 256

  predicate IsI64(x: int) {
    I64_MIN <= x <= I64_MAX
  }

  predicate IsI32(x: int) {
    -TWO_31 <= x < TWO_31
  }

  function Abs(x: int): nat {
    if x < 0 then -x else x
  }

  /** Rust's `/`: the quotient is rounded toward zero. */
  function TruncDiv(a: int, b: int): int
    requires b != 0
  {
    var m := Abs(a) / Abs(b);
    if (a < 0) == (b < 0) then m else -m
  }

  /** Rust's `%`: the remainder takes the sign of the dividend. */
  function TruncRem(a: int, b: int): int
    requires b != 0
  {
    var m := Abs(a) % Abs(b);
    if a < 0 then -m else m
  }

  /** The pair (TruncDiv, TruncRem) is the truncating division: it recombines
      to the dividend, the remainder is smaller than the divisor and carries the
      dividend's sign, and the quotient's magnitude is that of the natural
      quotient. Dafny's own `/` and `%` round toward negative infinity for a
      positive divisor and differ exactly on negative operands. */
  lemma TruncDivRem(a: int, b: int)
    requires b != 0
    ensures a == b * TruncDiv(a, b) + TruncRem(a, b)
    ensures Abs(TruncRem(a, b)) < Abs(b)
    ensures TruncRem(a, b) == 0 || ((TruncRem(a, b) < 0) <==> (a < 0))
    ensures Abs(TruncDiv(a, b)) == Abs(a) / Abs(b)
  {
    TruncIdentity(a, b);
    TruncMagnitudes(a, b);
  }

  /** The bounds and signs of the truncated quotient and remainder. */
  lemma TruncMagnitudes(a: int, b: int)
    requires b != 0
    ensures Abs(TruncRem(a, b)) < Abs(b)
    ensures TruncRem(a, b) == 0 || ((TruncRem(a, b) < 0) <==> (a < 0))
    ensures Abs(TruncDiv(a, b)) == Abs(a) / Abs(b)
  {
    TruncRemSign(a, b);
    TruncDivMagnitude(a, b);
  }

  lemma TruncRemSign(a: int, b: int)
    requires b != 0
    ensures Abs(TruncRem(a, b)) == Abs(a) % Abs(b) < Abs(b)
    ensures TruncRem(a, b) == 0 || ((TruncRem(a, b) < 0) <==> (a < 0))
  {
  }

  lemma TruncDivMagnitude(a: int, b: int)
    requires b != 0
    ensures Abs(TruncDiv(a, b)) == Abs(a) / Abs(b)
  {
  }

  /** The division identity alone, one sign case at a time. */
  lemma TruncIdentity(a: int, b: int)
    requires b != 0
    ensures a == b * TruncDiv(a, b) + TruncRem(a, b)
  {
    var x: int, y: int := Abs(a), Abs(b);
    var q: int, m: int := x / y, x % y;
    NaturalDivMod(x, y);
    if a < 0 && b < 0 {
      assert a == -x && b == -y && TruncDiv(a, b) == q && TruncRem(a, b) == -m;
      NegatedDividendAndDivisor(x, y, q, m);
    } else if a < 0 {
      assert a == -x && b == y && TruncDiv(a, b) == -q && TruncRem(a, b) == -m;
      NegatedDividend(x, y, q, m);
    } else if b < 0 {
      assert a == x && b == -y && TruncDiv(a, b) == -q && TruncRem(a, b) == m;
      NegatedDivisor(x, y, q, m);
    } else {
      assert a == x && b == y && TruncDiv(a, b) == q && TruncRem(a, b) == m;
    }
  }

  /** Euclidean division of naturals. */
  lemma NaturalDivMod(x: nat, y: nat)
    requires y > 0
    ensures x == y * (x / y) + x % y && 0 <= x % y < y
  {
  }

  lemma NegatedDividend(x: int, y: int, q: int, m: int)
    requires x == y * q + m
    ensures -x == y * (-q) + (-m)
  {
    NegateFactor(y, q);
  }

  lemma NegatedDivisor(x: int, y: int, q: int, m: int)
    requires x == y * q + m
    ensures x == (-y) * (-q) + m
  {
    NegateFactor(-y, q);
    NegateFactor(y, q);
  }

  lemma NegatedDividendAndDivisor(x: int, y: int, q: int, m: int)
    requires x == y * q + m
    ensures -x == (-y) * q + (-m)
  {
    NegateFactor(y, q);
  }

  lemma NegateFactor(x: int, y: int)
    ensures (-x) * y == -(x * y) && x * (-y) == -(x * y)
  {
  }

  /** Rust's `i64::pow` without overflow checks. */
  function Pow(base: int, exp: nat): int
    decreases exp
  {
    if exp == 0 then 1 else base * Pow(base, exp - 1)
  }

  /** `x as i32`: keeps the low 32 bits and reads them as two's complement. */
  function WrapI32(x: int): (r: int)
    ensures IsI32(r)
    ensures (x - r) % TWO_32 == 0
  {
    (x + TWO_31) % TWO_32 - TWO_31
  }

  /** `x as u32` of a value already in `i32` range: the bit pattern read unsigned. */
  function AsU32(x: int): (r: nat)
    ensures r < TWO_32
    ensures IsI32(x) ==> (r == x || r == x + TWO_32)
  {
    x % TWO_32
  }

  /** The four little-endian bytes of a 32-bit pattern, least significant
      first, as `to_le_bytes` lays them out. */
  function LeBytes4(u: nat): (bs: seq<Byte>)
    requires u < TWO_32
    ensures |bs| == 4
  {
    var u1 := u / 256;
    var u2 := u1 / 256;
    var u3 := u2 / 256;
    [u % 256, u1 % 256, u2 % 256, u3]
  }

  /** `i32::from_le_bytes`: four little-endian bytes read as two's complement. */
  function FromLeBytes4(bs: seq<Byte>): (x: int)
    requires |bs| == 4
    ensures IsI32(x)
  {
    var u := bs[0] as int + 256 * (bs[1] as int + 256 * (bs[2] as int + 256 * (bs[3] as int)));
    if u >= TWO_31 then u - TWO_32 else u
  }

  /** Writing `x as i32` little-endian and reading it back yields `x as i32`. */
  lemma LeBytes4RoundTrip(x: int)
    ensures FromLeBytes4(LeBytes4(AsU32(WrapI32(x)))) == WrapI32(x)
  {
    var w := WrapI32(x);
    var u := AsU32(w);
    var u1 := u / 256;
    var u2 := u1 / 256;
    var u3 := u2 / 256;
    assert u == u % 256 + 256 * u1;
    assert u1 == u1 % 256 + 256 * u2;
    assert u2 == u2 % 256 + 256 * u3;
    var bs := LeBytes4(u);
    assert bs[0] as int + 256 * (bs[1] as int + 256 * (bs[2] as int + 256 * (bs[3] as int))) == u;
  }

  /** The two's complement bit pattern of an `i64`. */
  function ToBits(x: int): bv64
    requires IsI64(x)
  {
    ((x + TWO_64) % TWO_64) as bv64
  }

  function FromBits(b: bv64): (x: int)
    ensures IsI64(x)
  {
    var u := b as int;
    if u >= TWO_63 then u - TWO_64 else u
  }

  /** Rust's `&`, `|` and `^` on `i64`. */
  function BitAnd(x: int, y: int): (r: int)
    requires IsI64(x) && IsI64(y)
    ensures IsI64(r)
  {
    FromBits(ToBits(x) & ToBits(y))
  }

  function BitOr(x: int, y: int): (r: int)
    requires IsI64(x) && IsI64(y)
    ensures IsI64(r)
  {
    FromBits(ToBits(x) | ToBits(y))
  }

  function BitXor(x: int, y: int): (r: int)
    requires IsI64(x) && IsI64(y)
    ensures IsI64(r)
  {
    FromBits(ToBits(x) ^ ToBits(y))
  }
}

=== FILE: parser.dfy ===
/** The infix-expression helpers of the parser: the operator table (id,
    precedence, associativity), the map from operator text to operator and
    from operator to builtin function, and the final phase of the
    operator-precedence conversion, which drains the operator stack into
    builtin calls. */
module Parser {
  import opened Wrappers
  import opened Types

  datatype Operator = Operator(id: nat, precedence: nat, leftAssoc: bool)

  const SENTINEL := Operator(0, 0, true)
  const ADD := Operator(1, 1, true)
  const SUBTRACT := Operator(2, 1, true)
  const MULTIPLY := Operator(3, 2, true)
  const DIVIDE := Operator(4, 2, true)
  const INT_DIV := Operator(5, 2, true)
  const MODULO := Operator(6, 2, true)
  const POWER := Operator(7, 3, false)
  const LTE := Operator(8, 4, true)
  const LT := Operator(9, 4, true)
  const GTE := Operator(10, 4, true)
  const GT := Operator(11, 4, true)
  const EQ := Operator(12, 5, true)
  const NEQ := Operator(13, 5, true)
  const BAND := Operator(14, 6, true)
  const BXOR := Operator(15, 7, true)
  const BOR := Operator(16, 8, true)
  const AND := Operator(17, 9, true)
  const XOR := Operator(18, 10, true)
  const OR := Operator(19, 11, true)

  /** Every operator of the language, the sentinel first. */
  const Operators: seq<Operator> :=
    [SENTINEL, ADD, SUBTRACT, MULTIPLY, DIVIDE, INT_DIV, MODULO, POWER, LTE, LT, GTE, GT, EQ, NEQ,
     BAND, BXOR, BOR, AND, XOR, OR]

  /** The source text of each operator but the sentinel, by id. */
  const Symbols: seq<string> :=
    ["", "+", "-", "*", "/", "//", "%", "**", "<=", "<", ">=", ">", "==", "!=",
     "band", "bxor", "bor", "and", "xor", "or"]

  /** The operators' ids are their positions in the table, hence distinct;
      `+ -` bind loosest, then `* / // %`, then `**`; the relational operators
      come next, then the equality operators, then `band`, `bxor`, `bor`,
      `and`, `xor`, `or`; only `**` associates to the right. */
  lemma OperatorTable()
    ensures |Operators| == 20 && |Symbols| == 20
    ensures forall k | 0 <= k < |Operators| :: Operators[k].id == k
    ensures forall j, k | 0 <= j < k < |Operators| :: Operators[j] != Operators[k]
    ensures forall k | 1 <= k < 20 :: (Operators[k].leftAssoc <==> Symbols[k] != "**")
    ensures forall k | 1 <= k < 20 :: Operators[k].precedence == Precedence(Symbols[k])
  {
  }

  /** Precedence by operator group. */
  function Precedence(text: string): nat {
    match text
    case "+" => 1 case "-" => 1
    case "*" => 2 case "/" => 2 case "//" => 2 case "%" => 2
    case "**" => 3
    case "<=" => 4 case "<" => 4 case ">=" => 4 case ">" => 4
    case "==" => 5 case "!=" => 5
    case "band" => 6 case "bxor" => 7 case "bor" => 8
    case "and" => 9 case "xor" => 10 case "or" => 11
    case _ => 0
  }

  /** The operator spelled `text`; `None` where the source reaches
      `unreachable!()`. */
  function OpStrToOperator(text: string): (r: Option<Operator>)
    ensures r.Some? ==> 1 <= r.value.id < 20 && Operators[r.value.id] == r.value && Symbols[r.value.id] == text
    ensures r.None? ==> forall k | 1 <= k < 20 :: Symbols[k] != text
  {
    if text == "**" then Some(POWER)
    else if text == "+" then Some(ADD)
    else if text == "-" then Some(SUBTRACT)
    else if text == "*" then Some(MULTIPLY)
    else if text == "/" then Some(DIVIDE)
    else if text == "//" then Some(INT_DIV)
    else if text == "%" then Some(MODULO)
    else if text == "<=" then Some(LTE)
    else if text == "<" then Some(LT)
    else if text == ">=" then Some(GTE)
    else if text == ">" then Some(GT)
    else if text == "==" then Some(EQ)
    else if text == "!=" then Some(NEQ)
    else if text == "band" then Some(BAND)
    else if text == "bxor" then Some(BXOR)
    else if text == "bor" then Some(BOR)
    else if text == "and" then Some(AND)
    else if text == "xor" then Some(XOR)
    else if text == "or" then Some(OR)
    else None
  }

  /** Reading an operator's text gives back that operator: no two operators
      share a spelling. */
  lemma {:induction false} OperatorTextRoundTrip(k: nat)
    requires 1 <= k < 20
    ensures |Symbols| == 20 && OpStrToOperator(Symbols[k]) == Some(Operators[k])
  {
    var r := OpStrToOperator(Symbols[k]);
    SymbolsDistinct(k, r.value.id);
  }

  lemma SymbolsDistinct(j: nat, k: nat)
    requires j < 20 && k < 20 && |Symbols| == 20 && Symbols[j] == Symbols[k]
    ensures j == k
  {
  }

  /** The builtin functions the operators call; their definitions are not part
      of this model. */
  datatype Builtins = Builtins(
    addFunc: nat, subFunc: nat, mulFunc: nat, divFunc: nat, intDivFunc: nat, modFunc: nat, powFunc: nat,
    lteFunc: nat, ltFunc: nat, gteFunc: nat, gtFunc: nat, eqFunc: nat, neqFunc: nat,
    bandFunc: nat, bxorFunc: nat, borFunc: nat, andFunc: nat, xorFunc: nat, orFunc: nat)

  /** The builtin an operator's text names. */
  function BuiltinFor(blt: Builtins, text: string): Option<nat> {
    match text
    case "+" => Some(blt.addFunc)
    case "-" => Some(blt.subFunc)
    case "*" => Some(blt.mulFunc)
    case "/" => Some(blt.divFunc)
    case "//" => Some(blt.intDivFunc)
    case "%" => Some(blt.modFunc)
    case "**" => Some(blt.powFunc)
    case "<=" => Some(blt.lteFunc)
    case "<" => Some(blt.ltFunc)
    case ">=" => Some(blt.gteFunc)
    case ">" => Some(blt.gtFunc)
    case "==" => Some(blt.eqFunc)
    case "!=" => Some(blt.neqFunc)
    case "band" => Some(blt.bandFunc)
    case "bxor" => Some(blt.bxorFunc)
    case "bor" => Some(blt.borFunc)
    case "and" => Some(blt.andFunc)
    case "xor" => Some(blt.xorFunc)
    case "or" => Some(blt.orFunc)
    case _ => None
  }

  /** The builtin an operator calls, chosen by its id; `None` for the sentinel
      and for any id outside the table. */
  function OperatorToOpFn(op: Operator, blt: Builtins): (r: Option<nat>)
    ensures r.Some? <==> 1 <= op.id < 20
  {
    if op.id == ADD.id then Some(blt.addFunc)
    else if op.id == SUBTRACT.id then Some(blt.subFunc)
    else if op.id == MULTIPLY.id then Some(blt.mulFunc)
    else if op.id == DIVIDE.id then Some(blt.divFunc)
    else if op.id == INT_DIV.id then Some(blt.intDivFunc)
    else if op.id == MODULO.id then Some(blt.modFunc)
    else if op.id == POWER.id then Some(blt.powFunc)
    else if op.id == LTE.id then Some(blt.lteFunc)
    else if op.id == LT.id then Some(blt.ltFunc)
    else if op.id == GTE.id then Some(blt.gteFunc)
    else if op.id == GT.id then Some(blt.gtFunc)
    else if op.id == EQ.id then Some(blt.eqFunc)
    else if op.id == NEQ.id then Some(blt.neqFunc)
    else if op.id == BAND.id then Some(blt.bandFunc)
    else if op.id == BXOR.id then Some(blt.bxorFunc)
    else if op.id == BOR.id then Some(blt.borFunc)
    else if op.id == AND.id then Some(blt.andFunc)
    else if op.id == XOR.id then Some(blt.xorFunc)
    else if op.id == OR.id then Some(blt.orFunc)
    else None
  }

  /** An operator read from text calls the builtin its text names. */
  lemma OperatorCallsItsBuiltin(text: string, blt: Builtins)
    requires OpStrToOperator(text).Some?
    ensures OperatorToOpFn(OpStrToOperator(text).value, blt) == BuiltinFor(blt, text)
  {
  }

  /** A call to a builtin: its function, inputs and outputs, all entity ids. */
  datatype Call = Call(func: nat, inputs: seq<nat>, outputs: seq<nat>)

  /** What draining leaves: the calls added to the scope, in order, the operand
      stack, and the next fresh entity id. */
  datatype Drained = Drained(calls: seq<Call>, operands: seq<nat>, next: nat)

  /** The number of operators drained: all but the sentinel at the bottom. */
  function Steps(operators: seq<Operator>): nat {
    if |operators| <= 1 then 0 else |operators| - 1
  }

  /** Draining succeeds when there are enough operands for every operator
      above the sentinel and each of those operators has a builtin. */
  predicate CanDrain(operands: seq<nat>, operators: seq<Operator>) {
    (Steps(operators) > 0 ==> |operands| > Steps(operators)) &&
    forall k | 1 <= k < |operators| :: 1 <= operators[k].id < 20
  }

  /** The output of the `k`-th call of the drain: the caller's output for the
      last one, fresh ids counting up from `next` for the others. */
  function OutputOf(k: nat, m: nat, final: nat, next: nat): nat {
    if k + 1 == m then final else next + k
  }

  /** The calls the drain phase makes, in closed form: the `k`-th call applies
      the `k`-th operator from the top to the operand `k + 1` places below the
      top, as its first input, and to the previous call's output (the top
      operand for the first call), as its second. */
  function ExpectedCalls(operands: seq<nat>, operators: seq<Operator>, final: nat, next: nat, blt: Builtins): seq<Call>
    requires CanDrain(operands, operators)
  {
    seq(Steps(operators), k requires 0 <= k < Steps(operators) => ExpectedCall(operands, operators, final, next, blt, k))
  }

  function ExpectedCall(operands: seq<nat>, operators: seq<Operator>, final: nat, next: nat, blt: Builtins, k: nat): Call
    requires k + 1 < |operators| && k + 2 <= |operands| && 1 <= operators[|operators| - 1 - k].id < 20
  {
    var m, n, t := Steps(operators), |operands|, |operators|;
    Call(OperatorToOpFn(operators[t - 1 - k], blt).value,
         [operands[n - 2 - k], if k == 0 then operands[n - 1] else OutputOf(k - 1, m, final, next)],
         [OutputOf(k, m, final, next)])
  }

  /** Pops the operators above the sentinel one by one; each becomes a call of
      its builtin on the two top operands (the lower one first), writing to
      `final` if it is the last and to a fresh variable otherwise, and its
      output is pushed back. `Abort` where an operand is missing or the
      operator has no builtin. */
  method Drain(operands: seq<nat>, operators: seq<Operator>, final: nat, next: nat, blt: Builtins)
    returns (r: Result<Drained, Problem>)
    ensures r.Ok? <==> CanDrain(operands, operators)
    ensures r.Ok? ==> r.value.calls == ExpectedCalls(operands, operators, final, next, blt)
    ensures r.Ok? && Steps(operators) > 0 ==>
              r.value.operands == operands[..|operands| - Steps(operators) - 1] + [final] &&
              r.value.next == next + Steps(operators) - 1
    ensures r.Ok? && Steps(operators) == 0 ==> r.value == Drained([], operands, next)
  {
    var stack, ops, calls, nextId := operands, operators, [], next;
    var m, n, t := Steps(operators), |operands|, |operators|;
    var k := 0;
    while |ops| > 1
      invariant 0 <= k <= m && (m == 0 ==> ops == operators)
      invariant m > 0 ==> |ops| == t - k && ops == operators[..t - k]
      invariant m > 0 && k < m ==> nextId == next + k
      invariant m > 0 && k == m ==> nextId == next + m - 1
      invariant |calls| == k && (k > 0 ==> n >= k + 1)
      invariant k == 0 ==> stack == operands && nextId == next
      invariant k > 0 ==> |stack| == n - k
      invariant k > 0 ==> stack == operands[..n - k - 1] + [OutputOf(k - 1, m, final, next)]
      invariant forall j | 1 <= j < |operators| && j >= t - k :: 1 <= operators[j].id < 20
      invariant forall j | 0 <= j < k :: calls[j] == ExpectedCall(operands, operators, final, next, blt, j)
    {
      var top := ops[|ops| - 1];
      ops := ops[..|ops| - 1];
      var func := OperatorToOpFn(top, blt);
      if func.None? {
        return Err(Abort);
      }
      var output;
      if |ops| == 1 {
        output := final;
      } else {
        output := nextId;
        nextId := nextId + 1;
      }
      if |stack| < 2 {
        return Err(Abort);
      }
      var other := stack[|stack| - 1];
      var first := stack[|stack| - 2];
      stack := stack[..|stack| - 2];
      calls := calls + [Call(func.value, [first, other], [output])];
      stack := stack + [output];
      k := k + 1;
    }
    assert k == m;
    return Ok(Drained(calls, stack, nextId));
  }
}

=== FILE: resolve_calls.dfy ===
/** Resolving function calls. A call is checked against its callee, the
    template parameters are inferred from the argument types, and the call is
    emitted with casts wherever an argument's type differs from its
    parameter's. A built-in is called as it is; any other function is
    instantiated first: its body is copied with the template parameters fixed,
    the copy's own calls are resolved, and the call goes to the copy. */
module ResolveCalls {
  import opened Wrappers
  import opened Types
  import opened Variables
  import opened Store
  import opened FuncCalls
  import opened ResolveTable
  import opened ResolveCopy
  import opened ResolveTypes
  import opened ResolveEmit

  /** Checks a call, reading it through the conversion table. The callee must
      hold a function value, and the call must pass as many inputs, then as many
      outputs, as the function's body declares. Returns the converted call and
      the function. `Err(Abort)` where the source panics. */
  function CheckCall(r: Resolver, call: FuncCall): (res: Result<(FuncCall, FunctionData), Problem>)
    ensures Convert(r, call.callee) >= |r.p.vars| ==> res == Err(Abort)
    ensures var callee := Convert(r, call.callee);
            callee < |r.p.vars| && !r.p.vars[callee].initial.FunctionValue? ==> res == Err(VagueFunction)
    ensures var callee := Convert(r, call.callee);
            callee < |r.p.vars| && r.p.vars[callee].initial.FunctionValue? ==>
            var f := r.p.vars[callee].initial.f;
            if f.body >= |r.p.scopes| then res == Err(Abort)
            else if |call.inputs| != |r.p.scopes[f.body].inputs| then
              res == Err(WrongNumberOfInputs(|call.inputs|, |r.p.scopes[f.body].inputs|))
            else if |call.outputs| != |r.p.scopes[f.body].outputs| then
              res == Err(WrongNumberOfOutputs(|call.outputs|, |r.p.scopes[f.body].outputs|))
            else res == Ok((ConvertFuncCall(r, call), f))
  {
    var c := ConvertFuncCall(r, call);
    if c.callee >= |r.p.vars| then Err(Abort)
    else match r.p.vars[c.callee].initial
      case FunctionValue(f) =>
        if f.body >= |r.p.scopes| then Err(Abort)
        else
          var body := r.p.scopes[f.body];
          if |c.inputs| != |body.inputs| then Err(WrongNumberOfInputs(|c.inputs|, |body.inputs|))
          else if |c.outputs| != |body.outputs| then Err(WrongNumberOfOutputs(|c.outputs|, |body.outputs|))
          else Ok((c, f))
      case _ => Err(VagueFunction)
  }

  /** The data types of the variables `ids`, in order. `Err(Abort)` where one
      does not exist. */
  function VarTypes(vars: seq<Variable>, ids: seq<VarId>): (r: Result<seq<DataType>, Problem>)
    ensures r.Ok? <==> forall i | 0 <= i < |ids| :: ids[i] < |vars|
    ensures r.Ok? ==> |r.value| == |ids| && forall i | 0 <= i < |ids| :: r.value[i] == vars[ids[i]].dataType
    ensures r.Err? ==> r.error == Abort
    decreases |ids|
  {
    if |ids| == 0 then Ok([])
    else
      var front :- VarTypes(vars, ids[..|ids| - 1]);
      var last := ids[|ids| - 1];
      if last >= |vars| then Err(Abort) else Ok(front + [vars[last].dataType])
  }

  /** The base variables of the accesses `args`, in order. */
  function Bases(args: seq<VarAccess>): (ids: seq<VarId>)
    ensures |ids| == |args| && forall i | 0 <= i < |args| :: ids[i] == args[i].base
  {
    seq(|args|, i requires 0 <= i < |args| => args[i].base)
  }

  /** The template parameters a call fixes: the parameter types of the body
      (inputs, then outputs) paired with the types of the arguments' base
      variables. `Err(Abort)` where a parameter or an argument does not
      exist. */
  function CallTemplates(p: Program<FuncCall>, c: FuncCall, f: FunctionData): (r: Result<TemplateTable, Problem>)
    requires f.body < |p.scopes|
    ensures r.Ok? <==> VarTypes(p.vars, p.scopes[f.body].inputs + p.scopes[f.body].outputs).Ok? &&
                       VarTypes(p.vars, Bases(c.inputs + c.outputs)).Ok?
    ensures r.Err? ==> r.error == Abort
  {
    var params :- VarTypes(p.vars, p.scopes[f.body].inputs + p.scopes[f.body].outputs);
    var args :- VarTypes(p.vars, Bases(c.inputs + c.outputs));
    Ok(CollectTemplateParameters(params, args, map[]))
  }

  /** `ResolveTemplatedType` of each type, in order. */
  function ResolveTemplatedTypes(ts: seq<DataType>, table: TemplateTable): (r: Result<seq<DataType>, Problem>)
    ensures r.Ok? <==> forall i | 0 <= i < |ts| :: !IsDynamic(ts[i]) || ts[i].target in table
    ensures r.Ok? ==> |r.value| == |ts| && forall i | 0 <= i < |ts| :: ResolveTemplatedType(ts[i], table) == Ok(r.value[i])
    ensures r.Err? ==> r.error == Abort
    decreases |ts|
  {
    if |ts| == 0 then Ok([])
    else
      var front :- ResolveTemplatedTypes(ts[..|ts| - 1], table);
      var last :- ResolveTemplatedType(ts[|ts| - 1], table);
      Ok(front + [last])
  }

  /** Each of the variables `ids` exists, and its type is not a template
      parameter or is one with an inferred value. */
  predicate Resolvable(vars: seq<Variable>, ids: seq<VarId>, table: TemplateTable) {
    forall i | 0 <= i < |ids| :: ids[i] < |vars| && (IsDynamic(vars[ids[i]].dataType) ==> vars[ids[i]].dataType.target in table)
  }

  /** The parameter types a call of built-in `f` is emitted against: the
      declared types with template parameters replaced by their inferred
      values. */
  function BuiltinTypes(p: Program<FuncCall>, f: FunctionData, table: TemplateTable): (r: Result<(seq<DataType>, seq<DataType>), Problem>)
    requires f.body < |p.scopes|
    ensures r.Ok? <==> Resolvable(p.vars, p.scopes[f.body].inputs, table) && Resolvable(p.vars, p.scopes[f.body].outputs, table)
    ensures r.Ok? ==> |r.value.0| == |p.scopes[f.body].inputs| && |r.value.1| == |p.scopes[f.body].outputs|
    ensures r.Ok? ==> forall i | 0 <= i < |p.scopes[f.body].inputs| ::
              var t := p.vars[p.scopes[f.body].inputs[i]].dataType;
              if IsDynamic(t) then r.value.0[i] == table[t.target] else r.value.0[i] == t
    ensures r.Ok? ==> forall i | 0 <= i < |p.scopes[f.body].outputs| ::
              var t := p.vars[p.scopes[f.body].outputs[i]].dataType;
              if IsDynamic(t) then r.value.1[i] == table[t.target] else r.value.1[i] == t
    ensures r.Err? ==> r.error == Abort
  {
    var ins :- VarTypes(p.vars, p.scopes[f.body].inputs);
    var outs :- VarTypes(p.vars, p.scopes[f.body].outputs);
    var inTypes :- ResolveTemplatedTypes(ins, table);
    var outTypes :- ResolveTemplatedTypes(outs, table);
    Ok((inTypes, outTypes))
  }

  /** The variables the keys of `table` convert to. */
  function ConvertedKeys(r: Resolver, table: TemplateTable): set<VarId> {
    set x | x in table :: Convert(r, x)
  }

  /** No two keys of `table` convert to the same variable. */
  predicate ConvertsApart(r: Resolver, table: TemplateTable) {
    forall x, y | x in table && y in table && x != y :: Convert(r, x) != Convert(r, y)
  }

  /** Only the initial value of `v` may differ in `w`. */
  predicate OnlyInitialSet(v: Variable, w: Variable) {
    w == v.(initial := w.initial)
  }

  /** The loop state of `SetTemplateParameters` after `k` keys of `order`. */
  predicate SetLoop(r: Resolver, q: Resolver, table: TemplateTable, order: seq<VarId>, k: nat) {
    k <= |order| && q == r.(p := q.p) && q.p.scopes == r.p.scopes && q.p.entry == r.p.entry && |q.p.vars| == |r.p.vars| &&
    (forall j | 0 <= j < |order| :: order[j] in table) &&
    (forall j | 0 <= j < k :: Convert(r, order[j]) < |r.p.vars| && q.p.vars[Convert(r, order[j])].initial.TypeValue?) &&
    (forall i | 0 <= i < |r.p.vars| :: OnlyInitialSet(r.p.vars[i], q.p.vars[i])) &&
    (forall i | 0 <= i < |r.p.vars| && (forall j | 0 <= j < k :: Convert(r, order[j]) != i) :: q.p.vars[i] == r.p.vars[i]) &&
    (ConvertsApart(r, table) ==>
       forall j | 0 <= j < k :: q.p.vars[Convert(r, order[j])].initial == TypeValue(table[order[j]]))
  }

  lemma SetLoopStep(r: Resolver, q: Resolver, table: TemplateTable, order: seq<VarId>, k: nat)
    requires SetLoop(r, q, table, order, k) && k < |order| && Convert(r, order[k]) < |r.p.vars|
    requires forall i, j | 0 <= i < j < |order| :: order[i] != order[j]
    ensures var id := Convert(r, order[k]);
            SetLoop(r, q.(p := q.p.(vars := q.p.vars[id := q.p.vars[id].(initial := TypeValue(table[order[k]]))])), table, order, k + 1)
  {
  }

  /** Gives each template parameter of `table`, read through the conversion
      table, its inferred type as initial value, in an arbitrary order.
      `Err(Abort)` where a parameter does not exist. */
  method SetTemplateParameters(r: Resolver, table: TemplateTable) returns (res: Result<Resolver, Problem>)
    ensures res.Err? ==> res.error == Abort
    ensures res.Ok? <==> forall x | x in table :: Convert(r, x) < |r.p.vars|
    ensures res.Ok? ==> res.value == r.(p := res.value.p) && res.value.p.scopes == r.p.scopes &&
                        res.value.p.entry == r.p.entry && |res.value.p.vars| == |r.p.vars|
    ensures res.Ok? ==> forall i | 0 <= i < |r.p.vars| :: OnlyInitialSet(r.p.vars[i], res.value.p.vars[i])
    ensures res.Ok? ==> forall x | x in table :: res.value.p.vars[Convert(r, x)].initial.TypeValue?
    ensures res.Ok? ==> forall i | 0 <= i < |r.p.vars| && i !in ConvertedKeys(r, table) :: res.value.p.vars[i] == r.p.vars[i]
    ensures res.Ok? && ConvertsApart(r, table) ==>
              forall x | x in table :: res.value.p.vars[Convert(r, x)].initial == TypeValue(table[x])
  {
    var order := ArbitraryOrder(table.Keys);
    var q := r;
    var k := 0;
    while k < |order|
      invariant SetLoop(r, q, table, order, k)
    {
      var id := Convert(r, order[k]);
      if id >= |q.p.vars| {
        return Err(Abort);
      }
      SetLoopStep(r, q, table, order, k);
      q := q.(p := q.p.(vars := q.p.vars[id := q.p.vars[id].(initial := TypeValue(table[order[k]]))]));
      k := k + 1;
    }
    forall x | x in table ensures exists j | 0 <= j < |order| :: order[j] == x {
      assert x in order;
    }
    forall i | 0 <= i < |r.p.vars| && i !in ConvertedKeys(r, table) ensures q.p.vars[i] == r.p.vars[i] {
      forall j | 0 <= j < |order| ensures Convert(r, order[j]) != i {
        assert order[j] in table;
      }
    }
    res := Ok(q);
  }

  /** One scope extends another: only the body and the intermediates grow,
      keeping their front. */
  predicate ScopeExtends(s: Scope<FuncCall>, t: Scope<FuncCall>) {
    t == s.(body := t.body, intermediates := t.intermediates) &&
    |s.body| <= |t.body| && t.body[..|s.body|] == s.body &&
    |s.intermediates| <= |t.intermediates| && t.intermediates[..|s.intermediates|] == s.intermediates
  }

  /** What resolving into scope `output` does to the program: scopes and
      variables are only added, the existing scopes other than `output` stay
      as they were, and `output` only grows. */
  predicate Frame(p: Program<FuncCall>, q: Program<FuncCall>, output: ScopeId) {
    q.entry == p.entry && |p.scopes| <= |q.scopes| && |p.vars| <= |q.vars| &&
    (forall j | 0 <= j < |p.scopes| && j != output :: q.scopes[j] == p.scopes[j]) &&
    (output < |p.scopes| ==> ScopeExtends(p.scopes[output], q.scopes[output]))
  }

  /** As `Frame`, with the conversion table, the saved tables and the cast
      built-in as they were. */
  predicate Grows(r: Resolver, q: Resolver, output: ScopeId) {
    q.table == r.table && q.stack == r.stack && q.cast == r.cast && Frame(r.p, q.p, output)
  }

  lemma FrameTrans(p: Program<FuncCall>, q: Program<FuncCall>, s: Program<FuncCall>, output: ScopeId)
    requires Frame(p, q, output) && Frame(q, s, output)
    ensures Frame(p, s, output)
  {
    if output < |p.scopes| {
      var a, b := p.scopes[output], q.scopes[output];
      var c := s.scopes[output];
      assert c.body[..|a.body|] == c.body[..|b.body|][..|a.body|];
      assert c.intermediates[..|a.intermediates|] == c.intermediates[..|b.intermediates|][..|a.intermediates|];
    }
  }

  /** Work done in a scope made after `p` leaves `p`'s scopes alone. */
  lemma FrameFresh(p: Program<FuncCall>, q: Program<FuncCall>, s: Program<FuncCall>, output: ScopeId, made: ScopeId)
    requires Frame(p, q, output) && Frame(q, s, made) && |p.scopes| <= made
    ensures Frame(p, s, output)
  {
  }

  lemma EmitsFrame(p: Program<FuncCall>, q: Program<FuncCall>, output: ScopeId)
    requires TypedThenEmits(p, q, output)
    ensures Frame(p, q, output)
  {
  }

  /** Work done only in scopes made after `p` keeps `Frame` for any scope. */
  lemma FrameWiden(p: Program<FuncCall>, q: Program<FuncCall>, made: ScopeId, output: ScopeId)
    requires Frame(p, q, made) && |p.scopes| <= made && output < |p.scopes|
    ensures Frame(p, q, output)
  {
    var s := p.scopes[output];
    assert s.body[..|s.body|] == s.body && s.intermediates[..|s.intermediates|] == s.intermediates;
  }

  lemma GrowsTrans(r: Resolver, q: Resolver, s: Resolver, output: ScopeId)
    requires Grows(r, q, output) && Grows(q, s, output)
    ensures Grows(r, s, output)
  {
    FrameTrans(r.p, q.p, s.p, output);
  }

  /** Appending variables changes no type `VarTypes` reads. */
  lemma VarTypesKept(vars: seq<Variable>, more: seq<Variable>, ids: seq<VarId>)
    requires VarTypes(vars, ids).Ok? && |vars| <= |more| && more[..|vars|] == vars
    ensures VarTypes(more, ids) == VarTypes(vars, ids)
  {
    forall i | 0 <= i < |ids| ensures more[ids[i]] == vars[ids[i]] {
      assert more[..|vars|][ids[i]] == vars[ids[i]];
    }
    assert VarTypes(more, ids).value == VarTypes(vars, ids).value;
  }

  /** A relation that holds counting replacements from `before` on holds from
      any earlier point too. */
  lemma PassedSince(vars: seq<Variable>, before: nat, earlier: nat, args: seq<VarAccess>, passed: seq<VarAccess>, types: seq<DataType>)
    requires PassedFaithfully(vars, before, args, passed, types) && earlier <= before
    ensures PassedFaithfully(vars, earlier, args, passed, types)
  {
  }

  /** The instance of function `f` that `Instantiate` makes: a new parentless
      scope `c` holding a copy of the body's variables, with the parameter
      lists converted and at least one statement per statement of the body;
      the caller's table is saved on the stack and no existing scope has
      changed. */
  predicate InstanceOf(r: Resolver, f: FunctionData, q: Resolver, c: ScopeId)
    requires f.body < |r.p.scopes|
  {
    var src := r.p.scopes[f.body];
    c == |r.p.scopes| < |q.p.scopes| && q.stack == r.stack + [r.table] && q.cast == r.cast && Frame(r.p, q.p, c) &&
    q.p.scopes[c].parent == None &&
    q.p.scopes[c].inputs == ConvertIds(q, src.inputs) && q.p.scopes[c].outputs == ConvertIds(q, src.outputs) &&
    |src.body| <= |q.p.scopes[c].body|
  }

  /** The call `e` emitted for the converted call `c` into scope `output`:
      the casts of the replaced inputs, then `e`, then the casts back to the
      replaced outputs, appended to what the scope held before. */
  predicate Emitted(r: Resolver, c: FuncCall, output: ScopeId, q: Resolver, e: FuncCall) {
    output < |r.p.scopes| <= |q.p.scopes| && e.position == c.position &&
    |e.inputs| == |c.inputs| && |e.outputs| == |c.outputs| &&
    q.p.scopes[output].body == r.p.scopes[output].body + Casts(r.cast, c.position, c.inputs, e.inputs) + [e] +
                               Casts(r.cast, c.position, e.outputs, c.outputs)
  }

  /** The call `e` goes to a new instance of `f`: a fresh variable holding a
      function whose body is a new parentless scope, and whose arguments have
      the types of that instance's parameters. */
  predicate CallsInstance(r: Resolver, f: FunctionData, c: FuncCall, q: Resolver, e: FuncCall) {
    |r.p.vars| <= e.callee < |q.p.vars| && q.p.vars[e.callee].initial.FunctionValue? &&
    var g := q.p.vars[e.callee].initial.f;
    q.p.vars[e.callee] == FunctionDef(g) && g.builtin == None && g.header == f.header &&
    |r.p.scopes| <= g.body < |q.p.scopes| && q.p.scopes[g.body].parent == None &&
    VarTypes(q.p.vars, q.p.scopes[g.body].inputs).Ok? && VarTypes(q.p.vars, q.p.scopes[g.body].outputs).Ok? &&
    PassedFaithfully(q.p.vars, |r.p.vars|, c.inputs, e.inputs, VarTypes(q.p.vars, q.p.scopes[g.body].inputs).value) &&
    PassedFaithfully(q.p.vars, |r.p.vars|, c.outputs, e.outputs, VarTypes(q.p.vars, q.p.scopes[g.body].outputs).value)
  }

  /** Makes an instance of function `f` with the template parameters of
      `table`: saves the table, copies the body scope into a new parentless
      scope, fixes the template parameters, resolves the copy's dynamic types
      and then the body's statements into the copy. `Err(OutOfFuel)` when the
      nesting of instances goes deeper than `fuel`. */
  method Instantiate(r: Resolver, f: FunctionData, table: TemplateTable, fuel: nat) returns (res: Result<(Resolver, ScopeId), Problem>)
    requires f.body < |r.p.scopes|
    ensures fuel == 0 ==> res == Err(OutOfFuel)
    ensures res.Ok? ==> InstanceOf(r, f, res.value.0, res.value.1)
    decreases fuel, 1
  {
    if fuel == 0 {
      return Err(OutOfFuel);
    }
    var r1 := PushTable(r);
    var copied := CopyScope(r1, f.body, None);
    if copied.Err? {
      return Err(copied.error);
    }
    var (r2, c) := copied.value;
    var fixed := SetTemplateParameters(r2, table);
    if fixed.Err? {
      return Err(fixed.error);
    }
    var r3 := fixed.value;
    var typed := ResolveDynamicDataTypes(r3.p, c, fuel);
    if typed.Err? {
      return Err(typed.error);
    }
    var r4 := r3.(p := typed.value);
    assert forall j | 0 <= j < c :: r4.p.scopes[j] == r2.p.scopes[..c][j];
    assert Frame(r.p, r4.p, c);
    var body := ResolveBody(r4, f.body, c, fuel - 1);
    if body.Err? {
      return Err(body.error);
    }
    var r5 := body.value;
    FrameTrans(r.p, r4.p, r5.p, c);
    ConvertIdsSameTable(r2, r5, r.p.scopes[f.body].inputs);
    ConvertIdsSameTable(r2, r5, r.p.scopes[f.body].outputs);
    res := Ok((r5, c));
  }

  /** Resolves one call into scope `output`: checks it (see `CheckCall`),
      infers the template parameters, and emits it. A built-in is called
      directly against its parameter types with the template parameters
      filled in. Any other function is called through a new instance (see
      `Instantiate`), defined as an intermediate of `output`, whose parameter
      types are read from the instance; the conversion table is then
      restored. */
  method ResolveFunctionCall(r: Resolver, call: FuncCall, output: ScopeId, fuel: nat) returns (res: Result<(Resolver, FuncCall), Problem>)
    requires output < |r.p.scopes|
    ensures CheckCall(r, call).Err? ==> res == Err(CheckCall(r, call).error)
    ensures res.Ok? ==> CheckCall(r, call).Ok? && Grows(r, res.value.0, output)
    ensures res.Ok? ==> Emitted(r, CheckCall(r, call).value.0, output, res.value.0, res.value.1)
    ensures res.Ok? && CheckCall(r, call).value.1.builtin.Some? ==>
              var (c, f) := CheckCall(r, call).value;
              var (q, e) := res.value;
              e.callee == c.callee && CallTemplates(r.p, c, f).Ok? && BuiltinTypes(r.p, f, CallTemplates(r.p, c, f).value).Ok? &&
              var types := BuiltinTypes(r.p, f, CallTemplates(r.p, c, f).value).value;
              PassedFaithfully(q.p.vars, |r.p.vars|, c.inputs, e.inputs, types.0) &&
              PassedFaithfully(q.p.vars, |r.p.vars|, c.outputs, e.outputs, types.1)
    ensures res.Ok? && CheckCall(r, call).value.1.builtin.None? ==>
              CallsInstance(r, CheckCall(r, call).value.1, CheckCall(r, call).value.0, res.value.0, res.value.1)
    decreases fuel, 2
  {
    var checked := CheckCall(r, call);
    if checked.Err? {
      return Err(checked.error);
    }
    var (c, f) := checked.value;
    var templates := CallTemplates(r.p, c, f);
    if templates.Err? {
      return Err(Abort);
    }
    if f.builtin.Some? {
      var types := BuiltinTypes(r.p, f, templates.value);
      if types.Err? {
        return Err(Abort);
      }
      var emitted := EmitCall(r.p, output, r.cast, c, c.callee, types.value.0, types.value.1);
      if emitted.Err? {
        return Err(Abort);
      }
      var (q, e) := emitted.value;
      EmitsFrame(r.p, q, output);
      res := Ok((r.(p := q), e));
    } else {
      var inst := Instantiate(r, f, templates.value, fuel);
      if inst.Err? {
        return Err(inst.error);
      }
      var (r5, copy) := inst.value;
      var g := FunctionData(copy, None, f.header);
      var (p6, fid) := AdoptAndDefineIntermediate(r5.p, output, FunctionDef(g));
      var pinned := PinToParameters(p6, c.outputs, p6.scopes[copy].outputs);
      if pinned.Err? {
        return Err(Abort);
      }
      var p7 := pinned.value;
      var ins := VarTypes(p7.vars, p7.scopes[copy].inputs);
      var outs := VarTypes(p7.vars, p7.scopes[copy].outputs);
      if ins.Err? || outs.Err? {
        return Err(Abort);
      }
      var emitted := EmitPinned(p7, output, r.cast, c, fid, ins.value, outs.value);
      if emitted.Err? {
        return Err(Abort);
      }
      var (p8, e) := emitted.value;
      var q := PopTable(r5.(p := p8)).value;
      NonBuiltinFacts(r, f, c, output, r5, copy, p6, fid, p7, p8, e, ins.value, outs.value);
      res := Ok((q, e));
    }
  }

  /** What the steps of the non-built-in case of `ResolveFunctionCall`
      establish together. */
  lemma NonBuiltinFacts(r: Resolver, f: FunctionData, c: FuncCall, output: ScopeId, r5: Resolver, copy: ScopeId,
                        p6: Program<FuncCall>, fid: VarId, p7: Program<FuncCall>, p8: Program<FuncCall>, e: FuncCall,
                        ins: seq<DataType>, outs: seq<DataType>)
    requires f.body < |r.p.scopes| && output < |r.p.scopes| && InstanceOf(r, f, r5, copy)
    requires fid == |r5.p.vars| && p6.vars == r5.p.vars + [FunctionDef(FunctionData(copy, None, f.header))] &&
             p6.entry == r5.p.entry && |p6.scopes| == |r5.p.scopes| &&
             p6.scopes[output] == r5.p.scopes[output].(intermediates := r5.p.scopes[output].intermediates + [fid]) &&
             (forall j | 0 <= j < |r5.p.scopes| && j != output :: p6.scopes[j] == r5.p.scopes[j])
    requires OnlyAutomaticTyped(p6, p7) && Emits(p7, p8, output)
    requires VarTypes(p7.vars, p7.scopes[copy].inputs) == Ok(ins) && VarTypes(p7.vars, p7.scopes[copy].outputs) == Ok(outs)
    requires e.callee == fid && e.position == c.position
    requires PassedFaithfully(p8.vars, |p7.vars|, c.inputs, e.inputs, ins) && PassedFaithfully(p8.vars, |p7.vars|, c.outputs, e.outputs, outs)
    requires p8.scopes[output].body == p7.scopes[output].body + Casts(r.cast, c.position, c.inputs, e.inputs) + [e] +
                                       Casts(r.cast, c.position, e.outputs, c.outputs)
    ensures |r5.stack| > 0
    ensures var q := PopTable(r5.(p := p8)).value;
            Grows(r, q, output) && Emitted(r, c, output, q, e) && CallsInstance(r, f, c, q, e)
  {
    var q := PopTable(r5.(p := p8)).value;
    assert (r.stack + [r.table])[..|r.stack|] == r.stack;
    FrameWiden(r.p, r5.p, copy, output);
    assert r5.p.scopes[output] == r.p.scopes[output];
    var s := r5.p.scopes[output];
    assert p6.scopes[output].intermediates[..|s.intermediates|] == s.intermediates;
    assert s.body[..|s.body|] == s.body;
    assert Frame(r5.p, p6, output);
    FrameTrans(r.p, r5.p, p6, output);
    assert Frame(p6, p7, output) by {
      var t := p6.scopes[output];
      assert t.body[..|t.body|] == t.body && t.intermediates[..|t.intermediates|] == t.intermediates;
    }
    FrameTrans(r.p, p6, p7, output);
    assert Frame(p7, p8, output);
    FrameTrans(r.p, p7, p8, output);
    assert p8.vars[fid] == p7.vars[fid] by {
      assert p8.vars[..|p7.vars|][fid] == p7.vars[fid];
    }
    assert p8.scopes[copy] == r5.p.scopes[copy];
    VarTypesKept(p7.vars, p8.vars, p7.scopes[copy].inputs);
    VarTypesKept(p7.vars, p8.vars, p7.scopes[copy].outputs);
    PassedSince(p8.vars, |p7.vars|, |r.p.vars|, c.inputs, e.inputs, ins);
    PassedSince(p8.vars, |p7.vars|, |r.p.vars|, c.outputs, e.outputs, outs);
  }

  /** Resolves the statements of scope `source`, as they are when it starts,
      into scope `dest`, in order. */
  method ResolveBody(r: Resolver, source: ScopeId, dest: ScopeId, fuel: nat) returns (res: Result<Resolver, Problem>)
    requires source < |r.p.scopes| && dest < |r.p.scopes|
    ensures res.Ok? ==> Grows(r, res.value, dest)
    ensures res.Ok? ==> |r.p.scopes[dest].body| + |r.p.scopes[source].body| <= |res.value.p.scopes[dest].body|
    decreases fuel, 3
  {
    var body := r.p.scopes[source].body;
    var q := r;
    var k := 0;
    assert Frame(r.p, r.p, dest) by {
      var s := r.p.scopes[dest];
      assert s.body[..|s.body|] == s.body && s.intermediates[..|s.intermediates|] == s.intermediates;
    }
    while k < |body|
      invariant k <= |body| && Grows(r, q, dest) && |r.p.scopes[dest].body| + k <= |q.p.scopes[dest].body|
    {
      var step := ResolveFunctionCall(q, body[k], dest, fuel);
      if step.Err? {
        return Err(step.error);
      }
      GrowsTrans(r, q, step.value.0, dest);
      q := step.value.0;
      k := k + 1;
    }
    res := Ok(q);
  }

  /** Resolves scope `target` as a program's entry point: copies it under its
      own parent and resolves its statements into the copy. `Err(Abort)` where
      the source panics. */
  method EntryPoint(r: Resolver, target: ScopeId, fuel: nat) returns (res: Result<(Resolver, ScopeId), Problem>)
    ensures target >= |r.p.scopes| ==> res == Err(Abort)
    ensures res.Ok? ==> var (q, c) := res.value;
              target < |r.p.scopes| && c == |r.p.scopes| < |q.p.scopes| && q.p.scopes[..c] == r.p.scopes &&
              q.p.entry == r.p.entry && q.stack == r.stack && q.cast == r.cast &&
              q.p.scopes[c].parent == r.p.scopes[target].parent &&
              q.p.scopes[c].inputs == ConvertIds(q, r.p.scopes[target].inputs) &&
              q.p.scopes[c].outputs == ConvertIds(q, r.p.scopes[target].outputs) &&
              |r.p.scopes[target].body| <= |q.p.scopes[c].body|
  {
    if target >= |r.p.scopes| {
      return Err(Abort);
    }
    var copied := CopyScope(r, target, r.p.scopes[target].parent);
    if copied.Err? {
      return Err(copied.error);
    }
    var (r1, c) := copied.value;
    var body := ResolveBody(r1, target, c, fuel);
    if body.Err? {
      return Err(body.error);
    }
    var q := body.value;
    assert q.p.scopes[..c] == r.p.scopes by {
      forall j | 0 <= j < c ensures q.p.scopes[j] == r.p.scopes[j] {
        assert r1.p.scopes[..c][j] == r.p.scopes[j];
      }
    }
    ConvertIdsSameTable(r1, q, r.p.scopes[target].inputs);
    ConvertIdsSameTable(r1, q, r.p.scopes[target].outputs);
    res := Ok((q, c));
  }

  /** Resolves scope `scope` of program `p` with a fresh resolver whose casts
      call `cast`: returns the program with the resolved copy added and the
      copy's id. */
  method ResolveScope(p: Program<FuncCall>, cast: VarId, scope: ScopeId, fuel: nat) returns (res: Result<(Program<FuncCall>, ScopeId), Problem>)
    ensures scope >= |p.scopes| ==> res == Err(Abort)
    ensures res.Ok? ==> var (q, c) := res.value;
              scope < |p.scopes| && c == |p.scopes| < |q.scopes| && q.scopes[..c] == p.scopes && q.entry == p.entry &&
              q.scopes[c].parent == p.scopes[scope].parent &&
              |q.scopes[c].inputs| == |p.scopes[scope].inputs| && |q.scopes[c].outputs| == |p.scopes[scope].outputs| &&
              |p.scopes[scope].body| <= |q.scopes[c].body|
  {
    var entry := EntryPoint(NewResolver(p, cast), scope, fuel);
    if entry.Err? {
      return Err(entry.error);
    }
    res := Ok((entry.value.0.p, entry.value.1));
  }
}

=== FILE: resolve_copy.dfy ===
/** Copying a function body into fresh arena ids, recording in the conversion
    table which new variable each old one became. */
module ResolveCopy {
  import opened Wrappers
  import opened Types
  import opened FuncCalls
  import opened Store
  import opened ResolveTable

  /** The symbols' variables are not converted yet and are pairwise distinct. */
  predicate SymbolsFresh(r: Resolver, symbols: map<string, VarId>) {
    (forall n | n in symbols :: symbols[n] !in r.table) &&
    (forall n, m | n in symbols && m in symbols && n != m :: symbols[n] != symbols[m])
  }

  /** The intermediates are not converted yet and are pairwise distinct. */
  predicate IntermediatesFresh(r: Resolver, ids: seq<VarId>) {
    (forall i | 0 <= i < |ids| :: ids[i] !in r.table) &&
    (forall i, j | 0 <= i < j < |ids| :: ids[i] != ids[j])
  }

  /** Every variable a scope owns (through its symbols or as an intermediate)
      is new to the table and owned once. */
  predicate OwnedIdsFresh(r: Resolver, s: Scope<FuncCall>) {
    SymbolsFresh(r, s.symbols) && IntermediatesFresh(r, s.intermediates) &&
    forall n, i | n in s.symbols && 0 <= i < |s.intermediates| :: s.symbols[n] != s.intermediates[i]
  }

  /** Every variable a scope owns exists. */
  predicate OwnedIdsValid(vars: nat, s: Scope<FuncCall>) {
    (forall n | n in s.symbols :: s.symbols[n] < vars) &&
    (forall i | 0 <= i < |s.intermediates| :: s.intermediates[i] < vars)
  }

  /** When copying scope `source` under `parent` goes through. */
  predicate CanCopy(r: Resolver, source: ScopeId, parent: Option<ScopeId>)
    requires source < |r.p.scopes|
  {
    (parent.Some? ==> parent.value < |r.p.scopes|) &&
    OwnedIdsValid(|r.p.vars|, r.p.scopes[source]) && OwnedIdsFresh(r, r.p.scopes[source])
  }

  /** Lists the elements of `keys` once each, in an arbitrary order: the
      order in which the source's hash map happens to yield them. */
  method ArbitraryOrder<T>(keys: set<T>) returns (order: seq<T>)
    ensures (forall i | 0 <= i < |order| :: order[i] in keys) && forall x | x in keys :: x in order
    ensures forall i, j | 0 <= i < j < |order| :: order[i] != order[j]
  {
    order := [];
    var rest := keys;
    while rest != {}
      invariant rest <= keys && (forall i | 0 <= i < |order| :: order[i] in keys && order[i] !in rest)
      invariant forall x | x in keys :: x in rest || x in order
      invariant forall i, j | 0 <= i < j < |order| :: order[i] != order[j]
      decreases |rest|
    {
      var x :| x in rest;
      order := order + [x];
      rest := rest - {x};
    }
  }

  /** The variables the names of `order` stand for in `src`, in that order. */
  function NamedIds(src: map<string, VarId>, order: seq<string>): (ids: seq<VarId>)
    requires forall i | 0 <= i < |order| :: order[i] in src
    ensures |ids| == |order| && forall i | 0 <= i < |order| :: ids[i] == src[order[i]]
  {
    if |order| == 0 then [] else NamedIds(src, order[..|order| - 1]) + [src[order[|order| - 1]]]
  }

  /** Clones variable `from` into scope `c` under `name` and converts `from`
      to the clone. `None` where the source panics: `from` outside the arena,
      or `from` already converted. */
  function CopySymbol(q: Resolver, c: ScopeId, name: string, from: VarId): (s: Option<Resolver>)
    requires c < |q.p.scopes|
    ensures s.Some? <==> from < |q.p.vars| && from !in q.table
    ensures s.Some? ==> s.value.stack == q.stack && s.value.cast == q.cast && s.value.p.entry == q.p.entry
    ensures s.Some? ==> |s.value.p.scopes| == |q.p.scopes|
    ensures s.Some? ==> s.value.p.scopes[c] == q.p.scopes[c].(symbols := q.p.scopes[c].symbols[name := |q.p.vars|])
    ensures s.Some? ==> forall j | 0 <= j < |q.p.scopes| && j != c :: s.value.p.scopes[j] == q.p.scopes[j]
    ensures s.Some? ==> s.value.p.vars == q.p.vars + [q.p.vars[from]] && s.value.table == q.table[from := |q.p.vars|]
  {
    if from >= |q.p.vars| then None
    else
      var (p2, to) := AdoptAndDefineSymbol(q.p, c, name, q.p.vars[from]);
      AddConversion(q.(p := p2), from, to)
  }

  /** What copying symbols into scope `c` leaves alone or only extends: the
      saved tables, the entry point, the other scopes, the fields of `c` other
      than `symbols`, the existing variables and the existing conversions. */
  predicate SymbolFrame(r: Resolver, q: Resolver, c: ScopeId) {
    c < |r.p.scopes| && q.stack == r.stack && q.cast == r.cast && q.p.entry == r.p.entry &&
    |q.p.scopes| == |r.p.scopes| && (forall j | 0 <= j < |r.p.scopes| && j != c :: q.p.scopes[j] == r.p.scopes[j]) &&
    q.p.scopes[c] == r.p.scopes[c].(symbols := q.p.scopes[c].symbols) &&
    |r.p.vars| <= |q.p.vars| && q.p.vars[..|r.p.vars|] == r.p.vars &&
    forall x | x in r.table :: x in q.table && q.table[x] == r.table[x]
  }

  /** The first `k` names of `order` are bound in `c`, in order, to new clones
      of the variables `ids` lists for them, and each of those converts to its
      clone; no other name is bound in `c`. */
  predicate SymbolsMapped(r: Resolver, q: Resolver, c: ScopeId, order: seq<string>, ids: seq<VarId>, k: nat)
    requires c < |q.p.scopes| && |order| == |ids|
  {
    var symbols := q.p.scopes[c].symbols;
    k <= |order| && |q.p.vars| == |r.p.vars| + k &&
    (forall n | n in symbols :: n in order[..k]) &&
    forall j | 0 <= j < k ::
      order[j] in symbols && symbols[order[j]] == |r.p.vars| + j &&
      ids[j] in q.table && q.table[ids[j]] == |r.p.vars| + j &&
      (ids[j] < |r.p.vars| ==> q.p.vars[|r.p.vars| + j] == r.p.vars[ids[j]])
  }

  lemma SymbolFrameStep(r: Resolver, q: Resolver, c: ScopeId, name: string, from: VarId)
    requires SymbolFrame(r, q, c) && CopySymbol(q, c, name, from).Some?
    ensures SymbolFrame(r, CopySymbol(q, c, name, from).value, c)
  {
    var s := CopySymbol(q, c, name, from).value;
    assert s.p.vars[..|r.p.vars|] == q.p.vars[..|r.p.vars|];
  }

  lemma SymbolsMappedStep(r: Resolver, q: Resolver, c: ScopeId, order: seq<string>, ids: seq<VarId>, k: nat)
    requires SymbolFrame(r, q, c) && |order| == |ids| && SymbolsMapped(r, q, c, order, ids, k) && k < |order|
    requires forall i, j | 0 <= i < j < |order| :: order[i] != order[j]
    requires CopySymbol(q, c, order[k], ids[k]).Some?
    ensures var s := CopySymbol(q, c, order[k], ids[k]).value;
            c < |s.p.scopes| && SymbolsMapped(r, s, c, order, ids, k + 1)
  {
    var s := CopySymbol(q, c, order[k], ids[k]).value;
    assert order[..k + 1] == order[..k] + [order[k]];
    forall j | 0 <= j < k ensures ids[j] != ids[k] && order[j] != order[k] {
      assert ids[j] in q.table;
    }
    assert s.p.vars[..|r.p.vars|] == r.p.vars;
  }

  /** The loop state of `CopySymbols`: the first `k` names are copied. */
  predicate SymbolsLoop(r: Resolver, q: Resolver, c: ScopeId, order: seq<string>, ids: seq<VarId>, k: nat) {
    |order| == |ids| && k <= |ids| && SymbolFrame(r, q, c) && SymbolsMapped(r, q, c, order, ids, k) &&
    ConvertedPrefix(r, q, ids, k) && PrefixFresh(r, ids, k)
  }

  lemma SymbolsLoopStep(r: Resolver, q: Resolver, c: ScopeId, order: seq<string>, ids: seq<VarId>, k: nat)
    requires SymbolsLoop(r, q, c, order, ids, k) && k < |ids|
    requires forall i, j | 0 <= i < j < |order| :: order[i] != order[j]
    requires CopySymbol(q, c, order[k], ids[k]).Some?
    ensures SymbolsLoop(r, CopySymbol(q, c, order[k], ids[k]).value, c, order, ids, k + 1)
  {
    SymbolFrameStep(r, q, c, order[k], ids[k]);
    SymbolsMappedStep(r, q, c, order, ids, k);
    ConvertedPrefixStep(r, q, CopySymbol(q, c, order[k], ids[k]).value, ids, k);
    PrefixFreshStep(r, q, ids, k);
  }

  lemma SymbolsLoopStart(r: Resolver, c: ScopeId, order: seq<string>, ids: seq<VarId>)
    requires c < |r.p.scopes| && r.p.scopes[c].symbols == map[] && |order| == |ids|
    ensures SymbolsLoop(r, r, c, order, ids, 0)
  {
    assert r.p.vars[..|r.p.vars|] == r.p.vars;
  }

  /** The copied symbols, stated over the source map rather than the order
      they were copied in. */
  predicate SymbolsCopied(r: Resolver, q: Resolver, c: ScopeId, src: map<string, VarId>)
    requires c < |q.p.scopes|
  {
    var copy := q.p.scopes[c].symbols;
    copy.Keys == src.Keys && |q.p.vars| == |r.p.vars| + |src| &&
    forall n | n in src ::
      |r.p.vars| <= copy[n] < |q.p.vars| && src[n] in q.table && q.table[src[n]] == copy[n] &&
      (src[n] < |r.p.vars| ==> q.p.vars[copy[n]] == r.p.vars[src[n]])
  }

  /** The names of `order` are exactly the keys of `src`, once each. */
  predicate Enumerates(order: seq<string>, src: map<string, VarId>) {
    (forall i | 0 <= i < |order| :: order[i] in src) && (forall x | x in src :: x in order) &&
    forall i, j | 0 <= i < j < |order| :: order[i] != order[j]
  }

  lemma SymbolsCopiedFromOrder(r: Resolver, q: Resolver, c: ScopeId, src: map<string, VarId>, order: seq<string>)
    requires Enumerates(order, src) && c < |q.p.scopes|
    requires SymbolsMapped(r, q, c, order, NamedIds(src, order), |order|)
    ensures SymbolsCopied(r, q, c, src)
  {
    var copy := q.p.scopes[c].symbols;
    assert order[..|order|] == order;
    EnumerationLength(order, src);
    forall n | n in src
      ensures |r.p.vars| <= copy[n] < |q.p.vars| && src[n] in q.table && q.table[src[n]] == copy[n] &&
              (src[n] < |r.p.vars| ==> q.p.vars[copy[n]] == r.p.vars[src[n]])
    {
      var j :| 0 <= j < |order| && order[j] == n;
      CopiedName(r, q, c, order, NamedIds(src, order), j);
    }
  }

  lemma CopiedName(r: Resolver, q: Resolver, c: ScopeId, order: seq<string>, ids: seq<VarId>, j: nat)
    requires c < |q.p.scopes| && |order| == |ids| && j < |order|
    requires SymbolsMapped(r, q, c, order, ids, |order|)
    ensures var copy, n := q.p.scopes[c].symbols, order[j];
            n in copy && copy[n] == |r.p.vars| + j < |q.p.vars| && ids[j] in q.table && q.table[ids[j]] == copy[n] &&
            (ids[j] < |r.p.vars| ==> q.p.vars[copy[n]] == r.p.vars[ids[j]])
  {
  }

  lemma EnumerationLength(order: seq<string>, src: map<string, VarId>)
    requires Enumerates(order, src)
    ensures |order| == |src|
  {
    assert src.Keys == set i | 0 <= i < |order| :: order[i];
    DistinctCount(order, src.Keys);
  }

  lemma OrderFresh(r: Resolver, q: Resolver, src: map<string, VarId>, order: seq<string>)
    requires Enumerates(order, src)
    requires PrefixFresh(r, NamedIds(src, order), |order|)
    ensures SymbolsFresh(r, src)
  {
    var ids := NamedIds(src, order);
    forall n, m | n in src && m in src && n != m ensures src[n] != src[m] {
      var i :| 0 <= i < |order| && order[i] == n;
      var j :| 0 <= j < |order| && order[j] == m;
      assert ids[i] == src[n] && ids[j] == src[m];
      if i < j {} else {}
    }
    forall n | n in src ensures src[n] !in r.table {
      var i :| 0 <= i < |order| && order[i] == n;
      assert ids[i] == src[n];
    }
  }

  lemma OrderConverted(r: Resolver, q: Resolver, src: map<string, VarId>, order: seq<string>)
    requires Enumerates(order, src)
    requires ConvertedPrefix(r, q, NamedIds(src, order), |order|)
    ensures forall x | x in q.table :: x in r.table || x in src.Values
  {
    var ids := NamedIds(src, order);
    forall x | x in q.table && x !in r.table ensures x in src.Values {
      assert x in ids[..|ids|];
      var j :| 0 <= j < |ids| && ids[j] == x;
      assert src[order[j]] == x;
    }
  }

  /** The whole loop's work, stated over the source map. */
  lemma SymbolsLoopDone(r: Resolver, q: Resolver, c: ScopeId, src: map<string, VarId>, order: seq<string>)
    requires Enumerates(order, src) && SymbolsLoop(r, q, c, order, NamedIds(src, order), |order|)
    ensures SymbolFrame(r, q, c) && SymbolsCopied(r, q, c, src) && SymbolsFresh(r, src)
    ensures forall x | x in q.table :: x in r.table || x in src.Values
  {
    SymbolsCopiedFromOrder(r, q, c, src, order);
    OrderFresh(r, q, src, order);
    OrderConverted(r, q, src, order);
  }

  lemma DistinctCount<T>(order: seq<T>, keys: set<T>)
    requires keys == set i | 0 <= i < |order| :: order[i]
    requires forall i, j | 0 <= i < j < |order| :: order[i] != order[j]
    ensures |keys| == |order|
    decreases |order|
  {
    if |order| > 0 {
      var init := order[..|order| - 1];
      var rest := set i | 0 <= i < |init| :: init[i];
      assert keys == rest + {order[|order| - 1]};
      assert order[|order| - 1] !in rest;
      DistinctCount(init, rest);
    }
  }

  /** Source names that stand for valid, fresh, distinct variables make every
      step go through. */
  lemma FreshNamesFreshIds(r: Resolver, src: map<string, VarId>, order: seq<string>)
    requires forall i | 0 <= i < |order| :: order[i] in src
    requires forall i, j | 0 <= i < j < |order| :: order[i] != order[j]
    requires SymbolsFresh(r, src)
    ensures IntermediatesFresh(r, NamedIds(src, order))
  {
  }

  /** Clones each variable named in `src` into scope `c` under the same name,
      converting the old id to the new one, in an arbitrary order (the source
      walks a hash map). `None` where the source panics: an id outside the
      arena as it stands when it is read, or an id that already has a
      conversion. */
  method CopySymbols(r: Resolver, c: ScopeId, src: map<string, VarId>) returns (res: Option<Resolver>)
    requires c < |r.p.scopes| && r.p.scopes[c].symbols == map[]
    ensures (forall n | n in src :: src[n] < |r.p.vars|) && SymbolsFresh(r, src) ==> res.Some?
    ensures res.Some? ==> SymbolFrame(r, res.value, c) && SymbolsCopied(r, res.value, c, src)
    ensures res.Some? ==> SymbolsFresh(r, src)
    ensures res.Some? ==> forall x | x in res.value.table :: x in r.table || x in src.Values
  {
    var order := ArbitraryOrder(src.Keys);
    assert Enumerates(order, src);
    var ids := NamedIds(src, order);
    if (forall n | n in src :: src[n] < |r.p.vars|) && SymbolsFresh(r, src) {
      FreshNamesFreshIds(r, src, order);
    }
    SymbolsLoopStart(r, c, order, ids);
    res := CopySymbolsFrom(r, r, c, order, ids, 0);
    if res.Some? {
      SymbolsLoopDone(r, res.value, c, src, order);
    }
  }

  /** The step of `CopySymbols` from the `k`-th name of `order` on. */
  method CopySymbolsFrom(r: Resolver, q: Resolver, c: ScopeId, order: seq<string>, ids: seq<VarId>, k: nat)
    returns (res: Option<Resolver>)
    requires SymbolsLoop(r, q, c, order, ids, k)
    requires forall i, j | 0 <= i < j < |order| :: order[i] != order[j]
    ensures (forall j | 0 <= j < |ids| :: ids[j] < |r.p.vars|) && IntermediatesFresh(r, ids) ==> res.Some?
    ensures res.Some? ==> SymbolsLoop(r, res.value, c, order, ids, |ids|)
    decreases |ids| - k
  {
    if k == |ids| {
      return Some(q);
    }
    if (forall j | 0 <= j < |ids| :: ids[j] < |r.p.vars|) && IntermediatesFresh(r, ids) {
      FreshPrefixUnconverted(r, q, ids, k);
    }
    var next := CopySymbol(q, c, order[k], ids[k]);
    if next.None? {
      return None;
    }
    SymbolsLoopStep(r, q, c, order, ids, k);
    res := CopySymbolsFrom(r, next.value, c, order, ids, k + 1);
  }

  /** Clones variable `from` as a new intermediate of scope `c` and converts
      `from` to the clone. `None` where the source panics: `from` outside the
      arena, or `from` already converted. */
  function CopyIntermediate(q: Resolver, c: ScopeId, from: VarId): (s: Option<Resolver>)
    requires c < |q.p.scopes|
    ensures s.Some? <==> from < |q.p.vars| && from !in q.table
    ensures s.Some? ==> s.value.stack == q.stack && s.value.cast == q.cast && s.value.p.entry == q.p.entry
    ensures s.Some? ==> |s.value.p.scopes| == |q.p.scopes|
    ensures s.Some? ==> s.value.p.scopes[c] == q.p.scopes[c].(intermediates := q.p.scopes[c].intermediates + [|q.p.vars|])
    ensures s.Some? ==> forall j | 0 <= j < |q.p.scopes| && j != c :: s.value.p.scopes[j] == q.p.scopes[j]
    ensures s.Some? ==> s.value.p.vars == q.p.vars + [q.p.vars[from]] && s.value.table == q.table[from := |q.p.vars|]
  {
    if from >= |q.p.vars| then None
    else
      var (p2, to) := AdoptAndDefineIntermediate(q.p, c, q.p.vars[from]);
      AddConversion(q.(p := p2), from, to)
  }

  /** What copying intermediates into scope `c` leaves alone or only extends. */
  predicate IntermediateFrame(r: Resolver, q: Resolver, c: ScopeId) {
    c < |r.p.scopes| && q.stack == r.stack && q.cast == r.cast && q.p.entry == r.p.entry &&
    |q.p.scopes| == |r.p.scopes| && q.p.scopes == r.p.scopes[c := q.p.scopes[c]] &&
    q.p.scopes[c] == r.p.scopes[c].(intermediates := q.p.scopes[c].intermediates) &&
    |r.p.vars| <= |q.p.vars| && q.p.vars[..|r.p.vars|] == r.p.vars &&
    forall x | x in r.table :: x in q.table && q.table[x] == r.table[x]
  }

  /** The first `k` ids of `src` were cloned, in order, as new intermediates
      appended to those `c` had, and each converts to its clone. */
  predicate IntermediatesMapped(r: Resolver, q: Resolver, c: ScopeId, src: seq<VarId>, k: nat)
    requires c < |r.p.scopes| && c < |q.p.scopes|
  {
    var before, after := r.p.scopes[c].intermediates, q.p.scopes[c].intermediates;
    k <= |src| && |q.p.vars| == |r.p.vars| + k && |after| == |before| + k && after[..|before|] == before &&
    forall j | 0 <= j < k ::
      after[|before| + j] == |r.p.vars| + j && src[j] in q.table && q.table[src[j]] == |r.p.vars| + j &&
      (src[j] < |r.p.vars| ==> q.p.vars[|r.p.vars| + j] == r.p.vars[src[j]])
  }

  /** The conversions are the old ones and those of the first `k` ids of
      `src`. */
  predicate ConvertedPrefix(r: Resolver, q: Resolver, src: seq<VarId>, k: nat)
    requires k <= |src|
  {
    (forall j | 0 <= j < k :: src[j] in q.table) &&
    (forall x | x in q.table :: x in r.table || x in src[..k])
  }

  lemma IntermediateFrameStep(r: Resolver, q: Resolver, c: ScopeId, from: VarId)
    requires IntermediateFrame(r, q, c) && CopyIntermediate(q, c, from).Some?
    ensures IntermediateFrame(r, CopyIntermediate(q, c, from).value, c)
  {
    var s := CopyIntermediate(q, c, from).value;
    assert s.p.vars[..|r.p.vars|] == q.p.vars[..|r.p.vars|];
  }

  lemma IntermediatesMappedStep(r: Resolver, q: Resolver, c: ScopeId, src: seq<VarId>, k: nat)
    requires IntermediateFrame(r, q, c) && IntermediatesMapped(r, q, c, src, k) && k < |src|
    requires CopyIntermediate(q, c, src[k]).Some?
    ensures var s := CopyIntermediate(q, c, src[k]).value;
            c < |s.p.scopes| && IntermediatesMapped(r, s, c, src, k + 1)
  {
    var s := CopyIntermediate(q, c, src[k]).value;
    var before := r.p.scopes[c].intermediates;
    assert s.p.scopes[c].intermediates == q.p.scopes[c].intermediates + [|q.p.vars|];
    forall j | 0 <= j < k ensures src[j] != src[k] {
      assert src[j] in q.table;
    }
    assert s.p.vars[..|r.p.vars|] == r.p.vars;
  }

  lemma ConvertedPrefixStep(r: Resolver, q: Resolver, s: Resolver, src: seq<VarId>, k: nat)
    requires k < |src| && ConvertedPrefix(r, q, src, k)
    requires src[k] in s.table && forall x | x in s.table :: x in q.table || x == src[k]
    requires forall x | x in q.table :: x in s.table
    ensures ConvertedPrefix(r, s, src, k + 1)
  {
    assert src[..k + 1] == src[..k] + [src[k]];
    forall x | x in s.table ensures x in r.table || x in src[..k + 1] {
      if x != src[k] {
        assert x in q.table;
      }
    }
  }

  /** The first `k` ids had no conversion and are pairwise distinct. */
  predicate PrefixFresh(r: Resolver, src: seq<VarId>, k: nat)
    requires k <= |src|
  {
    (forall j | 0 <= j < k :: src[j] !in r.table) &&
    (forall i, j | 0 <= i < j < k :: src[i] != src[j])
  }

  lemma PrefixFreshStep(r: Resolver, q: Resolver, src: seq<VarId>, k: nat)
    requires k < |src| && PrefixFresh(r, src, k) && ConvertedPrefix(r, q, src, k) && src[k] !in q.table
    requires forall x | x in r.table :: x in q.table
    ensures PrefixFresh(r, src, k + 1)
  {
    forall j | 0 <= j < k ensures src[j] != src[k] {
      assert src[j] in q.table;
    }
  }

  lemma FreshPrefixUnconverted(r: Resolver, q: Resolver, src: seq<VarId>, k: nat)
    requires k < |src| && ConvertedPrefix(r, q, src, k) && IntermediatesFresh(r, src)
    ensures src[k] !in q.table
  {
    assert src[k] !in src[..k];
  }

  /** The loop invariant of `CopyIntermediates` after `k` ids. */
  predicate IntermediatesLoop(r: Resolver, q: Resolver, c: ScopeId, src: seq<VarId>, k: nat) {
    k <= |src| && IntermediateFrame(r, q, c) && IntermediatesMapped(r, q, c, src, k) &&
    ConvertedPrefix(r, q, src, k) && PrefixFresh(r, src, k)
  }

  lemma IntermediatesLoopStart(r: Resolver, c: ScopeId, src: seq<VarId>)
    requires c < |r.p.scopes|
    ensures IntermediatesLoop(r, r, c, src, 0)
  {
    assert r.p.scopes[c := r.p.scopes[c]] == r.p.scopes;
    assert r.p.scopes[c].intermediates[..|r.p.scopes[c].intermediates|] == r.p.scopes[c].intermediates;
  }

  lemma IntermediatesLoopStep(r: Resolver, q: Resolver, c: ScopeId, src: seq<VarId>, k: nat)
    requires IntermediatesLoop(r, q, c, src, k) && k < |src|
    requires CopyIntermediate(q, c, src[k]).Some?
    ensures IntermediatesLoop(r, CopyIntermediate(q, c, src[k]).value, c, src, k + 1)
  {
    var s := CopyIntermediate(q, c, src[k]).value;
    IntermediateFrameStep(r, q, c, src[k]);
    IntermediatesMappedStep(r, q, c, src, k);
    ConvertedPrefixStep(r, q, s, src, k);
    PrefixFreshStep(r, q, src, k);
  }

  /** Clones each variable of `src`, in order, as a new intermediate of scope
      `c`, converting the old id to the new one. `None` where the source
      panics, as for symbols. */
  method CopyIntermediates(r: Resolver, c: ScopeId, src: seq<VarId>) returns (res: Option<Resolver>)
    requires c < |r.p.scopes|
    ensures (forall j | 0 <= j < |src| :: src[j] < |r.p.vars|) && IntermediatesFresh(r, src) ==> res.Some?
    ensures res.Some? ==> IntermediateFrame(r, res.value, c) && IntermediatesMapped(r, res.value, c, src, |src|)
    ensures res.Some? ==> IntermediatesFresh(r, src)
    ensures res.Some? ==> ConvertedPrefix(r, res.value, src, |src|)
  {
    IntermediatesLoopStart(r, c, src);
    res := CopyIntermediatesFrom(r, r, c, src, 0);
  }

  /** The step of `CopyIntermediates` from the `k`-th id of `src` on. */
  method CopyIntermediatesFrom(r: Resolver, q: Resolver, c: ScopeId, src: seq<VarId>, k: nat) returns (res: Option<Resolver>)
    requires IntermediatesLoop(r, q, c, src, k)
    ensures (forall j | 0 <= j < |src| :: src[j] < |r.p.vars|) && IntermediatesFresh(r, src) ==> res.Some?
    ensures res.Some? ==> IntermediatesLoop(r, res.value, c, src, |src|)
    decreases |src| - k
  {
    if k == |src| {
      return Some(q);
    }
    if (forall j | 0 <= j < |src| :: src[j] < |r.p.vars|) && IntermediatesFresh(r, src) {
      FreshPrefixUnconverted(r, q, src, k);
    }
    var next := CopyIntermediate(q, c, src[k]);
    if next.None? {
      return None;
    }
    IntermediatesLoopStep(r, q, c, src, k);
    res := CopyIntermediatesFrom(r, next.value, c, src, k + 1);
  }

  /** What copying scope `source` to the new scope `c` leaves alone or only
      extends: the saved tables, the entry point, every older scope, the
      existing variables and the existing conversions. */
  predicate CopyFrame(r: Resolver, q: Resolver, c: ScopeId) {
    c == |r.p.scopes| && |q.p.scopes| == c + 1 && q.p.scopes[..c] == r.p.scopes &&
    q.stack == r.stack && q.cast == r.cast && q.p.entry == r.p.entry &&
    |r.p.vars| <= |q.p.vars| && q.p.vars[..|r.p.vars|] == r.p.vars &&
    forall x | x in r.table :: x in q.table && q.table[x] == r.table[x]
  }

  /** The copy binds the same names as `src`, each to a new clone of the
      variable `src` binds it to, and each old variable converts to its
      clone. */
  predicate CopiedSymbols(r: Resolver, q: Resolver, c: ScopeId, src: map<string, VarId>)
    requires c < |q.p.scopes|
  {
    var copy, base := q.p.scopes[c].symbols, |r.p.vars|;
    copy.Keys == src.Keys && base + |src| <= |q.p.vars| &&
    forall n | n in src ::
      base <= copy[n] < base + |src| && Convert(q, src[n]) == copy[n] &&
      (src[n] < base ==> q.p.vars[copy[n]] == r.p.vars[src[n]])
  }

  /** The copy's intermediates are new clones, made after the `skip` symbol
      clones, of the intermediates `src` lists, in the same order, and each old
      variable converts to its clone. */
  predicate CopiedIntermediates(r: Resolver, q: Resolver, c: ScopeId, skip: nat, src: seq<VarId>)
    requires c < |q.p.scopes|
  {
    var copy, base := q.p.scopes[c].intermediates, |r.p.vars| + skip;
    |copy| == |src| && |q.p.vars| == base + |src| &&
    forall j | 0 <= j < |src| ::
      copy[j] == base + j && Convert(q, src[j]) == copy[j] &&
      (src[j] < |r.p.vars| ==> q.p.vars[copy[j]] == r.p.vars[src[j]])
  }

  /** Everything `CopyScope` promises about its result `q` and the new scope
      `c` it made from scope `source` under `parent`. */
  predicate ScopeCopied(r: Resolver, source: ScopeId, parent: Option<ScopeId>, q: Resolver, c: ScopeId)
    requires source < |r.p.scopes|
  {
    var src := r.p.scopes[source];
    CopyFrame(r, q, c) && OwnedIdsFresh(r, src) &&
    q.p.scopes[c].parent == parent && (parent.Some? ==> parent.value < c) && q.p.scopes[c].body == [] &&
    CopiedSymbols(r, q, c, src.symbols) && CopiedIntermediates(r, q, c, |src.symbols|, src.intermediates) &&
    q.p.scopes[c].inputs == ConvertIds(q, src.inputs) && q.p.scopes[c].outputs == ConvertIds(q, src.outputs) &&
    forall x | x in q.table :: x in r.table || x in src.symbols.Values || x in src.intermediates
  }

  /** Copies scope `source` into a new scope under `parent`: clones its symbols
      (in an arbitrary order) and then its intermediates, recording each old id's
      conversion, and gives the copy the converted parameter lists. The body is
      not copied. `Err(Abort)` where the source panics: a parent that does not
      exist, an owned id outside the arena, or an id converted twice. */
  method CopyScope(r: Resolver, source: ScopeId, parent: Option<ScopeId>) returns (res: Result<(Resolver, ScopeId), Problem>)
    requires source < |r.p.scopes|
    ensures res.Err? ==> res.error == Abort
    ensures CanCopy(r, source, parent) ==> res.Ok?
    ensures res.Ok? ==> ScopeCopied(r, source, parent, res.value.0, res.value.1)
  {
    var src := r.p.scopes[source];
    var made := OpenScope(r, parent);
    if made.None? {
      return Err(Abort);
    }
    var (q0, c) := made.value;
    var withSymbols := CopySymbols(q0, c, src.symbols);
    if withSymbols.None? {
      return Err(Abort);
    }
    var q1 := withSymbols.value;
    if CanCopy(r, source, parent) {
      IntermediatesStillFresh(r, q1, src);
    }
    var withIntermediates := CopyIntermediates(q1, c, src.intermediates);
    if withIntermediates.None? {
      return Err(Abort);
    }
    var q2 := withIntermediates.value;
    assert StagesDone(r, q0, q1, q2, c, src, parent);
    CopyScopeResult(r, source, parent, q0, q1, q2, c);
    res := Ok((WithParams(q2, c, src), c));
  }

  /** `q0` is `r` with the new empty scope `c` under `parent` appended. */
  predicate Opened(r: Resolver, q0: Resolver, c: ScopeId, parent: Option<ScopeId>) {
    c == |r.p.scopes| && (parent.Some? ==> parent.value < c) && q0.table == r.table && q0.stack == r.stack && q0.cast == r.cast &&
    q0.p.vars == r.p.vars && q0.p.entry == r.p.entry && q0.p.scopes == r.p.scopes + [EmptyScope(parent)]
  }

  /** The first step of `CopyScope`: a new scope, a child of `parent` when
      there is one; `None` where the parent does not exist. */
  method OpenScope(r: Resolver, parent: Option<ScopeId>) returns (res: Option<(Resolver, ScopeId)>)
    ensures res.None? <==> parent.Some? && parent.value >= |r.p.scopes|
    ensures res.Some? ==> Opened(r, res.value.0, res.value.1, parent) && res.value.0.p.scopes[res.value.1].symbols == map[]
  {
    if parent.Some? {
      var made := CreateChildScope(r.p, parent.value);
      if made.None? {
        return None;
      }
      res := Some((r.(p := made.value.0), made.value.1));
    } else {
      res := Some((r.(p := CreateScope(r.p).0), CreateScope(r.p).1));
    }
  }

  /** After the symbols are copied, valid fresh intermediates are still valid
      and fresh: the symbols only converted ids that are not intermediates. */
  lemma IntermediatesStillFresh(r: Resolver, q1: Resolver, src: Scope<FuncCall>)
    requires OwnedIdsValid(|r.p.vars|, src) && OwnedIdsFresh(r, src) && |r.p.vars| <= |q1.p.vars|
    requires forall x | x in q1.table :: x in r.table || x in src.symbols.Values
    ensures (forall j | 0 <= j < |src.intermediates| :: src.intermediates[j] < |q1.p.vars|) && IntermediatesFresh(q1, src.intermediates)
  {
    forall j | 0 <= j < |src.intermediates| ensures src.intermediates[j] !in src.symbols.Values {
    }
  }

  /** The copy of `src`'s parameter lists, converted, stored in scope `c`. */
  function WithParams(q: Resolver, c: ScopeId, src: Scope<FuncCall>): (s: Resolver)
    requires c < |q.p.scopes|
    ensures s.table == q.table && s.stack == q.stack && s.cast == q.cast && s.p.vars == q.p.vars && s.p.entry == q.p.entry
    ensures |s.p.scopes| == |q.p.scopes| && forall j | 0 <= j < |q.p.scopes| && j != c :: s.p.scopes[j] == q.p.scopes[j]
    ensures s.p.scopes[c].inputs == ConvertIds(q, src.inputs) && s.p.scopes[c].outputs == ConvertIds(q, src.outputs)
    ensures s.p.scopes[c].(inputs := q.p.scopes[c].inputs, outputs := q.p.scopes[c].outputs) == q.p.scopes[c]
  {
    var scope := q.p.scopes[c].(inputs := ConvertIds(q, src.inputs), outputs := ConvertIds(q, src.outputs));
    q.(p := q.p.(scopes := q.p.scopes[c := scope]))
  }

  /** The facts the three stages of `CopyScope` leave behind. */
  predicate StagesDone(r: Resolver, q0: Resolver, q1: Resolver, q2: Resolver, c: ScopeId, src: Scope<FuncCall>, parent: Option<ScopeId>) {
    Opened(r, q0, c, parent) &&
    SymbolFrame(q0, q1, c) && SymbolsCopied(q0, q1, c, src.symbols) && SymbolsFresh(q0, src.symbols) &&
    (forall x | x in q1.table :: x in q0.table || x in src.symbols.Values) &&
    IntermediateFrame(q1, q2, c) && IntermediatesMapped(q1, q2, c, src.intermediates, |src.intermediates|) &&
    IntermediatesFresh(q1, src.intermediates) && ConvertedPrefix(q1, q2, src.intermediates, |src.intermediates|)
  }

  lemma CopyScopeResult(r: Resolver, source: ScopeId, parent: Option<ScopeId>, q0: Resolver, q1: Resolver, q2: Resolver, c: ScopeId)
    requires source < |r.p.scopes| && StagesDone(r, q0, q1, q2, c, r.p.scopes[source], parent)
    ensures ScopeCopied(r, source, parent, WithParams(q2, c, r.p.scopes[source]), c)
  {
    var src := r.p.scopes[source];
    var q := WithParams(q2, c, src);
    CopyFrameHolds(r, q0, q1, q2, c, src, parent);
    OwnedFreshHolds(r, q0, q1, c, src);
    CopiedSymbolsHold(r, q0, q1, q2, c, src, parent);
    assert q1.p.scopes[c].intermediates == [];
    CopiedIntermediatesHold(r, q1, q2, c, src);
    ConvertedTableHolds(r, q0, q1, q2, c, src, parent);
    ConvertIdsSameTable(q, q2, src.inputs);
    ConvertIdsSameTable(q, q2, src.outputs);
  }

  lemma CopyFrameHolds(r: Resolver, q0: Resolver, q1: Resolver, q2: Resolver, c: ScopeId, src: Scope<FuncCall>, parent: Option<ScopeId>)
    requires StagesDone(r, q0, q1, q2, c, src, parent)
    ensures var q := WithParams(q2, c, src);
            CopyFrame(r, q, c) && q.p.scopes[c].parent == parent && q.p.scopes[c].body == []
    ensures parent.Some? ==> parent.value < c
  {
    var q := WithParams(q2, c, src);
    assert q.p.scopes[..c] == r.p.scopes by {
      forall j | 0 <= j < c ensures q.p.scopes[j] == r.p.scopes[j] {
        assert q0.p.scopes[j] == r.p.scopes[j];
      }
    }
    assert q.p.vars[..|r.p.vars|] == q1.p.vars[..|r.p.vars|];
  }

  lemma OwnedFreshHolds(r: Resolver, q0: Resolver, q1: Resolver, c: ScopeId, src: Scope<FuncCall>)
    requires q0.table == r.table && SymbolsFresh(q0, src.symbols) && IntermediatesFresh(q1, src.intermediates)
    requires c < |q1.p.scopes| && SymbolsCopied(q0, q1, c, src.symbols)
    requires forall x | x in r.table :: x in q1.table
    ensures OwnedIdsFresh(r, src)
  {
    forall j | 0 <= j < |src.intermediates| ensures src.intermediates[j] !in r.table {
      assert src.intermediates[j] !in q1.table;
    }
    forall n, i | n in src.symbols && 0 <= i < |src.intermediates| ensures src.symbols[n] != src.intermediates[i] {
      assert src.symbols[n] in q1.table;
    }
  }

  lemma CopiedSymbolsHold(r: Resolver, q0: Resolver, q1: Resolver, q2: Resolver, c: ScopeId, src: Scope<FuncCall>, parent: Option<ScopeId>)
    requires StagesDone(r, q0, q1, q2, c, src, parent)
    ensures CopiedSymbols(r, WithParams(q2, c, src), c, src.symbols)
  {
    var q := WithParams(q2, c, src);
    var copy := q1.p.scopes[c].symbols;
    assert q.p.scopes[c].symbols == copy;
    forall n | n in src.symbols
      ensures src.symbols[n] < |r.p.vars| ==> q.p.vars[copy[n]] == r.p.vars[src.symbols[n]]
      ensures Convert(q, src.symbols[n]) == copy[n]
    {
      assert q.p.vars[..|q1.p.vars|] == q1.p.vars;
      assert src.symbols[n] in q1.table;
    }
  }

  lemma CopiedIntermediatesHold(r: Resolver, q1: Resolver, q2: Resolver, c: ScopeId, src: Scope<FuncCall>)
    requires c < |q1.p.scopes| && c < |q2.p.scopes| && q1.p.scopes[c].intermediates == []
    requires |r.p.vars| + |src.symbols| == |q1.p.vars| && q1.p.vars[..|r.p.vars|] == r.p.vars
    requires IntermediatesMapped(q1, q2, c, src.intermediates, |src.intermediates|)
    ensures CopiedIntermediates(r, WithParams(q2, c, src), c, |src.symbols|, src.intermediates)
  {
    MappedIntermediatesCopied(r, q1, q2, c, |src.symbols|, src.intermediates);
    CopiedIntermediatesWithParams(r, q2, c, |src.symbols|, src);
  }

  lemma MappedIntermediatesCopied(r: Resolver, q1: Resolver, q2: Resolver, c: ScopeId, skip: nat, inter: seq<VarId>)
    requires c < |q1.p.scopes| && c < |q2.p.scopes| && q1.p.scopes[c].intermediates == []
    requires |r.p.vars| + skip == |q1.p.vars| && q1.p.vars[..|r.p.vars|] == r.p.vars
    requires IntermediatesMapped(q1, q2, c, inter, |inter|)
    ensures CopiedIntermediates(r, q2, c, skip, inter)
  {
    var base := |q1.p.vars|;
    var copy := q2.p.scopes[c].intermediates;
    forall j | 0 <= j < |inter|
      ensures copy[j] == base + j && Convert(q2, inter[j]) == base + j
      ensures inter[j] < |r.p.vars| ==> q2.p.vars[base + j] == r.p.vars[inter[j]]
    {
      assert copy[0 + j] == base + j;
      if inter[j] < |r.p.vars| {
        assert q2.p.vars[base + j] == q1.p.vars[inter[j]];
        assert q1.p.vars[inter[j]] == q1.p.vars[..|r.p.vars|][inter[j]];
      }
    }
  }

  lemma CopiedIntermediatesWithParams(r: Resolver, q: Resolver, c: ScopeId, skip: nat, src: Scope<FuncCall>)
    requires c < |q.p.scopes| && CopiedIntermediates(r, q, c, skip, src.intermediates)
    ensures CopiedIntermediates(r, WithParams(q, c, src), c, skip, src.intermediates)
  {
    var s := WithParams(q, c, src);
    assert s.p.scopes[c].intermediates == q.p.scopes[c].intermediates;
    forall x ensures Convert(s, x) == Convert(q, x) {
    }
  }

  lemma ConvertedTableHolds(r: Resolver, q0: Resolver, q1: Resolver, q2: Resolver, c: ScopeId, src: Scope<FuncCall>, parent: Option<ScopeId>)
    requires StagesDone(r, q0, q1, q2, c, src, parent)
    ensures forall x | x in q2.table :: x in r.table || x in src.symbols.Values || x in src.intermediates
  {
    assert src.intermediates[..|src.intermediates|] == src.intermediates;
  }

  /** Name lookup in the copy: a name `src` binds finds its clone; any other
      name is looked up in the parent, as it was before the copy. */
  lemma CopiedLookup(r: Resolver, source: ScopeId, parent: Option<ScopeId>, q: Resolver, c: ScopeId, name: string)
    requires ParentsBelow(r.p) && source < |r.p.scopes| && ScopeCopied(r, source, parent, q, c)
    ensures ParentsBelow(q.p)
    ensures var src := r.p.scopes[source].symbols;
            name in src ==> LookupSymbol(q.p, c, name) == Some(Convert(q, src[name]))
    ensures name !in r.p.scopes[source].symbols && parent.None? ==> LookupSymbol(q.p, c, name) == None
    ensures name !in r.p.scopes[source].symbols && parent.Some? ==>
              LookupSymbol(q.p, c, name) == LookupSymbol(r.p, parent.value, name)
  {
    forall i | 0 <= i < |q.p.scopes| && q.p.scopes[i].parent.Some? ensures q.p.scopes[i].parent.value < i {
      if i < c {
        assert q.p.scopes[i] == q.p.scopes[..c][i];
      }
    }
    if parent.Some? && name !in r.p.scopes[source].symbols {
      LookupUnchanged(r.p, q.p, parent.value, name);
    }
  }
}

=== FILE: resolve_emit.dfy ===
/** Emitting a resolved call into the output scope: automatic output types are
    pinned, and arguments whose type differs from the parameter's are routed
    through fresh intermediates and casts. */
module ResolveEmit {
  import opened Wrappers
  import opened Types
  import opened Variables
  import opened Store
  import opened FuncCalls

  /** The type of an argument as the resolver checks it: the base's type, for
      an access without indexes. `Err(Abort)` where the source panics. */
  function ArgType(vars: seq<Variable>, a: VarAccess): (r: Result<DataType, Problem>)
    ensures r.Ok? <==> a.base < |vars| && a.indexes == []
    ensures r.Ok? ==> r.value == vars[a.base].dataType
    ensures r.Err? ==> r.error == Abort
  {
    match BorrowDataType(a, vars)
      case Some(t) => Ok(t)
      case None => Err(Abort)
  }

  /** Each access is valid, has no indexes and has the type listed for it. */
  predicate ArgsMatch(vars: seq<Variable>, args: seq<VarAccess>, types: seq<DataType>) {
    |args| == |types| &&
    forall i | 0 <= i < |args| :: args[i].base < |vars| && args[i].indexes == [] && vars[args[i].base].dataType == types[i]
  }

  /** Each access is valid and has no indexes. */
  predicate ArgsValid(vars: seq<Variable>, args: seq<VarAccess>) {
    forall i | 0 <= i < |args| :: args[i].base < |vars| && args[i].indexes == []
  }

  /** The call of the cast built-in `cast` that converts `from` into `to`. */
  function CastCall(cast: VarId, position: Position, from: VarAccess, to: VarAccess): FuncCall {
    FuncCall(cast, position, [from], [to])
  }

  /** The casts between the paired-up accesses that differ, in order. */
  function Casts(cast: VarId, position: Position, from: seq<VarAccess>, to: seq<VarAccess>): (cs: seq<FuncCall>)
    requires |from| == |to|
    ensures |cs| <= |from|
    ensures forall k | 0 <= k < |cs| :: cs[k].callee == cast && |cs[k].inputs| == 1 && |cs[k].outputs| == 1
    decreases |from|
  {
    if |from| == 0 then []
    else
      var n := |from| - 1;
      Casts(cast, position, from[..n], to[..n]) + (if from[n] != to[n] then [CastCall(cast, position, from[n], to[n])] else [])
  }

  lemma CastsSnoc(cast: VarId, position: Position, from: seq<VarAccess>, to: seq<VarAccess>, a: VarAccess, b: VarAccess)
    requires |from| == |to|
    ensures Casts(cast, position, from + [a], to + [b]) ==
            Casts(cast, position, from, to) + (if a != b then [CastCall(cast, position, a, b)] else [])
  {
    assert (from + [a])[..|from|] == from;
    assert (to + [b])[..|to|] == to;
  }

  /** Arguments that already have the parameter types need no cast at all. */
  lemma {:induction false} NoCastsWhenSame(cast: VarId, position: Position, from: seq<VarAccess>, to: seq<VarAccess>)
    requires |from| == |to| && forall i | 0 <= i < |from| :: from[i] == to[i]
    ensures Casts(cast, position, from, to) == []
    decreases |from|
  {
    if |from| > 0 {
      NoCastsWhenSame(cast, position, from[..|from| - 1], to[..|to| - 1]);
    }
  }

  /** Every pair that differs is cast, so the number of casts is the number
      of arguments that were replaced. */
  lemma {:induction false} CastsCount(cast: VarId, position: Position, from: seq<VarAccess>, to: seq<VarAccess>)
    requires |from| == |to|
    ensures |Casts(cast, position, from, to)| == |set i | 0 <= i < |from| && from[i] != to[i]|
    decreases |from|
  {
    if |from| > 0 {
      var n := |from| - 1;
      CastsCount(cast, position, from[..n], to[..n]);
      ReplacedLast(from, to);
    }
  }

  /** The replaced positions of a list are those of its front, plus the last
      position when it was replaced. */
  lemma ReplacedLast(from: seq<VarAccess>, to: seq<VarAccess>)
    requires |from| == |to| > 0
    ensures var n := |from| - 1;
            |set i | 0 <= i < |from| && from[i] != to[i]| ==
            |set i | 0 <= i < n && from[..n][i] != to[..n][i]| + (if from[n] != to[n] then 1 else 0)
  {
    var n := |from| - 1;
    var before := set i | 0 <= i < n && from[..n][i] != to[..n][i];
    var all := set i | 0 <= i < |from| && from[i] != to[i];
    if from[n] != to[n] {
      assert all == before + {n};
    } else {
      assert all == before;
    }
  }

  /** Appends `call` to the body of scope `output`. */
  function AppendCall(p: Program<FuncCall>, output: ScopeId, call: FuncCall): (q: Program<FuncCall>)
    requires output < |p.scopes|
    ensures q.vars == p.vars && q.entry == p.entry && |q.scopes| == |p.scopes|
    ensures q.scopes[output] == p.scopes[output].(body := p.scopes[output].body + [call])
    ensures forall j | 0 <= j < |p.scopes| && j != output :: q.scopes[j] == p.scopes[j]
  {
    p.(scopes := p.scopes[output := p.scopes[output].(body := p.scopes[output].body + [call])])
  }

  /** What emitting into scope `output` leaves alone or only extends: the
      other scopes, the other fields of `output`, the front of its body and
      intermediates, and the existing variables. */
  predicate Emits(p: Program<FuncCall>, q: Program<FuncCall>, output: ScopeId) {
    output < |p.scopes| && q.entry == p.entry && |q.scopes| == |p.scopes| &&
    (forall j | 0 <= j < |p.scopes| && j != output :: q.scopes[j] == p.scopes[j]) &&
    q.scopes[output] == p.scopes[output].(body := q.scopes[output].body, intermediates := q.scopes[output].intermediates) &&
    |p.scopes[output].body| <= |q.scopes[output].body| && q.scopes[output].body[..|p.scopes[output].body|] == p.scopes[output].body &&
    |p.scopes[output].intermediates| <= |q.scopes[output].intermediates| &&
    q.scopes[output].intermediates[..|p.scopes[output].intermediates|] == p.scopes[output].intermediates &&
    |p.vars| <= |q.vars| && q.vars[..|p.vars|] == p.vars
  }

  lemma EmitsTrans(p: Program<FuncCall>, q: Program<FuncCall>, s: Program<FuncCall>, output: ScopeId)
    requires Emits(p, q, output) && Emits(q, s, output)
    ensures Emits(p, s, output)
  {
    var n, m := |p.scopes[output].body|, |q.scopes[output].body|;
    assert s.scopes[output].body[..n] == s.scopes[output].body[..m][..n];
    var a, b := |p.scopes[output].intermediates|, |q.scopes[output].intermediates|;
    assert s.scopes[output].intermediates[..a] == s.scopes[output].intermediates[..b][..a];
    assert s.vars[..|p.vars|] == s.vars[..|q.vars|][..|p.vars|];
  }

  /** What pinning automatic output types changes: only data types, and only
      those that were `Automatic`. */
  predicate OnlyAutomaticTyped(p: Program<FuncCall>, q: Program<FuncCall>) {
    q.scopes == p.scopes && q.entry == p.entry && |q.vars| == |p.vars| &&
    forall v | 0 <= v < |p.vars| ::
      q.vars[v] == p.vars[v].(dataType := q.vars[v].dataType) &&
      (p.vars[v].dataType != Automatic ==> q.vars[v].dataType == p.vars[v].dataType)
  }

  /** No output among the first `k` with base `v` has a type other than
      `Automatic` listed for it. */
  predicate Untyped(outs: seq<VarAccess>, types: seq<DataType>, v: VarId, k: nat)
    requires k <= |outs| == |types|
  {
    forall j | 0 <= j < k :: outs[j].base == v ==> types[j] == Automatic
  }

  /** Output `i` is the first with its base to have a type other than
      `Automatic` listed; the type it lists is the one that sticks. */
  predicate FirstTyped(outs: seq<VarAccess>, types: seq<DataType>, i: nat)
    requires i < |outs| == |types|
  {
    types[i] != Automatic && Untyped(outs, types, outs[i].base, i)
  }

  /** The loop state of `ResolveAutomaticOutputs` after `k` outputs. */
  predicate AutoLoop(p: Program<FuncCall>, q: Program<FuncCall>, outs: seq<VarAccess>, types: seq<DataType>, k: nat) {
    k <= |outs| == |types| && ArgsValid(p.vars, outs[..k]) && OnlyAutomaticTyped(p, q) &&
    AutoTyped(p, q, outs, types, k) && StillAutomatic(p, q, outs, types, k) &&
    forall i | 0 <= i < k ::
      p.vars[outs[i].base].dataType == Automatic && types[i] != Automatic ==> q.vars[outs[i].base].dataType != Automatic
  }

  /** Each of the first `k` outputs that lists the type sticking to its base
      has given its base that type. */
  predicate AutoTyped(p: Program<FuncCall>, q: Program<FuncCall>, outs: seq<VarAccess>, types: seq<DataType>, k: nat)
    requires k <= |outs| == |types| && ArgsValid(p.vars, outs[..k]) && OnlyAutomaticTyped(p, q)
  {
    forall i | 0 <= i < k :: outs[..k][i].base < |p.vars| &&
      (p.vars[outs[i].base].dataType == Automatic && FirstTyped(outs, types, i) ==> q.vars[outs[i].base].dataType == types[i])
  }

  /** Variables no output has typed yet are still `Automatic`. */
  predicate StillAutomatic(p: Program<FuncCall>, q: Program<FuncCall>, outs: seq<VarAccess>, types: seq<DataType>, k: nat)
    requires k <= |outs| == |types| && OnlyAutomaticTyped(p, q)
  {
    forall v | 0 <= v < |p.vars| :: p.vars[v].dataType == Automatic && Untyped(outs, types, v, k) ==> q.vars[v].dataType == Automatic
  }

  /** One pinning step keeps `AutoTyped` and `StillAutomatic`. */
  lemma TypedStep(p: Program<FuncCall>, q: Program<FuncCall>, outs: seq<VarAccess>, types: seq<DataType>, k: nat)
    requires k < |outs| == |types| && ArgsValid(p.vars, outs[..k + 1]) && OnlyAutomaticTyped(p, q)
    requires AutoTyped(p, q, outs, types, k) && StillAutomatic(p, q, outs, types, k)
    ensures outs[k].base < |q.vars|
    ensures var next := if q.vars[outs[k].base].dataType == Automatic then SetDataType(q, outs[k].base, types[k]).value else q;
            OnlyAutomaticTyped(p, next) && AutoTyped(p, next, outs, types, k + 1) && StillAutomatic(p, next, outs, types, k + 1)
  {
    assert outs[..k + 1][k] == outs[k];
    assert forall i | 0 <= i < k :: outs[..k][i] == outs[i] == outs[..k + 1][i];
    var b := outs[k].base;
    var next := if q.vars[b].dataType == Automatic then SetDataType(q, b, types[k]).value else q;
    assert OnlyAutomaticTyped(p, next);
    forall i | 0 <= i < k + 1
      ensures p.vars[outs[i].base].dataType == Automatic && FirstTyped(outs, types, i) ==> next.vars[outs[i].base].dataType == types[i]
    {
      if i == k && p.vars[b].dataType == Automatic && FirstTyped(outs, types, k) {
        assert q.vars[b].dataType == Automatic;
      }
    }
    forall v | 0 <= v < |p.vars| && p.vars[v].dataType == Automatic && Untyped(outs, types, v, k + 1)
      ensures next.vars[v].dataType == Automatic
    {
      assert Untyped(outs, types, v, k);
    }
  }

  lemma AutoLoopStep(p: Program<FuncCall>, q: Program<FuncCall>, outs: seq<VarAccess>, types: seq<DataType>, k: nat)
    requires AutoLoop(p, q, outs, types, k) && k < |outs| && outs[k].base < |q.vars| && outs[k].indexes == []
    ensures var next := if q.vars[outs[k].base].dataType == Automatic then SetDataType(q, outs[k].base, types[k]).value else q;
            AutoLoop(p, next, outs, types, k + 1)
  {
    assert outs[..k + 1] == outs[..k] + [outs[k]];
    assert forall i | 0 <= i < k :: outs[..k][i] == outs[i];
    TypedStep(p, q, outs, types, k);
  }

  /** Gives every output whose base has type `Automatic` the type listed for
      it, in order. `Err(Abort)` where the source panics: an output outside
      the arena or an indexed output. */
  method ResolveAutomaticOutputs(p: Program<FuncCall>, outs: seq<VarAccess>, types: seq<DataType>) returns (res: Result<Program<FuncCall>, Problem>)
    requires |outs| == |types|
    ensures res.Err? ==> res.error == Abort
    ensures res.Ok? <==> ArgsValid(p.vars, outs)
    ensures res.Ok? ==> OnlyAutomaticTyped(p, res.value)
    ensures res.Ok? ==> forall i | 0 <= i < |outs| ::
              p.vars[outs[i].base].dataType == Automatic && types[i] != Automatic ==> res.value.vars[outs[i].base].dataType != Automatic
    ensures res.Ok? ==> forall i | 0 <= i < |outs| ::
              p.vars[outs[i].base].dataType == Automatic && FirstTyped(outs, types, i) ==> res.value.vars[outs[i].base].dataType == types[i]
    ensures res.Ok? ==> forall v | 0 <= v < |p.vars| ::
              p.vars[v].dataType == Automatic && Untyped(outs, types, v, |outs|) ==> res.value.vars[v].dataType == Automatic
  {
    var q := p;
    var k := 0;
    while k < |outs|
      invariant AutoLoop(p, q, outs, types, k)
    {
      var t := ArgType(q.vars, outs[k]);
      if t.Err? {
        assert outs[..k] + outs[k..] == outs;
        return Err(Abort);
      }
      AutoLoopStep(p, q, outs, types, k);
      if t.value == Automatic {
        q := SetDataType(q, outs[k].base, types[k]).value;
      }
      k := k + 1;
    }
    assert outs[..k] == outs;
    res := Ok(q);
  }

  /** Passes argument `a` where type `t` is expected: unchanged when it has that
      type, otherwise through a fresh intermediate of type `t` in scope
      `output`, defined at `position`. An input also gets its cast appended
      now; an output's cast has to wait until the call has run. */
  function PassArgument(p: Program<FuncCall>, output: ScopeId, cast: VarId, position: Position, a: VarAccess, t: DataType, isInput: bool): (r: Result<(Program<FuncCall>, VarAccess), Problem>)
    requires output < |p.scopes|
    ensures r.Ok? <==> a.base < |p.vars| && a.indexes == []
    ensures r.Err? ==> r.error == Abort
    ensures r.Ok? ==> Emits(p, r.value.0, output)
    ensures r.Ok? ==> r.value.1.base < |r.value.0.vars| && r.value.1.indexes == [] && r.value.0.vars[r.value.1.base].dataType == t
    ensures r.Ok? ==> (r.value.1 == a <==> p.vars[a.base].dataType == t)
    ensures r.Ok? && r.value.1 != a ==> r.value.1.base == |p.vars| && |r.value.0.vars| == |p.vars| + 1
    ensures r.Ok? && isInput ==>
              r.value.0.scopes[output].body == p.scopes[output].body + (if r.value.1 != a then [CastCall(cast, position, a, r.value.1)] else [])
    ensures r.Ok? && !isInput ==> r.value.0.scopes[output].body == p.scopes[output].body
  {
    var found :- ArgType(p.vars, a);
    if found == t then Ok((p, a))
    else
      var (q, id) := AdoptAndDefineIntermediate(p, output, MutableVariable(position, t, None));
      var access := NewAccess(id);
      assert q.vars[..|p.vars|] == p.vars;
      assert q.scopes[output].intermediates[..|p.scopes[output].intermediates|] == p.scopes[output].intermediates;
      if isInput then
        var s := AppendCall(q, output, CastCall(cast, position, a, access));
        assert s.scopes[output].body[..|p.scopes[output].body|] == p.scopes[output].body;
        Ok((s, access))
      else Ok((q, access))
  }

  /** How the passed arguments relate to the original ones, read against the
      variables `vars` as they end up: each original is valid and unindexed,
      each passed one has the listed type, an original is kept exactly when it
      had that type, and a replacement is a variable made after the first
      `before` ones. */
  predicate PassedFaithfully(vars: seq<Variable>, before: nat, args: seq<VarAccess>, passed: seq<VarAccess>, types: seq<DataType>) {
    |args| == |passed| == |types| && ArgsValid(vars, args) && ArgsMatch(vars, passed, types) &&
    forall i | 0 <= i < |args| ::
      (passed[i] == args[i] <==> vars[args[i].base].dataType == types[i]) &&
      (passed[i] != args[i] ==> before <= passed[i].base)
  }

  /** Appending variables keeps the relation. */
  lemma PassedKept(vars: seq<Variable>, more: seq<Variable>, before: nat, args: seq<VarAccess>, passed: seq<VarAccess>, types: seq<DataType>)
    requires PassedFaithfully(vars, before, args, passed, types)
    requires |vars| <= |more| && more[..|vars|] == vars
    ensures PassedFaithfully(more, before, args, passed, types)
  {
    forall i | 0 <= i < |args| ensures more[args[i].base] == vars[args[i].base] && more[passed[i].base] == vars[passed[i].base] {
    }
  }

  lemma PassedSnoc(vars: seq<Variable>, before: nat, args: seq<VarAccess>, passed: seq<VarAccess>, types: seq<DataType>,
                   a: VarAccess, b: VarAccess, t: DataType)
    requires PassedFaithfully(vars, before, args, passed, types)
    requires a.base < |vars| && a.indexes == [] && b.base < |vars| && b.indexes == [] && vars[b.base].dataType == t
    requires (b == a <==> vars[a.base].dataType == t) && (b != a ==> before <= b.base)
    ensures PassedFaithfully(vars, before, args + [a], passed + [b], types + [t])
  {
  }

  /** One step of `PassArguments`, on the variables: passing argument `k`
      as `PassArgument` does keeps the relation between arguments and passed
      arguments. */
  lemma PassedStep(vars: seq<Variable>, more: seq<Variable>, before: nat, args: seq<VarAccess>, types: seq<DataType>,
                   passed: seq<VarAccess>, b: VarAccess)
    requires |passed| < |args| == |types| && before <= |vars| <= |more| && more[..|vars|] == vars
    requires PassedFaithfully(vars, before, args[..|passed|], passed, types[..|passed|])
    requires var a := args[|passed|];
             a.base < |vars| && a.indexes == [] && b.base < |more| && b.indexes == [] &&
             more[b.base].dataType == types[|passed|] &&
             (b == a <==> vars[a.base].dataType == types[|passed|]) &&
             (b != a ==> b.base == |vars|)
    ensures PassedFaithfully(more, before, args[..|passed| + 1], passed + [b], types[..|passed| + 1])
  {
    var k := |passed|;
    PassedKept(vars, more, before, args[..k], passed, types[..k]);
    assert more[args[k].base] == vars[args[k].base] by {
      assert more[..|vars|][args[k].base] == vars[args[k].base];
    }
    PassedSnoc(more, before, args[..k], passed, types[..k], args[k], b, types[k]);
    assert args[..k + 1] == args[..k] + [args[k]];
    assert types[..k + 1] == types[..k] + [types[k]];
  }

  /** One step of `PassArguments`, on the body of an input's scope. */
  lemma CastStep(body: seq<FuncCall>, before: seq<FuncCall>, after: seq<FuncCall>, cast: VarId, position: Position,
                 args: seq<VarAccess>, passed: seq<VarAccess>, b: VarAccess)
    requires |passed| < |args|
    requires before == body + Casts(cast, position, args[..|passed|], passed)
    requires after == before + (if b != args[|passed|] then [CastCall(cast, position, args[|passed|], b)] else [])
    ensures after == body + Casts(cast, position, args[..|passed| + 1], passed + [b])
  {
    var k := |passed|;
    assert args[..k + 1] == args[..k] + [args[k]];
    CastsSnoc(cast, position, args[..k], passed, args[k], b);
  }

  /** Passes each argument where the type listed for it is expected, in order
      (see `PassArgument`). Each argument is read against the variables as the
      earlier steps left them. */
  method PassArguments(p: Program<FuncCall>, output: ScopeId, cast: VarId, position: Position,
                       args: seq<VarAccess>, types: seq<DataType>, isInput: bool)
    returns (res: Result<(Program<FuncCall>, seq<VarAccess>), Problem>)
    requires output < |p.scopes| && |args| == |types|
    ensures res.Err? ==> res.error == Abort
    ensures ArgsValid(p.vars, args) ==> res.Ok?
    ensures res.Ok? ==> Emits(p, res.value.0, output) && PassedFaithfully(res.value.0.vars, |p.vars|, args, res.value.1, types)
    ensures res.Ok? && isInput ==> res.value.0.scopes[output].body == p.scopes[output].body + Casts(cast, position, args, res.value.1)
    ensures res.Ok? && !isInput ==> res.value.0.scopes[output].body == p.scopes[output].body
  {
    var q := p;
    var passed: seq<VarAccess> := [];
    assert q.scopes[output].body[..|p.scopes[output].body|] == p.scopes[output].body;
    assert q.scopes[output].intermediates[..|p.scopes[output].intermediates|] == p.scopes[output].intermediates;
    assert q.vars[..|p.vars|] == p.vars;
    while |passed| < |args|
      invariant |passed| <= |args| && Emits(p, q, output)
      invariant PassedFaithfully(q.vars, |p.vars|, args[..|passed|], passed, types[..|passed|])
      invariant isInput ==> q.scopes[output].body == p.scopes[output].body + Casts(cast, position, args[..|passed|], passed)
      invariant !isInput ==> q.scopes[output].body == p.scopes[output].body
      decreases |args| - |passed|
    {
      var k := |passed|;
      var next := PassArgument(q, output, cast, position, args[k], types[k], isInput);
      if next.Err? {
        return Err(Abort);
      }
      var (s, b) := next.value;
      EmitsTrans(p, q, s, output);
      assert q.vars[..|p.vars|] == p.vars;
      PassedStep(q.vars, s.vars, |p.vars|, args, types, passed, b);
      if isInput {
        CastStep(p.scopes[output].body, q.scopes[output].body, s.scopes[output].body, cast, position, args, passed, b);
      }
      q, passed := s, passed + [b];
    }
    assert args[..|passed|] == args;
    assert types[..|passed|] == types;
    res := Ok((q, passed));
  }

  /** What emitting a whole call into scope `output` leaves alone or only
      extends: as `Emits`, except that existing variables may have had an
      `Automatic` type pinned. */
  predicate TypedThenEmits(p: Program<FuncCall>, q: Program<FuncCall>, output: ScopeId) {
    output < |p.scopes| && q.entry == p.entry && |q.scopes| == |p.scopes| &&
    (forall j | 0 <= j < |p.scopes| && j != output :: q.scopes[j] == p.scopes[j]) &&
    q.scopes[output] == p.scopes[output].(body := q.scopes[output].body, intermediates := q.scopes[output].intermediates) &&
    |p.scopes[output].body| <= |q.scopes[output].body| && q.scopes[output].body[..|p.scopes[output].body|] == p.scopes[output].body &&
    |p.scopes[output].intermediates| <= |q.scopes[output].intermediates| &&
    q.scopes[output].intermediates[..|p.scopes[output].intermediates|] == p.scopes[output].intermediates &&
    |p.vars| <= |q.vars| &&
    forall v | 0 <= v < |p.vars| ::
      q.vars[v] == p.vars[v].(dataType := q.vars[v].dataType) &&
      (p.vars[v].dataType != Automatic ==> q.vars[v].dataType == p.vars[v].dataType)
  }

  lemma TypedThenEmitsHolds(p: Program<FuncCall>, p1: Program<FuncCall>, q: Program<FuncCall>, output: ScopeId)
    requires OnlyAutomaticTyped(p, p1) && Emits(p1, q, output)
    ensures TypedThenEmits(p, q, output)
  {
    forall v | 0 <= v < |p.vars| ensures q.vars[v] == p1.vars[v] {
      assert q.vars[..|p1.vars|][v] == p1.vars[v];
    }
  }

  /** Emits the call `call` of `callee` into scope `output`, whose outputs
      already have their types: passes the inputs where `inTypes` are expected
      (their casts go first), appends the call, and then the casts from the
      output holders back to the original outputs. The emitted call is
      returned too. `Err(Abort)` where the source panics. */
  method EmitPinned(p: Program<FuncCall>, output: ScopeId, cast: VarId, call: FuncCall, callee: VarId,
                    inTypes: seq<DataType>, outTypes: seq<DataType>)
    returns (res: Result<(Program<FuncCall>, FuncCall), Problem>)
    requires |inTypes| == |call.inputs| && |outTypes| == |call.outputs|
    ensures res.Err? ==> res.error == Abort
    ensures output < |p.scopes| && ArgsValid(p.vars, call.inputs) && ArgsValid(p.vars, call.outputs) ==> res.Ok?
    ensures res.Ok? ==> Emits(p, res.value.0, output)
    ensures res.Ok? ==> var (q, e) := res.value;
              e.callee == callee && e.position == call.position &&
              PassedFaithfully(q.vars, |p.vars|, call.inputs, e.inputs, inTypes) &&
              PassedFaithfully(q.vars, |p.vars|, call.outputs, e.outputs, outTypes)
    ensures res.Ok? ==> var (q, e) := res.value;
              q.scopes[output].body == p.scopes[output].body + Casts(cast, call.position, call.inputs, e.inputs) + [e] +
                                       Casts(cast, call.position, e.outputs, call.outputs)
  {
    if output >= |p.scopes| {
      return Err(Abort);
    }
    var ins := PassArguments(p, output, cast, call.position, call.inputs, inTypes, true);
    if ins.Err? {
      return Err(Abort);
    }
    var (p2, inputs) := ins.value;
    var outs := PassArguments(p2, output, cast, call.position, call.outputs, outTypes, false);
    if outs.Err? {
      return Err(Abort);
    }
    var (p3, outputs) := outs.value;
    var e := FuncCall(callee, call.position, inputs, outputs);
    var q := AppendCall(p3, output, e);
    var casts := Casts(cast, call.position, outputs, call.outputs);
    q := q.(scopes := q.scopes[output := q.scopes[output].(body := q.scopes[output].body + casts)]);
    EmitsTrans(p, p2, p3, output);
    assert q.scopes[output].body[..|p3.scopes[output].body|] == p3.scopes[output].body;
    EmitsTrans(p, p3, q, output);
    PassedKept(p2.vars, q.vars, |p.vars|, call.inputs, inputs, inTypes);
    res := Ok((q, e));
  }

  /** Emits the call `call` of `callee` into scope `output` against parameter
      types known beforehand, as for a built-in: pins each `Automatic` output
      to its type in `outTypes`, then emits as `EmitPinned` does. */
  method EmitCall(p: Program<FuncCall>, output: ScopeId, cast: VarId, call: FuncCall, callee: VarId,
                  inTypes: seq<DataType>, outTypes: seq<DataType>)
    returns (res: Result<(Program<FuncCall>, FuncCall), Problem>)
    requires |inTypes| == |call.inputs| && |outTypes| == |call.outputs|
    ensures res.Err? ==> res.error == Abort
    ensures output < |p.scopes| && ArgsValid(p.vars, call.inputs) && ArgsValid(p.vars, call.outputs) ==> res.Ok?
    ensures res.Ok? ==> TypedThenEmits(p, res.value.0, output)
    ensures res.Ok? ==> forall i | 0 <= i < |call.outputs| ::
              call.outputs[i].base < |p.vars| && p.vars[call.outputs[i].base].dataType == Automatic &&
              outTypes[i] != Automatic ==>
              res.value.0.vars[call.outputs[i].base].dataType != Automatic
    ensures res.Ok? ==> var (q, e) := res.value;
              e.callee == callee && e.position == call.position &&
              PassedFaithfully(q.vars, |p.vars|, call.inputs, e.inputs, inTypes) &&
              PassedFaithfully(q.vars, |p.vars|, call.outputs, e.outputs, outTypes)
    ensures res.Ok? ==> var (q, e) := res.value;
              q.scopes[output].body == p.scopes[output].body + Casts(cast, call.position, call.inputs, e.inputs) + [e] +
                                       Casts(cast, call.position, e.outputs, call.outputs)
  {
    var typed := ResolveAutomaticOutputs(p, call.outputs, outTypes);
    if typed.Err? {
      return Err(Abort);
    }
    var p1 := typed.value;
    res := EmitPinned(p1, output, cast, call, callee, inTypes, outTypes);
    if res.Ok? {
      var q := res.value.0;
      TypedThenEmitsHolds(p, p1, q, output);
      forall i | 0 <= i < |call.outputs| ensures q.vars[call.outputs[i].base] == p1.vars[call.outputs[i].base] {
        assert q.vars[..|p1.vars|][call.outputs[i].base] == p1.vars[call.outputs[i].base];
      }
    }
  }

  /** The parameters' types before pinning; `Automatic` stands in for a
      parameter outside the arena. */
  function ParamTypes(vars: seq<Variable>, params: seq<VarId>): (ts: seq<DataType>)
    ensures |ts| == |params|
    ensures forall i | 0 <= i < |params| && params[i] < |vars| :: ts[i] == vars[params[i]].dataType
  {
    seq(|params|, i requires 0 <= i < |params| => if params[i] < |vars| then vars[params[i]].dataType else Automatic)
  }

  /** The loop state of `PinToParameters` after `k` outputs. */
  predicate PinLoop(p: Program<FuncCall>, q: Program<FuncCall>, outs: seq<VarAccess>, params: seq<VarId>, k: nat) {
    k <= |outs| == |params| && ArgsValid(p.vars, outs[..k]) && OnlyAutomaticTyped(p, q) &&
    (Apart(outs, params) ==>
      AutoTyped(p, q, outs, ParamTypes(p.vars, params), k) && StillAutomatic(p, q, outs, ParamTypes(p.vars, params), k)) &&
    (Apart(outs, params) ==> forall j | 0 <= j < |params| && params[j] < |p.vars| :: q.vars[params[j]] == p.vars[params[j]]) &&
    forall i | 0 <= i < k ::
      p.vars[outs[i].base].dataType == Automatic && params[i] < |p.vars| && Apart(outs, params) &&
      p.vars[params[i]].dataType != Automatic ==>
      q.vars[outs[i].base].dataType != Automatic
  }

  /** No output is one of the parameters. */
  predicate Apart(outs: seq<VarAccess>, params: seq<VarId>) {
    forall i, j | 0 <= i < |outs| && 0 <= j < |params| :: outs[i].base != params[j]
  }

  lemma PinLoopStep(p: Program<FuncCall>, q: Program<FuncCall>, outs: seq<VarAccess>, params: seq<VarId>, k: nat)
    requires PinLoop(p, q, outs, params, k) && k < |outs| && outs[k].base < |q.vars| && outs[k].indexes == []
    requires q.vars[outs[k].base].dataType == Automatic ==> params[k] < |q.vars|
    ensures var next := if q.vars[outs[k].base].dataType == Automatic
                        then SetDataType(q, outs[k].base, q.vars[params[k]].dataType).value else q;
            PinLoop(p, next, outs, params, k + 1)
  {
    assert outs[..k + 1] == outs[..k] + [outs[k]];
    assert forall i | 0 <= i < k :: outs[..k][i] == outs[i];
    if Apart(outs, params) {
      var ts := ParamTypes(p.vars, params);
      if q.vars[outs[k].base].dataType == Automatic {
        assert q.vars[params[k]] == p.vars[params[k]];
      }
      TypedStep(p, q, outs, ts, k);
    }
  }

  /** Gives each output whose base has type `Automatic` the type the
      parameter in the same place has at that moment, in order; the source
      reads each parameter's type just before pinning the output, so an output
      that is itself a parameter is seen with its new type. `Err(Abort)` where
      the source panics: an output outside the arena or indexed, or a
      parameter outside the arena. */
  method PinToParameters(p: Program<FuncCall>, outs: seq<VarAccess>, params: seq<VarId>) returns (res: Result<Program<FuncCall>, Problem>)
    requires |outs| == |params|
    ensures res.Err? ==> res.error == Abort
    ensures ArgsValid(p.vars, outs) && (forall i | 0 <= i < |params| :: params[i] < |p.vars|) ==> res.Ok?
    ensures res.Ok? ==> ArgsValid(p.vars, outs) && OnlyAutomaticTyped(p, res.value)
    ensures res.Ok? && Apart(outs, params) ==> forall i | 0 <= i < |outs| ::
              p.vars[outs[i].base].dataType == Automatic && params[i] < |p.vars| && p.vars[params[i]].dataType != Automatic ==>
              res.value.vars[outs[i].base].dataType != Automatic
    ensures res.Ok? && Apart(outs, params) ==> forall i | 0 <= i < |outs| ::
              p.vars[outs[i].base].dataType == Automatic && FirstTyped(outs, ParamTypes(p.vars, params), i) ==>
              res.value.vars[outs[i].base].dataType == p.vars[params[i]].dataType
  {
    var q := p;
    var k := 0;
    while k < |outs|
      invariant PinLoop(p, q, outs, params, k)
    {
      var t := ArgType(q.vars, outs[k]);
      if t.Err? {
        return Err(Abort);
      }
      if t.value == Automatic && params[k] >= |q.vars| {
        return Err(Abort);
      }
      PinLoopStep(p, q, outs, params, k);
      if t.value == Automatic {
        q := SetDataType(q, outs[k].base, q.vars[params[k]].dataType).value;
      }
      k := k + 1;
    }
    assert outs[..k] == outs;
    res := Ok(q);
  }
}

=== FILE: resolve_table.dfy ===
/** The state of the scope resolver and its conversion table: a map from the
    variable ids of a function body to the ids of its copy, with a stack of
    saved tables for nested instantiations. */
module ResolveTable {
  import opened Wrappers
  import opened Types
  import opened FuncCalls
  import opened Store

  type Table = map<VarId, VarId>

  /** The resolver: the program being rewritten, the current conversion table,
      the saved tables, and the id of the built-in cast function that casts
      are calls of. */
  datatype Resolver = Resolver(p: Program<FuncCall>, table: Table, stack: seq<Table>, cast: VarId)

  function NewResolver(p: Program<FuncCall>, cast: VarId): (r: Resolver)
    ensures r.p == p && r.table == map[] && r.stack == [] && r.cast == cast
  {
    Resolver(p, map[], [], cast)
  }

  /** Saves a copy of the current table. */
  function PushTable(r: Resolver): (s: Resolver)
    ensures s.stack == r.stack + [r.table] && s.(stack := r.stack) == r
  {
    r.(stack := r.stack + [r.table])
  }

  /** Restores the table saved last; `None` where the source's `expect` on an
      empty stack fails. */
  function PopTable(r: Resolver): (s: Option<Resolver>)
    ensures s.Some? <==> |r.stack| > 0
    ensures s.Some? ==> s.value.table == r.stack[|r.stack| - 1] && s.value.stack == r.stack[..|r.stack| - 1]
    ensures s.Some? ==> s.value.p == r.p && s.value.cast == r.cast
  {
    if |r.stack| == 0 then None
    else Some(r.(table := r.stack[|r.stack| - 1], stack := r.stack[..|r.stack| - 1]))
  }

  /** The id `from` stands for: its conversion if it has one, itself
      otherwise. */
  function Convert(r: Resolver, from: VarId): (to: VarId)
    ensures from !in r.table ==> to == from
  {
    if from in r.table then r.table[from] else from
  }

  /** Records that `from` now stands for `to`; `None` where the source's
      assertion that `from` has no conversion yet fails. */
  function AddConversion(r: Resolver, from: VarId, to: VarId): (s: Option<Resolver>)
    ensures s.Some? <==> from !in r.table
    ensures s.Some? ==> Convert(s.value, from) == to
    ensures s.Some? ==> forall x | x != from :: Convert(s.value, x) == Convert(r, x)
    ensures s.Some? ==> s.value.table.Keys == r.table.Keys + {from}
    ensures s.Some? ==> s.value.p == r.p && s.value.stack == r.stack && s.value.cast == r.cast
  {
    if from in r.table then None else Some(r.(table := r.table[from := to]))
  }

  /** Adds the conversions of `pairs` in order. */
  function AddConversions(r: Resolver, pairs: seq<(VarId, VarId)>): (s: Option<Resolver>)
    ensures s.Some? ==> s.value.p == r.p && s.value.stack == r.stack && s.value.cast == r.cast
    decreases |pairs|
  {
    if |pairs| == 0 then Some(r)
    else
      var next := AddConversion(r, pairs[0].0, pairs[0].1);
      if next.None? then None else AddConversions(next.value, pairs[1..])
  }

  /** Pushing, adding any conversions and popping gives back the resolver
      exactly as it was. */
  lemma PushAddPop(r: Resolver, pairs: seq<(VarId, VarId)>)
    requires AddConversions(PushTable(r), pairs).Some?
    ensures PopTable(AddConversions(PushTable(r), pairs).value) == Some(r)
  {
    var s := AddConversions(PushTable(r), pairs).value;
    assert s.stack == r.stack + [r.table];
    assert s.stack[..|s.stack| - 1] == r.stack;
  }

  /** A fresh resolver has nothing to pop. */
  lemma PopFreshFails(p: Program<FuncCall>, cast: VarId)
    ensures PopTable(NewResolver(p, cast)).None?
  {
  }

  /** Converts every id of `ids`, keeping their order. */
  function ConvertIds(r: Resolver, ids: seq<VarId>): (out: seq<VarId>)
    ensures |out| == |ids| && forall i | 0 <= i < |ids| :: out[i] == Convert(r, ids[i])
  {
    if |ids| == 0 then [] else ConvertIds(r, ids[..|ids| - 1]) + [Convert(r, ids[|ids| - 1])]
  }

  /** Converting through equal tables gives equal ids. */
  lemma ConvertIdsSameTable(r: Resolver, s: Resolver, ids: seq<VarId>)
    requires r.table == s.table
    ensures ConvertIds(r, ids) == ConvertIds(s, ids)
  {
    assert forall i | 0 <= i < |ids| :: ConvertIds(r, ids)[i] == ConvertIds(s, ids)[i];
  }

  /** Adds the converted indexes of `rest` to `a`, one `AddIndex` each. */
  function AddConvertedIndexes(r: Resolver, a: VarAccess, rest: seq<VarId>): (out: VarAccess)
    ensures out.base == a.base && |out.indexes| == |a.indexes| + |rest|
    ensures out.indexes[..|a.indexes|] == a.indexes
    ensures forall i | 0 <= i < |rest| :: out.indexes[|a.indexes| + i] == Convert(r, rest[i])
    decreases |rest|
  {
    if |rest| == 0 then a
    else
      var out := AddConvertedIndexes(r, AddIndex(a, Convert(r, rest[0])), rest[1..]);
      assert forall i | 1 <= i < |rest| :: rest[1..][i - 1] == rest[i];
      out
  }

  /** A new access over the converted base with every index converted, in
      order. */
  function ConvertVarAccess(r: Resolver, a: VarAccess): (out: VarAccess)
    ensures out.base == Convert(r, a.base) && |out.indexes| == |a.indexes|
    ensures forall i | 0 <= i < |a.indexes| :: out.indexes[i] == Convert(r, a.indexes[i])
  {
    AddConvertedIndexes(r, NewAccess(Convert(r, a.base)), a.indexes)
  }

  /** Adds the converted accesses of `rest` to the inputs (`asInputs`) or the
      outputs of `c`. */
  function AddConvertedAccesses(r: Resolver, c: FuncCall, rest: seq<VarAccess>, asInputs: bool): (out: FuncCall)
    ensures asInputs ==> out.(inputs := c.inputs) == c && |out.inputs| == |c.inputs| + |rest|
    ensures asInputs ==> out.inputs[..|c.inputs|] == c.inputs
    ensures asInputs ==> forall i | 0 <= i < |rest| :: out.inputs[|c.inputs| + i] == ConvertVarAccess(r, rest[i])
    ensures !asInputs ==> out.(outputs := c.outputs) == c && |out.outputs| == |c.outputs| + |rest|
    ensures !asInputs ==> out.outputs[..|c.outputs|] == c.outputs
    ensures !asInputs ==> forall i | 0 <= i < |rest| :: out.outputs[|c.outputs| + i] == ConvertVarAccess(r, rest[i])
    decreases |rest|
  {
    if |rest| == 0 then c
    else
      var a := ConvertVarAccess(r, rest[0]);
      var next := if asInputs then AddInput(c, a) else AddOutput(c, a);
      var out := AddConvertedAccesses(r, next, rest[1..], asInputs);
      assert forall i | 1 <= i < |rest| :: rest[1..][i - 1] == rest[i];
      out
  }

  /** A new call of the converted function with every input and output
      converted, keeping their number and order. */
  function ConvertFuncCall(r: Resolver, c: FuncCall): (out: FuncCall)
    ensures out.callee == Convert(r, c.callee) && out.position == c.position
    ensures |out.inputs| == |c.inputs| && forall i | 0 <= i < |c.inputs| :: out.inputs[i] == ConvertVarAccess(r, c.inputs[i])
    ensures |out.outputs| == |c.outputs| && forall i | 0 <= i < |c.outputs| :: out.outputs[i] == ConvertVarAccess(r, c.outputs[i])
  {
    var withInputs := AddConvertedAccesses(r, NewCall(Convert(r, c.callee), c.position), c.inputs, true);
    AddConvertedAccesses(r, withInputs, c.outputs, false)
  }

  /** With an empty table every id stands for itself, so converting changes
      no call. */
  lemma ConvertWithEmptyTable(r: Resolver, c: FuncCall)
    requires r.table == map[]
    ensures ConvertFuncCall(r, c) == c
  {
    var out := ConvertFuncCall(r, c);
    forall i | 0 <= i < |c.inputs| ensures out.inputs[i] == c.inputs[i] {
      AccessUnchanged(r, c.inputs[i]);
    }
    forall i | 0 <= i < |c.outputs| ensures out.outputs[i] == c.outputs[i] {
      AccessUnchanged(r, c.outputs[i]);
    }
  }

  lemma AccessUnchanged(r: Resolver, a: VarAccess)
    requires r.table == map[]
    ensures ConvertVarAccess(r, a) == a
  {
    var out := ConvertVarAccess(r, a);
    assert out.indexes == a.indexes;
  }
}

=== FILE: resolve_types.dfy ===
/** The resolver's handling of types that stand for other types: dynamic types
    that name a variable holding a data type, and template parameters whose
    value is worked out from the arguments of a call. */
module ResolveTypes {
  import opened Wrappers
  import opened Types
  import opened Variables
  import opened Store
  import opened Unify

  /** A variable that holds a data type for good: permanent, with a data type
      as its initial value. Only these are followed. */
  predicate HoldsType(v: Variable) {
    v.permanent && v.initial.TypeValue?
  }

  /** A type the resolver cannot follow any further: not dynamic, or dynamic
      with a target that does not hold a type for good. */
  predicate Settled(vars: seq<Variable>, t: DataType) {
    !IsDynamic(t) || (t.target < |vars| && !HoldsType(vars[t.target]))
  }

  /** Follows a dynamic or template type to the type its target holds, as long
      as the target holds one for good. `Err(Abort)` for a target outside the
      arena (the source panics); `Err(OutOfFuel)` when the chain of targets is
      longer than `fuel` (the source recurses on, without bound for a cycle). */
  function ResolveDynamicDataType(vars: seq<Variable>, t: DataType, fuel: nat): (r: Result<DataType, Problem>)
    ensures !IsDynamic(t) ==> r == Ok(t)
    ensures Settled(vars, t) ==> r == Ok(t)
    ensures r.Ok? ==> Settled(vars, r.value)
    ensures r.Err? ==> r.error == Abort || r.error == OutOfFuel
    decreases fuel
  {
    if !IsDynamic(t) then Ok(t)
    else if t.target >= |vars| then Err(Abort)
    else if !HoldsType(vars[t.target]) then Ok(t)
    else if fuel == 0 then Err(OutOfFuel)
    else ResolveDynamicDataType(vars, vars[t.target].initial.t, fuel - 1)
  }

  /** Resolving an already resolved type changes nothing. */
  lemma ResolveIdempotent(vars: seq<Variable>, t: DataType, fuel: nat, fuel2: nat)
    requires ResolveDynamicDataType(vars, t, fuel).Ok?
    ensures var u := ResolveDynamicDataType(vars, t, fuel).value;
            ResolveDynamicDataType(vars, u, fuel2) == Ok(u)
  {
  }

  /** More fuel does not change a resolution that succeeded. */
  lemma {:induction false} ResolveMoreFuel(vars: seq<Variable>, t: DataType, fuel: nat, more: nat)
    requires fuel <= more && ResolveDynamicDataType(vars, t, fuel).Ok?
    ensures ResolveDynamicDataType(vars, t, more) == ResolveDynamicDataType(vars, t, fuel)
    decreases fuel
  {
    if IsDynamic(t) && t.target < |vars| && HoldsType(vars[t.target]) {
      ResolveMoreFuel(vars, vars[t.target].initial.t, fuel - 1, more - 1);
    }
  }

  /** A dynamic type whose target holds a type for good resolves to whatever
      that type resolves to. */
  lemma ResolveFollowsTarget(vars: seq<Variable>, x: VarId, fuel: nat)
    requires x < |vars| && HoldsType(vars[x])
    ensures ResolveDynamicDataType(vars, Dynamic(x), fuel + 1) == ResolveDynamicDataType(vars, vars[x].initial.t, fuel)
    ensures ResolveDynamicDataType(vars, LoadTemplateParameter(x), fuel + 1) == ResolveDynamicDataType(vars, vars[x].initial.t, fuel)
  {
  }

  /** A target that refers back to itself never settles: the source recurses
      without end, the model runs out of fuel. */
  lemma SelfReferenceRunsOut(vars: seq<Variable>, x: VarId, fuel: nat)
    requires x < |vars| && vars[x].permanent && vars[x].initial == TypeValue(Dynamic(x))
    ensures ResolveDynamicDataType(vars, Dynamic(x), fuel) == Err(OutOfFuel)
    decreases fuel
  {
    if fuel > 0 {
      SelfReferenceRunsOut(vars, x, fuel - 1);
    }
  }

  /** What a variable keeps while dynamic types are resolved: everything but
      its data type and the data type it holds. */
  predicate SameShape(v: Variable, w: Variable) {
    w.definition == v.definition && w.permanent == v.permanent && w.temporary == v.temporary &&
    w.initial.TypeValue? == v.initial.TypeValue? && (!v.initial.TypeValue? ==> w.initial == v.initial)
  }

  /** The variable after its types are resolved: settled by the time it is
      processed, if it is permanent. */
  predicate Resolved(vars: seq<Variable>, id: VarId) {
    id < |vars| &&
    (vars[id].permanent ==>
      Settled(vars, vars[id].dataType) && (vars[id].initial.TypeValue? ==> Settled(vars, vars[id].initial.t)))
  }

  /** Resolves the data type of permanent variable `id` and, when it holds a
      data type, that data type too. A variable that is not permanent is left
      alone. */
  function ResolveVariableTypes(vars: seq<Variable>, id: VarId, fuel: nat): (r: Result<seq<Variable>, Problem>)
    ensures r.Err? ==> r.error == Abort || r.error == OutOfFuel
    ensures id >= |vars| ==> r == Err(Abort)
    ensures r.Ok? ==> |r.value| == |vars| && Resolved(r.value, id)
    ensures r.Ok? ==> forall i | 0 <= i < |vars| :: SameShape(vars[i], r.value[i]) && (i != id ==> r.value[i] == vars[i])
    ensures id < |vars| && !vars[id].permanent ==> r == Ok(vars)
  {
    if id >= |vars| then Err(Abort)
    else if !vars[id].permanent then Ok(vars)
    else
      var t :- ResolveDynamicDataType(vars, vars[id].dataType, fuel);
      var typed := vars[id := vars[id].(dataType := t)];
      assert forall i | 0 <= i < |vars| :: HoldsType(typed[i]) == HoldsType(vars[i]);
      if typed[id].initial.TypeValue? then
        var u :- ResolveDynamicDataType(typed, typed[id].initial.t, fuel);
        var held := typed[id := typed[id].(initial := TypeValue(u))];
        assert forall i | 0 <= i < |vars| :: HoldsType(held[i]) == HoldsType(vars[i]);
        Ok(held)
      else Ok(typed)
  }

  /** Changes that keep every variable's shape keep every settled type
      settled. */
  lemma SettledKept(vars: seq<Variable>, after: seq<Variable>, t: DataType)
    requires |after| == |vars| && forall i | 0 <= i < |vars| :: SameShape(vars[i], after[i])
    requires Settled(vars, t)
    ensures Settled(after, t)
  {
  }

  /** The loop state of `ResolveDynamicDataTypes`: the first `k` ids are
      resolved, and only they changed. */
  predicate TypesLoop(vars: seq<Variable>, now: seq<Variable>, ids: seq<VarId>, k: nat) {
    k <= |ids| && |now| == |vars| &&
    (forall j | 0 <= j < k :: Resolved(now, ids[j])) &&
    forall i | 0 <= i < |vars| :: SameShape(vars[i], now[i]) && (i !in ids[..k] ==> now[i] == vars[i])
  }

  lemma TypesLoopStep(vars: seq<Variable>, now: seq<Variable>, ids: seq<VarId>, k: nat, fuel: nat)
    requires TypesLoop(vars, now, ids, k) && k < |ids| && ResolveVariableTypes(now, ids[k], fuel).Ok?
    ensures TypesLoop(vars, ResolveVariableTypes(now, ids[k], fuel).value, ids, k + 1)
  {
    var next := ResolveVariableTypes(now, ids[k], fuel).value;
    assert ids[..k + 1] == ids[..k] + [ids[k]];
    forall j | 0 <= j < k ensures Resolved(next, ids[j]) {
      var v := now[ids[j]];
      if v.permanent {
        SettledKept(now, next, v.dataType);
        if ids[j] != ids[k] && v.initial.TypeValue? {
          SettledKept(now, next, v.initial.t);
        }
      }
    }
  }

  /** Resolves the types of every variable scope `from` owns, its symbols (in
      an arbitrary order) and then its intermediates. Each step reads the
      variables as the earlier steps left them. Variables that are not
      permanent are skipped. A scope that does not exist aborts. */
  method ResolveDynamicDataTypes<S>(p: Program<S>, from: ScopeId, fuel: nat) returns (res: Result<Program<S>, Problem>)
    ensures from >= |p.scopes| ==> res == Err(Abort)
    ensures res.Err? ==> res.error == Abort || res.error == OutOfFuel
    ensures res.Ok? ==> from < |p.scopes|
    ensures res.Ok? ==> res.value.scopes == p.scopes && res.value.entry == p.entry && |res.value.vars| == |p.vars|
    ensures res.Ok? ==> forall i | 0 <= i < |p.vars| :: SameShape(p.vars[i], res.value.vars[i])
    ensures res.Ok? ==> forall n | n in p.scopes[from].symbols :: Resolved(res.value.vars, p.scopes[from].symbols[n])
    ensures res.Ok? ==> forall j | 0 <= j < |p.scopes[from].intermediates| ::
                          Resolved(res.value.vars, p.scopes[from].intermediates[j])
    ensures res.Ok? ==> forall i | 0 <= i < |p.vars| && i !in p.scopes[from].symbols.Values && i !in p.scopes[from].intermediates ::
                          res.value.vars[i] == p.vars[i]
  {
    if from >= |p.scopes| {
      return Err(Abort);
    }
    var scope := p.scopes[from];
    var order := SymbolOrder(scope.symbols);
    var ids := order + scope.intermediates;
    var now := p.vars;
    var k := 0;
    while k < |ids|
      invariant TypesLoop(p.vars, now, ids, k)
    {
      var next := ResolveVariableTypes(now, ids[k], fuel);
      if next.Err? {
        return Err(next.error);
      }
      TypesLoopStep(p.vars, now, ids, k, fuel);
      now := next.value;
      k := k + 1;
    }
    assert ids[..|ids|] == ids;
    forall n | n in scope.symbols ensures Resolved(now, scope.symbols[n]) {
      var i :| 0 <= i < |order| && order[i] == scope.symbols[n];
      assert ids[i] == order[i];
    }
    forall j | 0 <= j < |scope.intermediates| ensures Resolved(now, scope.intermediates[j]) {
      assert ids[|order| + j] == scope.intermediates[j];
    }
    forall i | 0 <= i < |p.vars| && i !in scope.symbols.Values && i !in scope.intermediates ensures now[i] == p.vars[i] {
      forall j | 0 <= j < |ids| ensures ids[j] != i {
        if j < |order| {
          assert ids[j] in scope.symbols.Values;
        } else {
          assert ids[j] == scope.intermediates[j - |order|];
        }
      }
    }
    res := Ok(p.(vars := now));
  }

  /** The variables a symbol table binds, in an arbitrary order (the source
      walks a hash map); a variable bound to several names may repeat. */
  method SymbolOrder(symbols: map<string, VarId>) returns (ids: seq<VarId>)
    ensures forall i | 0 <= i < |ids| :: ids[i] in symbols.Values
    ensures forall n | n in symbols :: symbols[n] in ids
  {
    ids := [];
    var rest := symbols.Keys;
    while rest != {}
      invariant rest <= symbols.Keys
      invariant forall i | 0 <= i < |ids| :: ids[i] in symbols.Values
      invariant forall n | n in symbols && n !in rest :: symbols[n] in ids
      decreases |rest|
    {
      var n :| n in rest;
      ids := ids + [symbols[n]];
      rest := rest - {n};
    }
  }

  /** Values gathered so far for template parameters. */
  type TemplateTable = map<VarId, DataType>

  /** Records that template parameter `param` is used for a value of type
      `value`: the first sighting stores `value`; a later one stores the
      biggest common type of the old and the new value, or `VoidType` when
      there is none. */
  function CombineTypeIntoTable(param: VarId, value: DataType, table: TemplateTable): (r: TemplateTable)
    ensures r.Keys == table.Keys + {param}
    ensures param !in table ==> r[param] == value
    ensures param in table ==> r[param] == BiggestType(table[param], value).GetOr(VoidType)
    ensures forall x | x in table && x != param :: r[x] == table[x]
  {
    if param in table then table[param := BiggestType(table[param], value).GetOr(VoidType)]
    else table[param := value]
  }

  /** Seeing the same argument type again for a parameter changes nothing. */
  lemma CombineSameAgain(param: VarId, value: DataType, table: TemplateTable)
    requires param in table ==> table[param] == value
    ensures CombineTypeIntoTable(param, value, table) == table[param := value]
    ensures CombineTypeIntoTable(param, value, CombineTypeIntoTable(param, value, table)) ==
            CombineTypeIntoTable(param, value, table)
  {
  }

  /** Two arguments with no common type leave the parameter `VoidType`. */
  lemma CombineClash(param: VarId, a: DataType, b: DataType, table: TemplateTable)
    requires param !in table && BiggestType(a, b).None?
    ensures CombineTypeIntoTable(param, b, CombineTypeIntoTable(param, a, table))[param] == VoidType
  {
  }

  /** Only a parameter whose type is a template parameter contributes: it
      combines the argument's type into that parameter's entry. */
  function ResolveTemplateParameters(paramType: DataType, argType: DataType, table: TemplateTable): (r: TemplateTable)
    ensures !paramType.LoadTemplateParameter? ==> r == table
    ensures paramType.LoadTemplateParameter? ==> r == CombineTypeIntoTable(paramType.target, argType, table)
  {
    if paramType.LoadTemplateParameter? then CombineTypeIntoTable(paramType.target, argType, table) else table
  }

  /** Runs `ResolveTemplateParameters` over the parameter and argument types
      paired up in order; surplus entries of the longer list are ignored. */
  function CollectTemplateParameters(params: seq<DataType>, args: seq<DataType>, table: TemplateTable): (r: TemplateTable)
    ensures table.Keys <= r.Keys
    decreases |params|
  {
    if |params| == 0 || |args| == 0 then table
    else CollectTemplateParameters(params[1..], args[1..], ResolveTemplateParameters(params[0], args[0], table))
  }

  /** The parameters the collection gives a value to are exactly the template
      parameters among the paired-up parameter types. */
  lemma {:induction false} CollectedKeys(params: seq<DataType>, args: seq<DataType>, table: TemplateTable, x: VarId)
    ensures x in CollectTemplateParameters(params, args, table) <==>
            x in table || exists i | 0 <= i < |params| && i < |args| :: params[i] == LoadTemplateParameter(x)
    decreases |params|
  {
    if |params| > 0 && |args| > 0 {
      var next := ResolveTemplateParameters(params[0], args[0], table);
      CollectedKeys(params[1..], args[1..], next, x);
      if exists i | 0 <= i < |params| && i < |args| :: params[i] == LoadTemplateParameter(x) {
        var i :| 0 <= i < |params| && i < |args| && params[i] == LoadTemplateParameter(x);
        if i > 0 {
          assert params[1..][i - 1] == params[i];
        }
      }
      if exists i | 0 <= i < |params| - 1 && i < |args| - 1 :: params[1..][i] == LoadTemplateParameter(x) {
        var i :| 0 <= i < |params| - 1 && i < |args| - 1 && params[1..][i] == LoadTemplateParameter(x);
        assert params[i + 1] == LoadTemplateParameter(x);
      }
    }
  }

  /** A parameter used once, starting from an empty table, takes exactly the
      type of its argument. */
  lemma {:induction false} CollectedSingle(params: seq<DataType>, args: seq<DataType>, table: TemplateTable, x: VarId, k: nat)
    requires k < |params| && k < |args| && params[k] == LoadTemplateParameter(x) && x !in table
    requires forall i | 0 <= i < |params| && i < |args| && i != k :: params[i] != LoadTemplateParameter(x)
    ensures x in CollectTemplateParameters(params, args, table)
    ensures CollectTemplateParameters(params, args, table)[x] == args[k]
    decreases |params|
  {
    var next := ResolveTemplateParameters(params[0], args[0], table);
    if k == 0 {
      CollectKeeps(params[1..], args[1..], next, x);
    } else {
      forall i | 0 <= i < |params| - 1 && i < |args| - 1 && i != k - 1 ensures params[1..][i] != LoadTemplateParameter(x) {
        assert params[1..][i] == params[i + 1];
      }
      CollectedSingle(params[1..], args[1..], next, x, k - 1);
    }
  }

  /** A parameter none of the paired-up types mentions keeps its entry. */
  lemma {:induction false} CollectKeeps(params: seq<DataType>, args: seq<DataType>, table: TemplateTable, x: VarId)
    requires x in table
    requires forall i | 0 <= i < |params| && i < |args| :: params[i] != LoadTemplateParameter(x)
    ensures x in CollectTemplateParameters(params, args, table)
    ensures CollectTemplateParameters(params, args, table)[x] == table[x]
    decreases |params|
  {
    if |params| > 0 && |args| > 0 {
      var next := ResolveTemplateParameters(params[0], args[0], table);
      forall i | 0 <= i < |params| - 1 && i < |args| - 1 ensures params[1..][i] != LoadTemplateParameter(x) {
        assert params[1..][i] == params[i + 1];
      }
      CollectKeeps(params[1..], args[1..], next, x);
    }
  }

  /** Replaces a dynamic or template type by the value found for its target.
      `Err(Abort)` when there is none: the source expects its caller to have
      checked. */
  function ResolveTemplatedType(t: DataType, table: TemplateTable): (r: Result<DataType, Problem>)
    ensures r.Ok? <==> !IsDynamic(t) || t.target in table
    ensures r.Err? ==> r.error == Abort
    ensures !IsDynamic(t) ==> r == Ok(t)
    ensures IsDynamic(t) && r.Ok? ==> r.value == table[t.target]
  {
    if !IsDynamic(t) then Ok(t)
    else if t.target in table then Ok(table[t.target])
    else Err(Abort)
  }

  /** Every template parameter among the paired-up parameter types resolves
      after the collection. */
  lemma CollectedResolve(params: seq<DataType>, args: seq<DataType>, k: nat)
    requires k < |params| && k < |args| && params[k].LoadTemplateParameter?
    ensures ResolveTemplatedType(params[k], CollectTemplateParameters(params, args, map[])).Ok?
  {
    CollectedKeys(params, args, map[], params[k].target);
  }
}

=== FILE: simplify_assign.dfy ===
/** Simplification of an assignment statement: the target is simplified before
    the value; an `Automatic` target takes the value's type, any other target
    must already have an equivalent type; a compile-time value is assigned at
    once and a run-time value leaves a residual assignment. */
module SimplifyAssign {
  import opened Wrappers
  import opened Types
  import opened Variables
  import opened Store
  import opened SimplifyState

  /** The collaborators of the assignment whose code is not part of this
      model: the simplification of the target into an assignable expression
      and its type, the pinning of an `Automatic` target that is not a plain
      variable, the compile-time assignment (the temporary values it writes,
      and the residual code it reports, if any) and the run-time assignment
      (the variables whose temporary values it makes unknown). */
  datatype AssignOracles = AssignOracles(
    target: (SimState, VagueExpr) -> Result<(SimState, RExpr, DataType), Problem>,
    pinElement: (SimState, RExpr, DataType) -> Result<SimState, Problem>,
    assignValue: (SimState, RExpr, KnownData) -> Result<(map<VarId, KnownData>, Option<RExpr>), Problem>,
    assignUnknown: (SimState, RExpr) -> set<VarId>)

  /** Overwrites the temporary values of the variables in `writes`; nothing
      else changes. */
  function WriteTemporaries(st: SimState, writes: map<VarId, KnownData>): (s: SimState)
    ensures |s.source.vars| == |st.source.vars| && s.(source := st.source) == st && s.source.scopes == st.source.scopes
    ensures forall j | 0 <= j < |st.source.vars| ::
              s.source.vars[j] == if j in writes then st.source.vars[j].(temporary := writes[j]) else st.source.vars[j]
  {
    var vars := st.source.vars;
    st.(source := st.source.(vars := seq(|vars|, j requires 0 <= j < |vars| => if j in writes then vars[j].(temporary := writes[j]) else vars[j])))
  }

  /** Gives an `Automatic` assignment target the type `t`: a variable has its
      type set; other targets are left to the collaborator. */
  function PinType(st: SimState, a: AssignOracles, target: RExpr, t: DataType): (r: Result<SimState, Problem>)
    ensures target.RVariable? ==> (r.Ok? <==> target.id < |st.source.vars|)
    ensures target.RVariable? && r.Ok? ==>
              |r.value.source.vars| == |st.source.vars| && r.value.source.vars[target.id].dataType == t &&
              r.value.source.vars[target.id].(dataType := st.source.vars[target.id].dataType) == st.source.vars[target.id] &&
              forall j | 0 <= j < |st.source.vars| && j != target.id :: r.value.source.vars[j] == st.source.vars[j]
    ensures !target.RVariable? ==> r == a.pinElement(st, target, t)
  {
    if target.RVariable? then
      match SetDataType(st.source, target.id, t)
      case None => Err(Abort)
      case Some(p) => Ok(st.(source := p))
    else a.pinElement(st, target, t)
  }

  /** Simplifies `target = value`. The result is always of type `Void`. */
  function SimplifyAssign(st: SimState, o: Oracles, a: AssignOracles, target: VagueExpr, value: VagueExpr): (r: Result<(SimState, Simplified), Problem>)
    ensures a.target(st, target).Err? ==> r == Err(a.target(st, target).error)
    ensures a.target(st, target).Ok? && o.simplify(a.target(st, target).value.0, value).Err? ==>
              r == Err(o.simplify(a.target(st, target).value.0, value).error)
    ensures r.Ok? ==> r.value.1.dataType == VoidType
    ensures r.Ok? ==> a.target(st, target).Ok? && o.simplify(a.target(st, target).value.0, value).Ok?
    ensures r.Ok? ==>
              var (s1, e, t) := a.target(st, target).value;
              var (s2, v) := o.simplify(s1, value).value;
              t == Automatic && e.RVariable? ==>
                e.id < |r.value.0.source.vars| && r.value.0.source.vars[e.id].dataType == v.dataType
    ensures r.Ok? ==>
              var (s1, e, t) := a.target(st, target).value;
              var (s2, v) := o.simplify(s1, value).value;
              Pin(s2, a, e, t, v.dataType).Ok? &&
              var s3 := Pin(s2, a, e, t, v.dataType).value;
              |r.value.0.source.vars| == |s3.source.vars| &&
              (forall j | 0 <= j < |s3.source.vars| ::
                 r.value.0.source.vars[j].(temporary := s3.source.vars[j].temporary) == s3.source.vars[j]) &&
              (v.content.Interpreted? ==>
                 var w := a.assignValue(s3, e, v.content.value);
                 w.Ok? && r.value.1.content == if w.value.1.Some? then Modified(w.value.1.value) else Interpreted(VoidValue)) &&
              (v.content.Modified? ==>
                 r.value.1.content == Modified(RAssign(e, v.content.expr)) &&
                 forall j | 0 <= j < |s3.source.vars| && j in a.assignUnknown(s3, e) :: r.value.0.source.vars[j].temporary == Unknown)
    ensures a.target(st, target).Ok? && o.simplify(a.target(st, target).value.0, value).Ok? ==>
              var (s1, e, t) := a.target(st, target).value;
              var (s2, v) := o.simplify(s1, value).value;
              t != Automatic && Equivalent(v.dataType, t, s2.source.vars) != Some(true) ==> r == Err(Abort)
  {
    var (s1, e, t) :- a.target(st, target);
    var (s2, v) :- o.simplify(s1, value);
    var s3 :- Pin(s2, a, e, t, v.dataType);
    match v.content
    case Interpreted(k) =>
      var (writes, residual) :- a.assignValue(s3, e, k);
      var content := if residual.Some? then Modified(residual.value) else Interpreted(VoidValue);
      Ok((WriteTemporaries(s3, writes), Simplified(content, VoidType)))
    case Modified(x) =>
      var unknown := a.assignUnknown(s3, e);
      Ok((WriteTemporaries(s3, map id | id in unknown :: Unknown), Simplified(Modified(RAssign(e, x)), VoidType)))
  }

  /** The type step of an assignment: pinning for an `Automatic` target, an
      equivalence check (`Abort` on a mismatch) for any other. */
  function Pin(st: SimState, a: AssignOracles, e: RExpr, targetType: DataType, valueType: DataType): (r: Result<SimState, Problem>)
    ensures targetType == Automatic ==> r == PinType(st, a, e, valueType)
    ensures targetType != Automatic ==>
              (r.Ok? <==> Equivalent(valueType, targetType, st.source.vars) == Some(true)) && (r.Ok? ==> r.value == st)
  {
    if IsAutomatic(targetType) then PinType(st, a, e, valueType)
    else if Equivalent(valueType, targetType, st.source.vars) == Some(true) then Ok(st)
    else Err(Abort)
  }

  /** Once a target has a type, assigning a value of a different type without
      dynamic parts or size lists aborts: the type is never inferred again. */
  lemma MismatchAborts(st: SimState, o: Oracles, a: AssignOracles, target: VagueExpr, value: VagueExpr)
    requires a.target(st, target).Ok? && o.simplify(a.target(st, target).value.0, value).Ok?
    requires var t := a.target(st, target).value.2;
             var v := o.simplify(a.target(st, target).value.0, value).value.1;
             t != Automatic && NoDynamic(v.dataType) && LiteralSizes(v.dataType) && v.dataType != t
    ensures SimplifyAssign(st, o, a, target, value) == Err(Abort)
  {
    var (s1, e, t) := a.target(st, target).value;
    var (s2, v) := o.simplify(s1, value).value;
    EquivalentNoDynamic(v.dataType, t, s2.source.vars);
  }
}

=== FILE: simplify_calls.dfy ===
/** Inlining of function calls by the simplifier: the callee must be known at
    compile time; its parameters are bound to the arguments, its body is
    copied and simplified statement by statement, and only what is left for
    run time is emitted. */
module SimplifyCalls {
  import opened Wrappers
  import opened Types
  import opened VagueData
  import opened Variables
  import opened Store
  import opened SimplifyState
  import opened SimplifyExprs

  /** The function a call expression calls: the callee must simplify to a
      compile-time value, and that value must be a function. */
  function Callee(st: SimState, o: Oracles, callee: VagueExpr): (r: Result<(SimState, FunctionData), Problem>)
    ensures o.simplify(st, callee).Err? ==> r == Err(o.simplify(st, callee).error)
    ensures o.simplify(st, callee).Ok? && o.simplify(st, callee).value.1.content.Modified? ==> r == Err(VagueFunction)
    ensures o.simplify(st, callee).Ok? && o.simplify(st, callee).value.1.content.Interpreted? ==>
              var v := o.simplify(st, callee).value.1.content.value;
              (!v.FunctionValue? ==> r == Err(NotFunction)) &&
              (v.FunctionValue? ==> r == Ok((o.simplify(st, callee).value.0, v.f)))
  {
    var (s, c) :- o.simplify(st, callee);
    match c.content
    case Modified(_) => Err(VagueFunction)
    case Interpreted(v) => if v.FunctionValue? then Ok((s, v.f)) else Err(NotFunction)
  }

  /** Binds one input parameter to its simplified argument: a compile-time
      value becomes the parameter's temporary value, a run-time expression its
      conversion. */
  function BindArgument(st: SimState, param: VarId, arg: Simplified): (r: Result<SimState, Problem>)
    ensures arg.content.Interpreted? ==> (r.Ok? <==> param < |st.source.vars|)
    ensures arg.content.Interpreted? && r.Ok? ==>
              param < |st.source.vars| == |r.value.source.vars| &&
              r.value.source.vars[param].temporary == arg.content.value &&
              r.value.source.vars[param].(temporary := st.source.vars[param].temporary) == st.source.vars[param] &&
              (forall j | 0 <= j < |st.source.vars| && j != param :: r.value.source.vars[j] == st.source.vars[j]) &&
              r.value.table == st.table
    ensures arg.content.Modified? ==>
              r.Ok? && Convert(r.value, param) == Some(arg.content.expr) && r.value.source == st.source &&
              forall x | x != param :: Convert(r.value, x) == Convert(st, x)
    ensures r.Ok? ==> r.value.stack == st.stack && r.value.current == st.current && r.value.target == st.target
    ensures r.Ok? ==> |r.value.source.vars| == |st.source.vars| && r.value.source.scopes == st.source.scopes
    ensures r.Err? ==> r.error == Abort
  {
    match arg.content
    case Interpreted(v) =>
      (match SetTemporary(st, param, v)
       case None => Err(Abort)
       case Some(s) => Ok(s))
    case Modified(e) => Ok(AddConversion(st, param, e))
  }

  /** Binding a compile-time argument and then reading the parameter gives the
      argument back; so does binding a run-time argument to a parameter whose
      temporary value is unknown. */
  lemma BindThenRead(st: SimState, o: Oracles, param: VarId, arg: Simplified)
    requires BindArgument(st, param, arg).Ok?
    requires arg.content.Interpreted? ==>
               var s := BindArgument(st, param, arg).value;
               GetDataType(arg.content.value).Some? && o.intermediate(s, GetDataType(arg.content.value).value).Ok?
    requires arg.content.Modified? ==> param < |st.source.vars| && GetDataType(st.source.vars[param].temporary).None?
    ensures SimplifyVariable(BindArgument(st, param, arg).value, o, param).Ok?
    ensures SimplifyVariable(BindArgument(st, param, arg).value, o, param).value.content == arg.content
  {
  }

  /** Simplifies the input arguments in order, binding each to its parameter. */
  function BindArguments(st: SimState, o: Oracles, params: seq<VarId>, args: seq<VagueExpr>): (r: Result<SimState, Problem>)
    requires |params| == |args|
    ensures r.Ok? && Disciplined(o) ==> r.value.stack == st.stack && r.value.current == st.current
    decreases |args|
  {
    if |args| == 0 then Ok(st)
    else
      var (s, arg) :- o.simplify(st, args[0]);
      var bound :- BindArgument(s, params[0], arg);
      BindArguments(bound, o, params[1..], args[1..])
  }

  /** Binds one output parameter. An inline-return argument makes the
      parameter stand for a fresh resolved intermediate of the parameter's
      type, when that type has a run-time form; any other argument is
      simplified into the assignable expression the parameter stands for.
      Also returns the fresh intermediate, if one was made. */
  function BindOutput(st: SimState, o: Oracles, param: VarId, arg: VagueExpr): (r: Result<(SimState, Option<VarId>), Problem>)
    ensures param >= |st.source.vars| ==> r == Err(Abort)
    ensures r.Ok? && r.value.1.Some? ==>
              arg == InlineReturn && r.value.1.value == |st.target.vars| &&
              var t := o.intermediate(st, st.source.vars[param].dataType);
              t.Ok? && o.outputType(t.value).Some? &&
              r.value.0.target.vars == st.target.vars + [MutableVariable(st.source.vars[param].definition, o.outputType(t.value).value, None)] &&
              Convert(r.value.0, param) == Some(RVariable(r.value.1.value))
    ensures r.Ok? && arg == InlineReturn && r.value.1.None? ==> r.value.0 == st
    ensures r.Ok? && arg != InlineReturn ==>
              r.value.1.None? &&
              var t := o.intermediate(st, st.source.vars[param].dataType);
              t.Ok? && o.outputType(t.value).Some? &&
              var a := o.assignTarget(st, arg, o.outputType(t.value).value);
              a.Ok? && Convert(r.value.0, param) == Some(a.value.1)
    ensures r.Ok? && Disciplined(o) ==> r.value.0.stack == st.stack && r.value.0.current == st.current
  {
    if param >= |st.source.vars| then Err(Abort)
    else
      var v := st.source.vars[param];
      if arg == InlineReturn then
        var t := o.intermediate(st, v.dataType);
        if t.Ok? && o.outputType(t.value).Some? then
          if st.current >= |st.target.scopes| then Err(Abort)
          else
            var (target, id) := AdoptAndDefineIntermediate(st.target, st.current, MutableVariable(v.definition, o.outputType(t.value).value, None));
            Ok((AddConversion(st.(target := target), param, RVariable(id)), Some(id)))
        else Ok((st, None))
      else
        var t :- o.intermediate(st, v.dataType);
        match o.outputType(t)
        case None => Err(Abort)
        case Some(out) =>
          var (s, e) :- o.assignTarget(st, arg, out);
          Ok((AddConversion(s, param, e), None))
  }

  /** Binds the output parameters in order. Returns the parameter of the last
      inline-return argument, and the last intermediate made for one. */
  function BindOutputs(st: SimState, o: Oracles, params: seq<VarId>, args: seq<VagueExpr>, inline: Option<VarId>, runtime: Option<VarId>)
    : (r: Result<(SimState, Option<VarId>, Option<VarId>), Problem>)
    requires |params| == |args|
    ensures r.Ok? && inline.None? && (forall j | 0 <= j < |args| :: args[j] != InlineReturn) ==> r.value.1.None?
    ensures r.Ok? && inline.Some? ==> r.value.1.Some?
    ensures r.Ok? && (exists j | 0 <= j < |args| :: args[j] == InlineReturn) ==> r.value.1.Some?
    ensures r.Ok? && r.value.1.Some? ==>
              r.value.1 == inline || exists j | 0 <= j < |args| :: args[j] == InlineReturn && r.value.1.value == params[j]
    ensures r.Ok? && Disciplined(o) ==> r.value.0.stack == st.stack && r.value.0.current == st.current
    decreases |args|
  {
    if |args| == 0 then Ok((st, inline, runtime))
    else
      var (s, made) :- BindOutput(st, o, params[0], args[0]);
      var inline' := if args[0] == InlineReturn then Some(params[0]) else inline;
      var runtime' := if made.Some? then made else runtime;
      assert forall j | 1 <= j < |args| :: args[j] == args[1..][j - 1];
      BindOutputs(s, o, params[1..], args[1..], inline', runtime')
  }

  /** The statements a simplified body keeps: the run-time ones, up to the
      first `Return`, which ends the body. */
  function Survivors(steps: seq<Content>): seq<RExpr> {
    if |steps| == 0 then []
    else match steps[0]
      case Interpreted(_) => Survivors(steps[1..])
      case Modified(RReturn) => []
      case Modified(e) => [e] + Survivors(steps[1..])
  }

  /** No `Return` survives, and nothing survives exactly when every statement
      before the first `Return` was folded. */
  lemma {:induction false} SurvivorsSpec(steps: seq<Content>)
    ensures RReturn !in Survivors(steps)
    ensures Survivors(steps) == [] <==>
              forall j | 0 <= j < |steps| :: (forall i | 0 <= i < j :: steps[i] != Modified(RReturn)) ==>
                                             steps[j].Interpreted? || steps[j] == Modified(RReturn)
    decreases |steps|
  {
    if |steps| > 0 {
      SurvivorsSpec(steps[1..]);
      if steps[0].Interpreted? {
        assert forall j | 1 <= j < |steps| :: steps[j] == steps[1..][j - 1];
      }
    }
  }

  /** Simplifies the statements of a function body in order into the scope
      `copy`: folded statements are dropped, a run-time `Return` ends the body,
      any other run-time statement is appended to `copy`. Returns the
      simplified content of every statement processed. */
  function RunBody(st: SimState, o: Oracles, copy: ScopeId, stmts: seq<VagueExpr>): (r: Result<(SimState, seq<Content>), Problem>)
    ensures r.Ok? ==> |r.value.1| <= |stmts|
    ensures r.Ok? ==> forall j | 0 <= j < |r.value.1| - 1 :: r.value.1[j] != Modified(RReturn)
    ensures r.Ok? && |r.value.1| < |stmts| ==> |r.value.1| > 0 && r.value.1[|r.value.1| - 1] == Modified(RReturn)
    ensures r.Ok? && Disciplined(o) ==> r.value.0.stack == st.stack && r.value.0.current == st.current
    decreases |stmts|
  {
    if |stmts| == 0 then Ok((st, []))
    else
      var (s, x) :- o.simplify(st, stmts[0]);
      if x.content == Modified(RReturn) then Ok((s, [x.content]))
      else
        var kept :- Keep(s, copy, x.content);
        var (s', rest) :- RunBody(kept, o, copy, stmts[1..]);
        Ok((s', [x.content] + rest))
  }

  /** Keeps one simplified statement of a body: a run-time one is appended to
      `copy`, a folded one leaves no trace. */
  function Keep(st: SimState, copy: ScopeId, c: Content): (r: Result<SimState, Problem>)
    ensures c.Interpreted? ==> r == Ok(st)
    ensures c.Modified? ==> (r.Ok? <==> copy < |st.target.scopes|)
    ensures c.Modified? && r.Ok? ==>
              copy < |st.target.scopes| == |r.value.target.scopes| &&
              r.value.target.scopes[copy].body == st.target.scopes[copy].body + [c.expr]
    ensures r.Ok? ==> r.value.stack == st.stack && r.value.current == st.current
  {
    match c
    case Interpreted(_) => Ok(st)
    case Modified(e) =>
      if copy < |st.target.scopes| then Ok(AddExpression(st, copy, e).value) else Err(Abort)
  }

  /** The end of an inlined call: restores the scope code is emitted into and
      the saved table, emits one call of the copied body when any statement of
      it survived, and gives the call's value: the inline-return parameter's
      compile-time value, else the intermediate made for it, and `Void` when
      no output is returned inline. */
  function Finish(st: SimState, o: Oracles, copy: ScopeId, emit: bool, caller: ScopeId, inline: Option<VarId>, runtime: Option<VarId>)
    : (r: Result<(SimState, Simplified), Problem>)
    ensures |st.stack| == 0 ==> r == Err(Abort)
    ensures r.Ok? ==> |st.stack| > 0 && r.value.0.table == st.stack[|st.stack| - 1] &&
                      r.value.0.stack == st.stack[..|st.stack| - 1] && r.value.0.current == caller
    ensures r.Ok? ==> r.value.0.source == st.source && r.value.0.target.vars == st.target.vars
    ensures r.Ok? && emit ==> caller < |st.target.scopes| &&
                              r.value.0.target.scopes == st.target.scopes[caller := st.target.scopes[caller].(body := st.target.scopes[caller].body + [RCall(copy)])]
    ensures r.Ok? && !emit ==> r.value.0.target == st.target
    ensures r.Ok? && inline.None? ==> r.value.1 == Simplified(Interpreted(VoidValue), VoidType)
    ensures r.Ok? && inline.Some? ==>
              inline.value < |st.source.vars| &&
              var value := st.source.vars[inline.value].temporary;
              (value == Unknown ==> runtime.Some? && r.value.1.content == Modified(RVariable(runtime.value))) &&
              (value != Unknown ==> r.value.1.content == Interpreted(value))
  {
    var s0 := st.(current := caller);
    match PopTable(s0)
    case None => Err(Abort)
    case Some(s1) =>
      var s2 :- if emit then (if caller < |s1.target.scopes| then Ok(AddExpression(s1, caller, RCall(copy)).value) else Err(Abort)) else Ok(s1);
      match inline
      case None => Ok((s2, Simplified(Interpreted(VoidValue), VoidType)))
      case Some(id) =>
        if id >= |s2.source.vars| then Err(Abort)
        else
          var value := s2.source.vars[id].temporary;
          if value == Unknown then
            (match runtime
             case None => Err(Abort)
             case Some(rid) => Ok((s2, Simplified(Modified(RVariable(rid)), o.typeOf(s2.target, RVariable(rid))))))
          else
            match GetDataType(value)
            case None => Err(Abort)
            case Some(t) =>
              var dt :- o.intermediate(s2, t);
              Ok((s2, Simplified(Interpreted(value), dt)))
  }

  /** The value of a call whose output parameter `param` is returned inline:
      the parameter's compile-time value after the body has run, or a run-time
      variable when that value is unknown. */
  predicate InlineValue(st: SimState, v: Simplified, param: VarId) {
    param < |st.source.vars| &&
    var value := st.source.vars[param].temporary;
    (value != Unknown ==> v.content == Interpreted(value)) &&
    (value == Unknown ==> v.content.Modified? && v.content.expr.RVariable?)
  }

  /** The callee's output parameters, as the call reads them after binding
      the inputs; `None` where the call fails before that point. */
  function CalleeOutputs(st: SimState, o: Oracles, callee: VagueExpr, inputs: seq<VagueExpr>): Option<seq<VarId>> {
    match Callee(PushTable(st), o, callee)
    case Err(_) => None
    case Ok((s1, f)) =>
      if f.body >= |s1.source.scopes| || |s1.source.scopes[f.body].inputs| != |inputs| then None
      else
        match BindArguments(s1, o, s1.source.scopes[f.body].inputs, inputs)
        case Err(_) => None
        case Ok(s2) => if f.body >= |s2.source.scopes| then None else Some(s2.source.scopes[f.body].outputs)
  }

  /** The rest of an inlined call once the inputs are bound: checks the
      output count, binds the outputs, copies the body into a child of the
      current scope, simplifies the body into the copy, and finishes. */
  function InlineBody(st: SimState, o: Oracles, body: ScopeId, outputs: seq<VagueExpr>)
    : (r: Result<(SimState, Simplified), Problem>)
    requires body < |st.source.scopes|
    ensures |st.source.scopes[body].outputs| != |outputs| ==>
              r == Err(WrongNumberOfOutputs(|outputs|, |st.source.scopes[body].outputs|))
    ensures r.Ok? ==> |st.source.scopes[body].outputs| == |outputs|
    ensures r.Ok? && (forall j | 0 <= j < |outputs| :: outputs[j] != InlineReturn) ==>
              r.value.1 == Simplified(Interpreted(VoidValue), VoidType)
    ensures r.Ok? && (exists j | 0 <= j < |outputs| :: outputs[j] == InlineReturn) ==>
              exists j | 0 <= j < |outputs| && outputs[j] == InlineReturn ::
                InlineValue(r.value.0, r.value.1, st.source.scopes[body].outputs[j])
    ensures r.Ok? && Disciplined(o) && |st.stack| > 0 ==>
              r.value.0.table == st.stack[|st.stack| - 1] && r.value.0.stack == st.stack[..|st.stack| - 1] &&
              r.value.0.current == st.current
  {
    var outParams := st.source.scopes[body].outputs;
    if |outParams| != |outputs| then Err(WrongNumberOfOutputs(|outputs|, |outParams|))
    else
      var (s3, inline, runtime) :- BindOutputs(st, o, outParams, outputs, None, None);
      var (s4, copy) :- o.copyScope(s3, body, s3.current);
      if body >= |s4.source.scopes| then Err(Abort)
      else
        var (s5, steps) :- RunBody(s4.(current := copy), o, copy, s4.source.scopes[body].body);
        Finish(s5, o, copy, Survivors(steps) != [], s4.current, inline, runtime)
  }

  /** Simplifies a call by inlining it: pushes a table, finds the callee,
      checks the input count, binds the inputs, and inlines the body. */
  function SimplifyFuncCall(st: SimState, o: Oracles, callee: VagueExpr, inputs: seq<VagueExpr>, outputs: seq<VagueExpr>)
    : (r: Result<(SimState, Simplified), Problem>)
    ensures Callee(PushTable(st), o, callee).Err? ==> r == Err(Callee(PushTable(st), o, callee).error)
    ensures Callee(PushTable(st), o, callee).Ok? ==>
              var (s, f) := Callee(PushTable(st), o, callee).value;
              (f.body >= |s.source.scopes| ==> r == Err(Abort)) &&
              (f.body < |s.source.scopes| && |s.source.scopes[f.body].inputs| != |inputs| ==>
                 r == Err(WrongNumberOfInputs(|inputs|, |s.source.scopes[f.body].inputs|)))
    ensures r.Ok? ==>
              Callee(PushTable(st), o, callee).Ok? &&
              var (s, f) := Callee(PushTable(st), o, callee).value;
              f.body < |s.source.scopes| && |s.source.scopes[f.body].inputs| == |inputs|
    ensures CalleeOutputs(st, o, callee, inputs).Some? && |CalleeOutputs(st, o, callee, inputs).value| != |outputs| ==>
              r == Err(WrongNumberOfOutputs(|outputs|, |CalleeOutputs(st, o, callee, inputs).value|))
    ensures r.Ok? ==> CalleeOutputs(st, o, callee, inputs).Some? && |CalleeOutputs(st, o, callee, inputs).value| == |outputs|
    ensures r.Ok? && (forall j | 0 <= j < |outputs| :: outputs[j] != InlineReturn) ==>
              r.value.1 == Simplified(Interpreted(VoidValue), VoidType)
    ensures r.Ok? && (exists j | 0 <= j < |outputs| :: outputs[j] == InlineReturn) ==>
              exists j | 0 <= j < |outputs| && outputs[j] == InlineReturn ::
                InlineValue(r.value.0, r.value.1, CalleeOutputs(st, o, callee, inputs).value[j])
    ensures r.Ok? && Disciplined(o) ==>
              r.value.0.table == st.table && r.value.0.stack == st.stack && r.value.0.current == st.current
  {
    var (s1, f) :- Callee(PushTable(st), o, callee);
    var body := f.body;
    if body >= |s1.source.scopes| then Err(Abort)
    else
      var params := s1.source.scopes[body].inputs;
      if |params| != |inputs| then Err(WrongNumberOfInputs(|inputs|, |params|))
      else
        var s2 :- BindArguments(s1, o, params, inputs);
        if body >= |s2.source.scopes| then Err(Abort)
        else InlineBody(s2, o, body, outputs)
  }
}

=== FILE: simplify_exprs.dfy ===
/** Simplification of variable reads, array accesses and binary operations:
    each folds to a compile-time value when its operands allow it, and is
    otherwise emitted as residual run-time code. */
module SimplifyExprs {
  import opened Wrappers
  import opened Types
  import opened VagueData
  import opened Store
  import opened Unify
  import opened Fold
  import opened VagueProgram
  import opened SimplifyState

  /** A variable read: its temporary value when that value has a data type,
      otherwise the resolved expression the variable was converted to. `Abort`
      for an id that does not exist and for a variable that has neither. */
  function SimplifyVariable(st: SimState, o: Oracles, id: VarId): (r: Result<Simplified, Problem>)
    ensures id >= |st.source.vars| ==> r == Err(Abort)
    ensures id < |st.source.vars| && GetDataType(st.source.vars[id].temporary).Some? ==>
              (r.Ok? <==> o.intermediate(st, GetDataType(st.source.vars[id].temporary).value).Ok?)
    ensures id < |st.source.vars| && GetDataType(st.source.vars[id].temporary).None? ==>
              (r.Ok? <==> id in st.table)
    ensures r.Ok? ==> (r.value.content.Interpreted? <==> GetDataType(st.source.vars[id].temporary).Some?)
    ensures r.Ok? && r.value.content.Interpreted? ==>
              r.value == Simplified(Interpreted(st.source.vars[id].temporary),
                                    o.intermediate(st, GetDataType(st.source.vars[id].temporary).value).value)
    ensures r.Ok? && r.value.content.Modified? ==>
              Convert(st, id) == Some(r.value.content.expr) && r.value.dataType == o.typeOf(st.target, r.value.content.expr)
  {
    if id >= |st.source.vars| then Err(Abort)
    else
      var value := st.source.vars[id].temporary;
      match GetDataType(value)
      case None =>
        if id in st.table then
          var e := st.table[id];
          Ok(Simplified(Modified(e), o.typeOf(st.target, e)))
        else Err(Abort)
      case Some(t) =>
        var dt :- o.intermediate(st, t);
        Ok(Simplified(Interpreted(value), dt))
  }

  /** A compile-time read of a variable gives exactly the value the vague
      program's own reading of that variable gives, and never `Unknown`. */
  lemma SimplifyVariableReads(st: SimState, o: Oracles, id: VarId)
    requires SimplifyVariable(st, o, id).Ok? && SimplifyVariable(st, o, id).value.content.Interpreted?
    ensures BorrowValueOf(st.source, VariableRef(id)) == Some(SimplifyVariable(st, o, id).value.content.value)
    ensures SimplifyVariable(st, o, id).value.content.value != Unknown
  {
  }

  // ---------------------------------------------------------------------
  // Array access

  /** The type left after `n` indexes: one array level removed per index.
      `None` when there are more indexes than levels. */
  function Unwrap(t: DataType, n: nat): (r: Option<DataType>)
    ensures n == 0 ==> r == Some(t)
    decreases n
  {
    if n == 0 then Some(t)
    else if t.ArrayType? then Unwrap(t.base, n - 1)
    else None
  }

  /** The dimensions of a compile-time array, read along its first items. */
  function Dims(k: KnownData): (d: seq<nat>)
    ensures k.ArrayValue? <==> |d| > 0
    ensures k.ArrayValue? ==> d[0] == |k.items|
  {
    if !k.ArrayValue? then []
    else if |k.items| == 0 then [0]
    else [|k.items|] + Dims(k.items[0])
  }

  /** An index the simplifier accepts with a compile-time base: typed `Int`, and
      an integer when its value is known. */
  predicate IntIndex(s: Simplified) {
    s.dataType == IntType && (s.content.Interpreted? ==> s.content.value.IntValue?)
  }

  predicate IntIndexes(xs: seq<Simplified>) {
    forall j | 0 <= j < |xs| :: IntIndex(xs[j])
  }

  /** How an index is passed on to run time: its residual expression, or a
      literal of its known value. */
  function Residual(s: Simplified): RExpr
    requires s.content.Modified? || s.content.value.IntValue?
  {
    if s.content.Modified? then s.content.expr else RLiteral(RtInt(s.content.value.i))
  }

  function Residuals(xs: seq<Simplified>): (r: seq<RExpr>)
    requires forall j | 0 <= j < |xs| :: xs[j].content.Modified? || xs[j].content.value.IntValue?
    ensures |r| == |xs| && forall j | 0 <= j < |xs| :: r[j] == Residual(xs[j])
  {
    seq(|xs|, j requires 0 <= j < |xs| => Residual(xs[j]))
  }

  /** The length of the longest prefix of indexes whose values are known. */
  function KnownCount(xs: seq<Simplified>): (m: nat)
    ensures m <= |xs|
    ensures forall j | 0 <= j < m :: xs[j].content.Interpreted?
    ensures m < |xs| ==> xs[m].content.Modified?
  {
    if |xs| == 0 || xs[0].content.Modified? then 0 else 1 + KnownCount(xs[1..])
  }

  /** The integer values of indexes known to be integers. */
  function Ints(xs: seq<Simplified>): (r: seq<int>)
    requires forall j | 0 <= j < |xs| :: xs[j].content.Interpreted? && xs[j].content.value.IntValue?
    ensures |r| == |xs| && forall j | 0 <= j < |xs| :: r[j] == xs[j].content.value.i
  {
    seq(|xs|, j requires 0 <= j < |xs| => xs[j].content.value.i)
  }

  predicate Natural(xs: seq<int>) {
    forall j | 0 <= j < |xs| :: xs[j] >= 0
  }

  function Nats(xs: seq<int>): (r: seq<nat>)
    requires Natural(xs)
    ensures |r| == |xs| && forall j | 0 <= j < |xs| :: r[j] == xs[j]
  {
    seq(|xs|, j requires 0 <= j < |xs| => xs[j] as nat)
  }

  /** Splits the indexes of an access with a compile-time base into the known
      integer values, collected up to the first index known only at run time,
      and the run-time indexes from there on, where a later known index becomes
      a literal. `None` where the source panics on an index that is not an
      `Int`. */
  method SplitIndexes(indexes: seq<Simplified>) returns (r: Option<(seq<int>, seq<RExpr>)>)
    ensures r.Some? <==> IntIndexes(indexes)
    ensures r.Some? ==> r.value.0 == Ints(indexes[..KnownCount(indexes)])
    ensures r.Some? ==> r.value.1 == Residuals(indexes[KnownCount(indexes)..])
  {
    var m := KnownCount(indexes);
    var known: seq<int> := [];
    var dynamic: seq<RExpr> := [];
    var stillKnown := true;
    var i := 0;
    while i < |indexes|
      invariant 0 <= i <= |indexes|
      invariant forall j | 0 <= j < i :: IntIndex(indexes[j])
      invariant stillKnown <==> i <= m
      invariant known == Ints(indexes[..if i <= m then i else m])
      invariant dynamic == if i <= m then [] else Residuals(indexes[m..i])
    {
      var index := indexes[i];
      if !IntIndex(index) {
        return None;
      }
      match index.content {
        case Interpreted(value) =>
          if stillKnown {
            known := known + [value.i];
            assert indexes[..i + 1] == indexes[..i] + [index];
          } else {
            dynamic := dynamic + [RLiteral(RtInt(value.i))];
            assert indexes[m..i + 1] == indexes[m..i] + [index];
          }
        case Modified(e) =>
          stillKnown := false;
          dynamic := dynamic + [e];
          assert indexes[m..i + 1] == indexes[m..i] + [index];
      }
      i := i + 1;
    }
    assert indexes[m..i] == indexes[m..];
    return Some((known, dynamic));
  }

  /** An access whose base is the compile-time array `base`, given the known
      index prefix and the run-time indexes after it. Fewer known indexes than
      the array has dimensions give the slice they select; exactly as many give
      the element, and then no run-time index may remain. Run-time indexes
      leave an access to the selected part, made a run-time literal. */
  function KnownAccess(base: KnownData, known: seq<int>, dynamic: seq<RExpr>): (r: Result<Content, Problem>)
    requires base.ArrayValue?
    ensures r.Ok? ==> Natural(known) && Index(base, Nats(known)).Some?
    ensures r.Ok? && |dynamic| == 0 ==> r.value == Interpreted(Index(base, Nats(known)).value)
    ensures r.Ok? && |dynamic| > 0 ==>
              |known| < |Dims(base)| && r.value.Modified? && r.value.expr.RAccess? && r.value.expr.indexes == dynamic &&
              r.value.expr.base.RLiteral? && Lift(r.value.expr.base.value) == Index(base, Nats(known)).value
    ensures r.Err? ==> r.error == Abort
    ensures (Natural(known) && Index(base, Nats(known)).Some? && |dynamic| == 0 &&
             (|known| <= |Dims(base)| || |known| == 0)) ==> r.Ok?
  {
    if |known| > 0 && |known| >= |Dims(base)| then
      if |known| != |Dims(base)| || !Natural(known) || Index(base, Nats(known)).None? || |dynamic| > 0 then Err(Abort)
      else Ok(Interpreted(Index(base, Nats(known)).value))
    else if |known| > 0 && (!Natural(known) || Index(base, Nats(known)).None?) then Err(Abort)
    else
      var sliced := Index(base, Nats(known)).value;
      if |dynamic| == 0 then Ok(Interpreted(sliced))
      else match ResolveKnownData(sliced)
        case None => Err(Abort)
        case Some(literal) =>
          LiftResolve(sliced);
          Ok(Modified(RAccess(RLiteral(literal), dynamic)))
  }

  /** An index the simplifier accepts with a run-time base: typed `Int`, and a
      non-negative integer when its value is known. */
  predicate RunTimeIndex(s: Simplified) {
    s.dataType == IntType && (s.content.Interpreted? ==> s.content.value.IntValue? && s.content.value.i >= 0)
  }

  /** The indexes of an access with a run-time base, each kept as its residual
      expression or made a literal. The first index that is not typed `Int`
      reports `ArrayIndexNotInt`; a known index that is negative or not an
      integer aborts. */
  function RuntimeIndexes(xs: seq<Simplified>): (r: Result<seq<RExpr>, Problem>)
    ensures r.Ok? <==> forall j | 0 <= j < |xs| :: RunTimeIndex(xs[j])
    ensures r.Ok? ==> (forall j | 0 <= j < |xs| :: xs[j].content.Modified? || xs[j].content.value.IntValue?) &&
                      r.value == Residuals(xs)
    ensures r.Err? ==> exists j | 0 <= j < |xs| :: !RunTimeIndex(xs[j]) &&
                         (forall i | 0 <= i < j :: RunTimeIndex(xs[i])) &&
                         r.error == (if xs[j].dataType != IntType then ArrayIndexNotInt(xs[j].dataType) else Abort)
  {
    if |xs| == 0 then Ok([])
    else
      var x := xs[0];
      if x.dataType != IntType then Err(ArrayIndexNotInt(x.dataType))
      else if x.content.Interpreted? && !(x.content.value.IntValue? && x.content.value.i >= 0) then Err(Abort)
      else
        var rest :- RuntimeIndexes(xs[1..]);
        assert forall j | 1 <= j < |xs| :: xs[j] == xs[1..][j - 1];
        Ok([Residual(x)] + rest)
  }

  /** An access expression, given its simplified base and indexes. The result
      type is the base type with one array level removed per index. */
  method SimplifyAccess(base: Simplified, indexes: seq<Simplified>) returns (r: Result<Simplified, Problem>)
    ensures Unwrap(base.dataType, |indexes|).None? ==> r == Err(Abort)
    ensures r.Ok? ==> Unwrap(base.dataType, |indexes|) == Some(r.value.dataType)
    ensures base.content.Interpreted? && !base.content.value.ArrayValue? ==> r == Err(Abort)
    ensures base.content.Interpreted? && r.Ok? ==> IntIndexes(indexes)
    ensures base.content.Interpreted? && r.Ok? && r.value.content.Interpreted? && IntIndexes(indexes) ==>
              KnownCount(indexes) == |indexes| && Natural(Ints(indexes)) &&
              Index(base.content.value, Nats(Ints(indexes))) == Some(r.value.content.value)
    ensures base.content.Interpreted? && r.Ok? && r.value.content.Modified? && IntIndexes(indexes) ==>
              var m := KnownCount(indexes);
              m < |indexes| && Natural(Ints(indexes[..m])) &&
              r.value.content.expr.RAccess? && r.value.content.expr.indexes == Residuals(indexes[m..]) &&
              r.value.content.expr.base.RLiteral? &&
              Some(Lift(r.value.content.expr.base.value)) == Index(base.content.value, Nats(Ints(indexes[..m])))
    ensures base.content.Interpreted? && r.Err? ==> r.error == Abort
    ensures base.content.Modified? && Unwrap(base.dataType, |indexes|).Some? ==>
              (r.Ok? <==> RuntimeIndexes(indexes).Ok?) &&
              (r.Ok? ==> r.value.content == Modified(RAccess(base.content.expr, RuntimeIndexes(indexes).value))) &&
              (r.Err? ==> r.error == RuntimeIndexes(indexes).error)
  {
    var finalType := Unwrap(base.dataType, |indexes|);
    if finalType.None? {
      return Err(Abort);
    }
    match base.content {
      case Interpreted(v) =>
        if !v.ArrayValue? {
          return Err(Abort);
        }
        var split := SplitIndexes(indexes);
        if split.None? {
          return Err(Abort);
        }
        var (known, dynamic) := split.value;
        var c := KnownAccess(v, known, dynamic);
        if c.Err? {
          return Err(c.error);
        }
        assert |dynamic| == 0 ==> indexes[..KnownCount(indexes)] == indexes;
        return Ok(Simplified(c.value, finalType.value));
      case Modified(e) =>
        var rest := RuntimeIndexes(indexes);
        if rest.Err? {
          return Err(rest.error);
        }
        return Ok(Simplified(Modified(RAccess(e, rest.value)), finalType.value));
    }
  }

  /** Indexing through a concatenation of index lists is indexing through the
      first list, then through the second. */
  lemma {:induction false} IndexAppend(k: KnownData, xs: seq<nat>, ys: seq<nat>)
    ensures Index(k, xs + ys) == if Index(k, xs).Some? then Index(Index(k, xs).value, ys) else None
    decreases |xs|
  {
    if |xs| == 0 {
      assert xs + ys == ys;
    } else if k.ArrayValue? && xs[0] < |k.items| {
      assert (xs + ys)[1..] == xs[1..] + ys;
      IndexAppend(k.items[xs[0]], xs[1..], ys);
    }
  }

  /** The residual access of a compile-time array reads, for any values of the
      run-time indexes, the same element as indexing the original array with
      the known indexes followed by those values. */
  lemma ResidualAccessReads(base: KnownData, known: seq<nat>, literal: RuntimeData, values: seq<nat>)
    requires Index(base, known) == Some(Lift(literal))
    ensures Index(Lift(literal), values) == Index(base, known + values)
  {
    IndexAppend(base, known, values);
  }

  // ---------------------------------------------------------------------
  // Binary operations

  /** One operand of a residual binary operation: a known value made a
      run-time literal (`Abort` when it has no run-time form), widened from its
      own type to the common type. */
  function Operand(c: Content, from: DataType, to: DataType, o: Oracles): (r: Result<RExpr, Problem>)
    ensures c.Modified? ==> r == o.inflate(c.expr, from, to)
    ensures c.Interpreted? && ResolveKnownData(c.value).None? ==> r == Err(Abort)
    ensures c.Interpreted? && ResolveKnownData(c.value).Some? ==> r == o.inflate(RLiteral(ResolveKnownData(c.value).value), from, to)
  {
    match c
    case Modified(e) => o.inflate(e, from, to)
    case Interpreted(k) =>
      match ResolveKnownData(k)
      case None => Err(Abort)
      case Some(v) => o.inflate(RLiteral(v), from, to)
  }

  /** Values the binary simplifier may fold: the source's integers are `i64`. */
  predicate Foldable(s: Simplified) {
    s.content.Interpreted? ==> I64Data(s.content.value)
  }

  /** A binary operation, given its simplified operands. Its type is the
      biggest common type of the operands' types; two known operands fold,
      otherwise both operands are widened to the common type, left first. */
  function SimplifyBinary(a: Simplified, op: BinaryOperator, b: Simplified, o: Oracles, fl: FloatOps): (r: Result<Simplified, Problem>)
    requires Foldable(a) && Foldable(b)
    ensures BiggestType(a.dataType, b.dataType).None? ==> r == Err(NoBiggestCommonType(a.dataType, b.dataType))
    ensures r.Ok? ==> BiggestType(a.dataType, b.dataType) == Some(r.value.dataType)
    ensures a.content.Interpreted? && b.content.Interpreted? && BiggestType(a.dataType, b.dataType).Some? ==>
              (r.Ok? <==> Compute(a.content.value, op, b.content.value, fl).Some?) &&
              (r.Ok? ==> r.value.content == Interpreted(Compute(a.content.value, op, b.content.value, fl).value)) &&
              (r.Err? ==> r.error == Abort)
    ensures r.Ok? && (a.content.Modified? || b.content.Modified?) ==>
              r.value.content.Modified? && r.value.content.expr.RBinary? &&
              r.value.content.expr.op == ResolveOperator(op) &&
              Operand(a.content, a.dataType, r.value.dataType, o) == Ok(r.value.content.expr.left) &&
              Operand(b.content, b.dataType, r.value.dataType, o) == Ok(r.value.content.expr.right)
    ensures (a.content.Modified? || b.content.Modified?) && BiggestType(a.dataType, b.dataType).Some? ==>
              var t := BiggestType(a.dataType, b.dataType).value;
              (r.Ok? <==> Operand(a.content, a.dataType, t, o).Ok? && Operand(b.content, b.dataType, t, o).Ok?)
  {
    match BiggestType(a.dataType, b.dataType)
    case None => Err(NoBiggestCommonType(a.dataType, b.dataType))
    case Some(t) =>
      if a.content.Interpreted? && b.content.Interpreted? then
        match Compute(a.content.value, op, b.content.value, fl)
        case None => Err(Abort)
        case Some(v) => Ok(Simplified(Interpreted(v), t))
      else
        var left :- Operand(a.content, a.dataType, t, o);
        var right :- Operand(b.content, b.dataType, t, o);
        Ok(Simplified(Modified(RBinary(left, ResolveOperator(op), right)), t))
  }

  /** Both operands widen to the type of a simplified binary operation. */
  lemma SimplifyBinaryWidens(a: Simplified, op: BinaryOperator, b: Simplified, o: Oracles, fl: FloatOps)
    requires Foldable(a) && Foldable(b) && SimplifyBinary(a, op, b, o, fl).Ok?
    ensures Widens(a.dataType, SimplifyBinary(a, op, b, o, fl).value.dataType)
    ensures Widens(b.dataType, SimplifyBinary(a, op, b, o, fl).value.dataType)
  {
    BiggestTypeUpperBound(a.dataType, b.dataType);
  }

  /** Swapping the known operands of a commutative operator changes neither the
      folded value nor the type. */
  lemma SimplifyBinaryCommutes(a: Simplified, op: BinaryOperator, b: Simplified, o: Oracles, fl: FloatOps)
    requires Foldable(a) && Foldable(b) && Commutative(op)
    requires a.content.Interpreted? && b.content.Interpreted?
    requires FloatFree(a.content.value) && FloatFree(b.content.value)
    requires op in {And, Or} ==> BoolVector(a.content.value) && BoolVector(b.content.value)
    ensures SimplifyBinary(a, op, b, o, fl).Ok? <==> SimplifyBinary(b, op, a, o, fl).Ok?
    ensures SimplifyBinary(a, op, b, o, fl).Ok? ==> SimplifyBinary(a, op, b, o, fl) == SimplifyBinary(b, op, a, o, fl)
  {
    BiggestTypeSymmetric(a.dataType, b.dataType);
    ComputeCommutative(a.content.value, op, b.content.value, fl);
  }
}

=== FILE: simplify_state.dfy ===
/** The state of the expression simplifier, which lowers a vague program into a
    resolved one while folding everything known at compile time. Each
    simplified expression is either a compile-time value or a residual
    run-time expression of the resolved IR. */
module SimplifyState {
  import opened Wrappers
  import opened Types
  import opened Variables
  import opened Store

  /** Resolved (run-time) expressions: the residual code the simplifier emits. */
  datatype RExpr =
    | RLiteral(value: RuntimeData)
    | RVariable(id: VarId)
    | RAccess(base: RExpr, indexes: seq<RExpr>)
    | RBinary(left: RExpr, op: ROperator, right: RExpr)
    | RAssign(target: RExpr, source: RExpr)
    | RCall(body: ScopeId)
    | RReturn

  /** What simplifying an expression yields: its value, when it is known at
      compile time, or the expression to evaluate at run time. */
  datatype Content = Interpreted(value: KnownData) | Modified(expr: RExpr)

  datatype Simplified = Simplified(content: Content, dataType: DataType)

  /** The vague expressions handed to the simplifier. Only the inline-return
      marker of an output argument is told apart; every other expression is
      simplified by the dispatcher, which is a parameter of the model. */
  datatype VagueExpr = InlineReturn | Delegated(tag: nat)

  type ExprTable = map<VarId, RExpr>

  /** The vague program read from, the resolved program written to, the
      conversion table from vague variables to resolved expressions with its
      stack of saved tables, and the resolved scope code is emitted into. */
  datatype SimState = SimState(
    source: Program<VagueExpr>,
    target: Program<RExpr>,
    table: ExprTable,
    stack: seq<ExprTable>,
    current: ScopeId)

  /** The collaborators of the simplifier whose code is not part of this
      model: the expression dispatcher, the simplification of an output
      argument into an assignable expression, the type conversions between the
      IRs, the type of a resolved expression, the copy of a function body into
      a fresh resolved scope, and the widening of an operand to a bigger type. */
  datatype Oracles = Oracles(
    simplify: (SimState, VagueExpr) -> Result<(SimState, Simplified), Problem>,
    assignTarget: (SimState, VagueExpr, DataType) -> Result<(SimState, RExpr), Problem>,
    intermediate: (SimState, DataType) -> Result<DataType, Problem>,
    outputType: DataType -> Option<DataType>,
    typeOf: (Program<RExpr>, RExpr) -> DataType,
    copyScope: (SimState, ScopeId, ScopeId) -> Result<(SimState, ScopeId), Problem>,
    inflate: (RExpr, DataType, DataType) -> Result<RExpr, Problem>)

  /** Collaborators that leave the table stack and the current scope as they
      found them whenever they succeed, as every simplification that pushes a
      table pops it again on success. Only the copy of a scope changes the
      current table (it records the copied variables). */
  ghost predicate Disciplined(o: Oracles) {
    (forall s, e :: o.simplify(s, e).Ok? ==>
       o.simplify(s, e).value.0.stack == s.stack && o.simplify(s, e).value.0.table == s.table &&
       o.simplify(s, e).value.0.current == s.current) &&
    (forall s, e, t :: o.assignTarget(s, e, t).Ok? ==>
       o.assignTarget(s, e, t).value.0.stack == s.stack && o.assignTarget(s, e, t).value.0.current == s.current) &&
    (forall s, b, p :: o.copyScope(s, b, p).Ok? ==>
       o.copyScope(s, b, p).value.0.stack == s.stack && o.copyScope(s, b, p).value.0.current == s.current)
  }

  /** Saves a copy of the current table. */
  function PushTable(st: SimState): (s: SimState)
    ensures s.stack == st.stack + [st.table] && s.(stack := st.stack) == st
  {
    st.(stack := st.stack + [st.table])
  }

  /** Restores the table saved last; `None` where the stack is empty. */
  function PopTable(st: SimState): (s: Option<SimState>)
    ensures s.Some? <==> |st.stack| > 0
    ensures s.Some? ==> s.value.table == st.stack[|st.stack| - 1] && s.value.stack == st.stack[..|st.stack| - 1]
    ensures s.Some? ==> s.value.(table := st.table, stack := st.stack) == st
  {
    if |st.stack| == 0 then None
    else Some(st.(table := st.stack[|st.stack| - 1], stack := st.stack[..|st.stack| - 1]))
  }

  /** The resolved expression a vague variable stands for, if it has one. */
  function Convert(st: SimState, id: VarId): (e: Option<RExpr>)
    ensures e.Some? <==> id in st.table
  {
    if id in st.table then Some(st.table[id]) else None
  }

  /** Makes `from` stand for `e`. */
  function AddConversion(st: SimState, from: VarId, e: RExpr): (s: SimState)
    ensures Convert(s, from) == Some(e)
    ensures forall x | x != from :: Convert(s, x) == Convert(st, x)
    ensures s.(table := st.table) == st
  {
    st.(table := st.table[from := e])
  }

  /** Sets the temporary value of a vague variable; `None` for an id that does
      not exist. */
  function SetTemporary(st: SimState, id: VarId, value: KnownData): (s: Option<SimState>)
    ensures s.Some? <==> id < |st.source.vars|
    ensures s.Some? ==> |s.value.source.vars| == |st.source.vars| && s.value.source.vars[id].temporary == value
    ensures s.Some? ==> s.value.source.vars[id].(temporary := st.source.vars[id].temporary) == st.source.vars[id]
    ensures s.Some? ==> forall j | 0 <= j < |st.source.vars| && j != id :: s.value.source.vars[j] == st.source.vars[j]
    ensures s.Some? ==> s.value.(source := st.source) == st && s.value.source.scopes == st.source.scopes
  {
    if id < |st.source.vars| then
      var v := st.source.vars[id];
      Some(st.(source := st.source.(vars := st.source.vars[id := v.(temporary := value)])))
    else None
  }

  /** Appends a statement to a resolved scope; `None` for a scope that does not
      exist. */
  function AddExpression(st: SimState, scope: ScopeId, e: RExpr): (s: Option<SimState>)
    ensures s.Some? <==> scope < |st.target.scopes|
    ensures s.Some? ==> |s.value.target.scopes| == |st.target.scopes| && s.value.target.vars == st.target.vars
    ensures s.Some? ==> s.value.target.scopes[scope].body == st.target.scopes[scope].body + [e]
    ensures s.Some? ==> s.value.target.scopes[scope].(body := st.target.scopes[scope].body) == st.target.scopes[scope]
    ensures s.Some? ==> forall j | 0 <= j < |st.target.scopes| && j != scope :: s.value.target.scopes[j] == st.target.scopes[j]
    ensures s.Some? ==> s.value.(target := st.target) == st
  {
    if scope < |st.target.scopes| then
      var sc := st.target.scopes[scope];
      Some(st.(target := st.target.(scopes := st.target.scopes[scope := sc.(body := sc.body + [e])])))
    else None
  }
}

=== FILE: specialize.dfy ===
/** The instruction-level trivial IR read by the x86-64 specialiser: a flat
    list of instructions over literal and variable values. */
module TrivialCode {
  import opened Trivial

  datatype BinaryOperator =
    | AddI | SubI | MulI | DivI | ModI
    | AddF | SubF | MulF | DivF | ModF
    | BAnd | BOr | BXor

  datatype Condition =
    | Equal | NotEqual | GreaterThan | LessThan | GreaterThanOrEqual | LessThanOrEqual

  datatype LiteralData = LInt(i: int) | LFloat(bits: nat) | LBool(b: bool)

  datatype ValueBase = Literal(data: LiteralData) | Variable(id: nat)

  datatype Value = Value(base: ValueBase, indexes: seq<Value>)

  /** The instructions the specialiser handles, and every other kind (labels,
      jumps, ...) as `Other`. */
  datatype Instruction =
    | Move(from: Value, to: Value)
    | BinaryOperation(op: BinaryOperator, a: Value, b: Value, x: Value)
    | Compare(a: Value, b: Value)
    | Assert(condition: Condition)
    | Other(tag: nat)

  datatype Program = Program(instructions: seq<Instruction>, vars: seq<TVariable>)

  /** The variant name of an operator. */
  function OpName(op: BinaryOperator): string {
    match op
    case AddI => "AddI" case SubI => "SubI" case MulI => "MulI" case DivI => "DivI" case ModI => "ModI"
    case AddF => "AddF" case SubF => "SubF" case MulF => "MulF" case DivF => "DivF" case ModF => "ModF"
    case BAnd => "BAnd" case BOr => "BOr" case BXor => "BXor"
  }

  /** The variant name of a condition. */
  function ConditionName(c: Condition): string {
    match c
    case Equal => "Equal"
    case NotEqual => "NotEqual"
    case GreaterThan => "GreaterThan"
    case LessThan => "LessThan"
    case GreaterThanOrEqual => "GreaterThanOrEqual"
    case LessThanOrEqual => "LessThanOrEqual"
  }
}

/** The x86-64 IR the specialiser writes: the same operators and conditions,
    and variable accesses that carry a byte offset and length. */
module X86Code {
  import opened Trivial

  datatype BinaryOperator =
    | AddI | SubI | MulI | DivI | ModI
    | AddF | SubF | MulF | DivF | ModF
    | BAnd | BOr | BXor

  datatype Condition =
    | Equal | NotEqual | GreaterThan | LessThan | GreaterThanOrEqual | LessThanOrEqual

  datatype LiteralData = LInt(i: int) | LFloat(bits: nat) | LBool(b: bool)

  datatype Value =
    | Literal(data: LiteralData)
    | VariableAccess(variable: nat, indexes: seq<Value>, offset: nat, length: nat)

  datatype Instruction =
    | Move(from: Value, to: Value)
    | BinaryOperation(op: BinaryOperator, a: Value, b: Value, x: Value)
    | Compare(a: Value, b: Value)
    | Assert(condition: Condition)

  datatype Program = Program(instructions: seq<Instruction>, vars: seq<TVariable>)

  const EmptyProgram := Program([], [])

  /** Appends a variable; its id is its position. */
  function AdoptVariable(p: Program, v: TVariable): (r: (Program, nat))
    ensures r.1 == |p.vars| && r.0.vars == p.vars + [v] && r.0.instructions == p.instructions
  {
    (p.(vars := p.vars + [v]), |p.vars|)
  }

  function AddInstruction(p: Program, i: Instruction): (r: Program)
    ensures r.instructions == p.instructions + [i] && r.vars == p.vars
  {
    p.(instructions := p.instructions + [i])
  }

  function OpName(op: BinaryOperator): string {
    match op
    case AddI => "AddI" case SubI => "SubI" case MulI => "MulI" case DivI => "DivI" case ModI => "ModI"
    case AddF => "AddF" case SubF => "SubF" case MulF => "MulF" case DivF => "DivF" case ModF => "ModF"
    case BAnd => "BAnd" case BOr => "BOr" case BXor => "BXor"
  }

  function ConditionName(c: Condition): string {
    match c
    case Equal => "Equal"
    case NotEqual => "NotEqual"
    case GreaterThan => "GreaterThan"
    case LessThan => "LessThan"
    case GreaterThanOrEqual => "GreaterThanOrEqual"
    case LessThanOrEqual => "LessThanOrEqual"
  }
}

/** The x86-64 specialiser: instructions are copied in order, operators and
    conditions keep their names, and each source variable is adopted into the
    target once, on first use, its id remembered for every later use. */
module Specialize {
  import opened Wrappers
  import opened Types
  import opened Trivial
  import I = TrivialCode
  import O = X86Code

  /** The byte size of a variable's type; its definition is not part of this
      model. */
  type PhysicalSize = TVariable -> nat

  /** The program written so far and the source-to-target variable ids. */
  datatype Specializer = Specializer(target: O.Program, conversions: map<nat, nat>)

  /** Every converted source variable exists, and its target variable is a
      clone of it; no two source variables share a target variable. */
  predicate Consistent(s: Specializer, source: I.Program) {
    (forall v | v in s.conversions ::
       v < |source.vars| && s.conversions[v] < |s.target.vars| && s.target.vars[s.conversions[v]] == source.vars[v]) &&
    (forall v, w | v in s.conversions && w in s.conversions && v != w :: s.conversions[v] != s.conversions[w])
  }

  /** The later specialiser remembers every conversion of the earlier one. */
  predicate Extends(later: Specializer, earlier: Specializer) {
    forall v | v in earlier.conversions :: v in later.conversions && later.conversions[v] == earlier.conversions[v]
  }

  function SpecializeOperator(op: I.BinaryOperator): (r: O.BinaryOperator)
    ensures O.OpName(r) == I.OpName(op)
  {
    match op
    case AddI => O.AddI case SubI => O.SubI case MulI => O.MulI case DivI => O.DivI case ModI => O.ModI
    case AddF => O.AddF case SubF => O.SubF case MulF => O.MulF case DivF => O.DivF case ModF => O.ModF
    case BAnd => O.BAnd case BOr => O.BOr case BXor => O.BXor
  }

  function SpecializeCondition(c: I.Condition): (r: O.Condition)
    ensures O.ConditionName(r) == I.ConditionName(c)
  {
    match c
    case Equal => O.Equal
    case NotEqual => O.NotEqual
    case GreaterThan => O.GreaterThan
    case LessThan => O.LessThan
    case GreaterThanOrEqual => O.GreaterThanOrEqual
    case LessThanOrEqual => O.LessThanOrEqual
  }

  /** Different operators have different names. */
  lemma OpNameInjective(a: I.BinaryOperator, b: I.BinaryOperator)
    requires I.OpName(a) == I.OpName(b)
    ensures a == b
  {
    assert I.OpName(a)[..|I.OpName(a)| - 1] + [I.OpName(a)[|I.OpName(a)| - 1]] == I.OpName(a);
  }

  lemma ConditionNameInjective(a: I.Condition, b: I.Condition)
    requires I.ConditionName(a) == I.ConditionName(b)
    ensures a == b
  {
    assert |I.ConditionName(a)| == |I.ConditionName(b)|;
  }

  /** The operator map is injective: distinct operators stay distinct. */
  lemma SpecializeOperatorInjective(a: I.BinaryOperator, b: I.BinaryOperator)
    requires SpecializeOperator(a) == SpecializeOperator(b)
    ensures a == b
  {
    OpNameInjective(a, b);
  }

  lemma SpecializeConditionInjective(a: I.Condition, b: I.Condition)
    requires SpecializeCondition(a) == SpecializeCondition(b)
    ensures a == b
  {
    ConditionNameInjective(a, b);
  }

  /** The target id of a source variable: the remembered one, or a fresh clone
      adopted now. `Abort` where a new id indexes no source variable. */
  function SpecializeVariable(s: Specializer, source: I.Program, v: nat): (r: Result<(Specializer, nat), Problem>)
    ensures v in s.conversions ==> r == Ok((s, s.conversions[v]))
    ensures v !in s.conversions ==> (r.Ok? <==> v < |source.vars|)
    ensures v !in s.conversions && r.Ok? ==>
              r.value.1 == |s.target.vars| && r.value.0.target.vars == s.target.vars + [source.vars[v]] &&
              r.value.0.target.instructions == s.target.instructions &&
              r.value.0.conversions == s.conversions[v := r.value.1]
  {
    if v in s.conversions then Ok((s, s.conversions[v]))
    else if v < |source.vars| then
      var (target, id) := O.AdoptVariable(s.target, source.vars[v]);
      Ok((Specializer(target, s.conversions[v := id]), id))
    else Err(Abort)
  }

  /** Specialising a variable keeps the conversions consistent and only adds
      to them; asking again gives the same id and changes nothing. */
  lemma SpecializeVariableMemoised(s: Specializer, source: I.Program, v: nat)
    requires Consistent(s, source)
    requires SpecializeVariable(s, source, v).Ok?
    ensures var (s1, id) := SpecializeVariable(s, source, v).value;
            Consistent(s1, source) && Extends(s1, s) && v in s1.conversions && s1.conversions[v] == id &&
            SpecializeVariable(s1, source, v) == Ok((s1, id))
  {
    var (s1, id) := SpecializeVariable(s, source, v).value;
    if v !in s.conversions {
      forall w | w in s.conversions ensures s.conversions[w] < |s.target.vars| {}
    }
  }

  /** A value the specialiser accepts: no indexes, and a variable that exists. */
  predicate Supported(source: I.Program, value: I.Value) {
    |value.indexes| == 0 && (value.base.Variable? ==> value.base.id < |source.vars|)
  }

  /** The target value a source value stands for under `conversions`. */
  predicate Specializes(conversions: map<nat, nat>, source: I.Program, size: PhysicalSize, value: I.Value, x: O.Value) {
    Supported(source, value) &&
    match value.base
    case Literal(d) =>
      x == O.Literal(match d case LInt(i) => O.LInt(i) case LFloat(f) => O.LFloat(f) case LBool(b) => O.LBool(b))
    case Variable(v) =>
      v in conversions && x == O.VariableAccess(conversions[v], [], 0, size(source.vars[v]))
  }

  function SpecializeValue(s: Specializer, source: I.Program, size: PhysicalSize, value: I.Value): (r: Result<(Specializer, O.Value), Problem>)
    ensures r.Ok? <==> Supported(source, value)
    ensures r.Ok? ==> Specializes(r.value.0.conversions, source, size, value, r.value.1)
    ensures r.Ok? ==> Extends(r.value.0, s) && r.value.0.target.instructions == s.target.instructions
    ensures r.Ok? && Consistent(s, source) ==> Consistent(r.value.0, source)
  {
    match value.base
    case Literal(d) =>
      if |value.indexes| > 0 then Err(Abort)
      else
        var data := match d
          case LInt(i) => O.LInt(i)
          case LFloat(f) => O.LFloat(f)
          case LBool(b) => O.LBool(b);
        Ok((s, O.Literal(data)))
    case Variable(v) =>
      if |value.indexes| > 0 || v >= |source.vars| then Err(Abort)
      else
        var length := size(source.vars[v]);
        SpecializeVariableMemoised2(s, source, v);
        var (s1, id) := SpecializeVariable(s, source, v).value;
        Ok((s1, O.VariableAccess(id, [], 0, length)))
  }

  /** `SpecializeVariableMemoised` without the consistency hypothesis for the
      facts that do not need it. */
  lemma SpecializeVariableMemoised2(s: Specializer, source: I.Program, v: nat)
    requires v < |source.vars|
    ensures SpecializeVariable(s, source, v).Ok?
    ensures var (s1, id) := SpecializeVariable(s, source, v).value;
            v in s1.conversions && s1.conversions[v] == id && Extends(s1, s) &&
            (Consistent(s, source) ==> Consistent(s1, source))
  {
    if Consistent(s, source) {
      SpecializeVariableMemoised(s, source, v);
    }
  }

  /** Conversions only grow, so a value keeps standing for what it stood for. */
  lemma SpecializesExtends(later: Specializer, earlier: Specializer, source: I.Program, size: PhysicalSize, value: I.Value, x: O.Value)
    requires Extends(later, earlier) && Specializes(earlier.conversions, source, size, value, x)
    ensures Specializes(later.conversions, source, size, value, x)
  {
  }

  /** An instruction the specialiser handles, over values it accepts. */
  predicate InstructionSupported(source: I.Program, i: I.Instruction) {
    match i
    case Move(from, to) => Supported(source, from) && Supported(source, to)
    case BinaryOperation(_, a, b, x) => Supported(source, a) && Supported(source, b) && Supported(source, x)
    case Compare(a, b) => Supported(source, a) && Supported(source, b)
    case Assert(_) => true
    case Other(_) => false
  }

  /** The target instruction a source instruction stands for under
      `conversions`: the same kind, the operator or condition of the same
      name, and each operand specialised. */
  predicate InstructionSpecializes(conversions: map<nat, nat>, source: I.Program, size: PhysicalSize, i: I.Instruction, o: O.Instruction) {
    match i
    case Move(from, to) =>
      o.Move? && Specializes(conversions, source, size, from, o.from) && Specializes(conversions, source, size, to, o.to)
    case BinaryOperation(op, a, b, x) =>
      o.BinaryOperation? && O.OpName(o.op) == I.OpName(op) && Specializes(conversions, source, size, a, o.a) &&
      Specializes(conversions, source, size, b, o.b) && Specializes(conversions, source, size, x, o.x)
    case Compare(a, b) =>
      o.Compare? && Specializes(conversions, source, size, a, o.a) && Specializes(conversions, source, size, b, o.b)
    case Assert(c) => o.Assert? && O.ConditionName(o.condition) == I.ConditionName(c)
    case Other(_) => false
  }

  lemma InstructionSpecializesExtends(later: Specializer, earlier: Specializer, source: I.Program, size: PhysicalSize, i: I.Instruction, o: O.Instruction)
    requires Extends(later, earlier) && InstructionSpecializes(earlier.conversions, source, size, i, o)
    ensures InstructionSpecializes(later.conversions, source, size, i, o)
  {
    match i
    case Move(from, to) =>
      SpecializesExtends(later, earlier, source, size, from, o.from);
      SpecializesExtends(later, earlier, source, size, to, o.to);
    case BinaryOperation(_, a, b, x) =>
      SpecializesExtends(later, earlier, source, size, a, o.a);
      SpecializesExtends(later, earlier, source, size, b, o.b);
      SpecializesExtends(later, earlier, source, size, x, o.x);
    case Compare(a, b) =>
      SpecializesExtends(later, earlier, source, size, a, o.a);
      SpecializesExtends(later, earlier, source, size, b, o.b);
    case Assert(_) =>
  }

  /** Specialises one instruction, operands left to right, and appends the
      result. `Abort` for an unsupported instruction or operand. */
  function SpecializeInstruction(s: Specializer, source: I.Program, size: PhysicalSize, i: I.Instruction): (r: Result<Specializer, Problem>)
    ensures r.Ok? <==> InstructionSupported(source, i)
    ensures r.Ok? ==> Extends(r.value, s) && |r.value.target.instructions| == |s.target.instructions| + 1
    ensures r.Ok? ==> r.value.target.instructions[..|s.target.instructions|] == s.target.instructions &&
                      InstructionSpecializes(r.value.conversions, source, size, i, r.value.target.instructions[|s.target.instructions|])
    ensures r.Ok? && Consistent(s, source) ==> Consistent(r.value, source)
  {
    match i
    case Move(from, to) =>
      var (s1, f) :- SpecializeValue(s, source, size, from);
      var (s2, t) :- SpecializeValue(s1, source, size, to);
      SpecializesExtends(s2, s1, source, size, from, f);
      Ok(s2.(target := O.AddInstruction(s2.target, O.Move(f, t))))
    case BinaryOperation(op, a, b, x) =>
      var (s1, va) :- SpecializeValue(s, source, size, a);
      var (s2, vb) :- SpecializeValue(s1, source, size, b);
      var (s3, vx) :- SpecializeValue(s2, source, size, x);
      SpecializesExtends(s3, s1, source, size, a, va);
      SpecializesExtends(s3, s2, source, size, b, vb);
      Ok(s3.(target := O.AddInstruction(s3.target, O.BinaryOperation(SpecializeOperator(op), va, vb, vx))))
    case Compare(a, b) =>
      var (s1, va) :- SpecializeValue(s, source, size, a);
      var (s2, vb) :- SpecializeValue(s1, source, size, b);
      SpecializesExtends(s2, s1, source, size, a, va);
      Ok(s2.(target := O.AddInstruction(s2.target, O.Compare(va, vb))))
    case Assert(c) =>
      Ok(s.(target := O.AddInstruction(s.target, O.Assert(SpecializeCondition(c)))))
    case Other(_) => Err(Abort)
  }

  /** Specialises a whole program: every instruction in source order, one
      target instruction each, starting from an empty target. `Abort` exactly
      when some instruction or operand is unsupported. */
  method Ingest(source: I.Program, size: PhysicalSize) returns (r: Result<Specializer, Problem>)
    ensures r.Ok? <==> forall k | 0 <= k < |source.instructions| :: InstructionSupported(source, source.instructions[k])
    ensures r.Ok? ==> Consistent(r.value, source) && |r.value.target.instructions| == |source.instructions|
    ensures r.Ok? ==> forall k | 0 <= k < |source.instructions| ::
                        InstructionSpecializes(r.value.conversions, source, size, source.instructions[k], r.value.target.instructions[k])
  {
    var s := Specializer(O.EmptyProgram, map[]);
    var j := 0;
    while j < |source.instructions|
      invariant 0 <= j <= |source.instructions|
      invariant Consistent(s, source) && |s.target.instructions| == j
      invariant forall k | 0 <= k < j :: InstructionSupported(source, source.instructions[k])
      invariant forall k | 0 <= k < j ::
                  InstructionSpecializes(s.conversions, source, size, source.instructions[k], s.target.instructions[k])
    {
      var next := SpecializeInstruction(s, source, size, source.instructions[j]);
      if next.Err? {
        return Err(next.error);
      }
      forall k | 0 <= k < j
        ensures InstructionSpecializes(next.value.conversions, source, size, source.instructions[k], next.value.target.instructions[k])
      {
        assert next.value.target.instructions[k] == s.target.instructions[k];
        InstructionSpecializesExtends(next.value, s, source, size, source.instructions[k], s.target.instructions[k]);
      }
      s := next.value;
      j := j + 1;
    }
    return Ok(s);
  }
}

=== FILE: store.dfy ===
/** The arena program store shared by the vague and the resolved IR: scopes and
    variables live in append-only sequences and refer to each other by index.
    The statement type `S` differs between the two generations. */
module Store {
  import opened Wrappers
  import opened Types
  import opened Variables

  /** A scope: its symbol table, its unnamed intermediates, its statements, its
      parameter lists and its parent. */
  datatype Scope<S> = Scope(
    symbols: map<string, VarId>,
    intermediates: seq<VarId>,
    body: seq<S>,
    inputs: seq<VarId>,
    outputs: seq<VarId>,
    parent: Option<ScopeId>)

  function EmptyScope<S>(parent: Option<ScopeId>): Scope<S> {
    Scope(map[], [], [], [], [], parent)
  }

  datatype Program<S> = Program(scopes: seq<Scope<S>>, entry: ScopeId, vars: seq<Variable>)

  /** Every parent id is below its child's id, so parent chains end. */
  predicate ParentsBelow<S>(p: Program<S>) {
    forall i | 0 <= i < |p.scopes| :: p.scopes[i].parent.Some? ==> p.scopes[i].parent.value < i
  }

  /** One parentless scope, which is the entry point, and no variables. */
  function NewProgram<S>(): (p: Program<S>)
    ensures |p.scopes| == 1 && p.scopes[0] == EmptyScope(None) && p.entry == 0 && p.vars == []
    ensures ParentsBelow(p)
  {
    Program([EmptyScope(None)], 0, [])
  }

  /** Appends a parentless scope and returns its id. */
  function CreateScope<S>(p: Program<S>): (r: (Program<S>, ScopeId))
    ensures r.1 == |p.scopes| && r.0.scopes == p.scopes + [EmptyScope(None)]
    ensures r.0.vars == p.vars && r.0.entry == p.entry
    ensures ParentsBelow(p) ==> ParentsBelow(r.0)
  {
    (p.(scopes := p.scopes + [EmptyScope(None)]), |p.scopes|)
  }

  /** Appends a scope whose parent is `parent`; `None` where the source's
      assertion that the parent exists fails. */
  function CreateChildScope<S>(p: Program<S>, parent: ScopeId): (r: Option<(Program<S>, ScopeId)>)
    ensures r.Some? <==> parent < |p.scopes|
    ensures r.Some? ==> r.value.1 == |p.scopes| && r.value.0.scopes == p.scopes + [EmptyScope(Some(parent))]
    ensures r.Some? ==> r.value.0.vars == p.vars && r.value.0.entry == p.entry
    ensures r.Some? && ParentsBelow(p) ==> ParentsBelow(r.value.0)
  {
    if parent < |p.scopes| then Some((p.(scopes := p.scopes + [EmptyScope(Some(parent))]), |p.scopes|)) else None
  }

  /** The variable a name refers to in a scope: the scope's own table first,
      then its parent's, up to a parentless scope. */
  function LookupSymbol<S>(p: Program<S>, scope: ScopeId, name: string): Option<VarId>
    requires ParentsBelow(p) && scope < |p.scopes|
    decreases scope
  {
    var s := p.scopes[scope];
    if name in s.symbols then Some(s.symbols[name])
    else if s.parent.Some? then LookupSymbol(p, s.parent.value, name)
    else None
  }

  /** A scope followed by its ancestors, nearest first. */
  function Ancestors<S>(p: Program<S>, scope: ScopeId): (chain: seq<ScopeId>)
    requires ParentsBelow(p) && scope < |p.scopes|
    ensures |chain| > 0 && chain[0] == scope
    ensures forall k | 0 <= k < |chain| :: chain[k] < |p.scopes|
    decreases scope
  {
    var s := p.scopes[scope];
    if s.parent.Some? then [scope] + Ancestors(p, s.parent.value) else [scope]
  }

  /** Whether scope `chain[k]` defines `name`. */
  predicate DefinesAt<S>(p: Program<S>, chain: seq<ScopeId>, k: nat, name: string)
    requires k < |chain| && chain[k] < |p.scopes|
  {
    name in p.scopes[chain[k]].symbols
  }

  /** Whether some scope of the chain defines `name`. */
  predicate DefinedAlong<S>(p: Program<S>, chain: seq<ScopeId>, name: string)
    requires forall k | 0 <= k < |chain| :: chain[k] < |p.scopes|
  {
    exists k | 0 <= k < |chain| :: DefinesAt(p, chain, k, name)
  }

  /** Lookup finds something exactly when some scope of the chain defines the
      name, and then it finds the definition of the nearest such scope. */
  lemma LookupNearest<S>(p: Program<S>, scope: ScopeId, name: string)
    requires ParentsBelow(p) && scope < |p.scopes|
    ensures LookupSymbol(p, scope, name).Some? <==> DefinedAlong(p, Ancestors(p, scope), name)
    ensures LookupSymbol(p, scope, name).Some? ==>
              exists k | 0 <= k < |Ancestors(p, scope)| ::
                FirstDefinitionAt(p, Ancestors(p, scope), k, name) &&
                p.scopes[Ancestors(p, scope)[k]].symbols[name] == LookupSymbol(p, scope, name).value
  {
    LookupDefined(p, scope, name);
    if LookupSymbol(p, scope, name).Some? {
      LookupFirst(p, scope, name);
    }
  }

  /** Defining along a chain that starts with a scope that does not define
      the name is defining along the rest. */
  lemma ShiftChain<S>(p: Program<S>, scope: ScopeId, rest: seq<ScopeId>, name: string)
    requires scope < |p.scopes| && name !in p.scopes[scope].symbols
    requires forall k | 0 <= k < |rest| :: rest[k] < |p.scopes|
    ensures forall k | 0 <= k < |rest| :: DefinesAt(p, [scope] + rest, k + 1, name) == DefinesAt(p, rest, k, name)
    ensures DefinedAlong(p, [scope] + rest, name) <==> DefinedAlong(p, rest, name)
  {
    var chain := [scope] + rest;
    forall k | 0 <= k < |rest| ensures DefinesAt(p, chain, k + 1, name) == DefinesAt(p, rest, k, name) {
      assert chain[k + 1] == rest[k];
    }
    if DefinedAlong(p, chain, name) {
      var k :| 0 <= k < |chain| && DefinesAt(p, chain, k, name);
      assert k > 0 && DefinesAt(p, rest, k - 1, name);
    }
  }

  lemma {:induction false} LookupDefined<S>(p: Program<S>, scope: ScopeId, name: string)
    requires ParentsBelow(p) && scope < |p.scopes|
    ensures LookupSymbol(p, scope, name).Some? <==> DefinedAlong(p, Ancestors(p, scope), name)
    decreases scope
  {
    var s := p.scopes[scope];
    if name in s.symbols {
      assert DefinesAt(p, Ancestors(p, scope), 0, name);
    } else if s.parent.Some? {
      LookupDefined(p, s.parent.value, name);
      ShiftChain(p, scope, Ancestors(p, s.parent.value), name);
    } else {
      assert Ancestors(p, scope) == [scope];
      assert !DefinesAt(p, Ancestors(p, scope), 0, name);
    }
  }

  /** Scope `chain[k]` is the first of the chain to define `name`. */
  predicate FirstDefinitionAt<S>(p: Program<S>, chain: seq<ScopeId>, k: nat, name: string)
    requires forall i | 0 <= i < |chain| :: chain[i] < |p.scopes|
  {
    k < |chain| && DefinesAt(p, chain, k, name) && forall j | 0 <= j < k :: !DefinesAt(p, chain, j, name)
  }

  /** Prepending a scope that does not define the name moves the first
      definition one place down. */
  lemma FirstShift<S>(p: Program<S>, scope: ScopeId, rest: seq<ScopeId>, k: nat, name: string)
    requires scope < |p.scopes| && name !in p.scopes[scope].symbols
    requires forall i | 0 <= i < |rest| :: rest[i] < |p.scopes|
    requires FirstDefinitionAt(p, rest, k, name)
    ensures FirstDefinitionAt(p, [scope] + rest, k + 1, name)
    ensures ([scope] + rest)[k + 1] == rest[k]
  {
    var chain := [scope] + rest;
    assert chain[k + 1] == rest[k];
    forall j | 0 <= j < k + 1 ensures !DefinesAt(p, chain, j, name) {
      if j > 0 {
        assert chain[j] == rest[j - 1] && !DefinesAt(p, rest, j - 1, name);
      } else {
        assert chain[0] == scope;
      }
    }
  }

  lemma {:induction false} LookupFirst<S>(p: Program<S>, scope: ScopeId, name: string)
    requires ParentsBelow(p) && scope < |p.scopes| && LookupSymbol(p, scope, name).Some?
    ensures exists k | 0 <= k < |Ancestors(p, scope)| ::
              FirstDefinitionAt(p, Ancestors(p, scope), k, name) &&
              p.scopes[Ancestors(p, scope)[k]].symbols[name] == LookupSymbol(p, scope, name).value
    decreases scope
  {
    var s := p.scopes[scope];
    var chain := Ancestors(p, scope);
    if name in s.symbols {
      assert FirstDefinitionAt(p, chain, 0, name);
    } else {
      var up := s.parent.value;
      LookupFirst(p, up, name);
      var rest := Ancestors(p, up);
      assert chain == [scope] + rest;
      var k :| 0 <= k < |rest| && FirstDefinitionAt(p, rest, k, name) &&
               p.scopes[rest[k]].symbols[name] == LookupSymbol(p, up, name).value;
      FirstShift(p, scope, rest, k, name);
    }
  }

  /** Appends a variable and returns its id. */
  function AdoptVariable<S>(p: Program<S>, v: Variable): (r: (Program<S>, VarId))
    ensures r.1 == |p.vars| && r.0.vars == p.vars + [v]
    ensures r.0.scopes == p.scopes && r.0.entry == p.entry
  {
    (p.(vars := p.vars + [v]), |p.vars|)
  }

  /** Replaces one variable; `None` where the source's assertion that the id
      exists fails. */
  function ModifyVariable<S>(p: Program<S>, id: VarId, v: Variable): (r: Option<Program<S>>)
    ensures r.Some? <==> id < |p.vars|
    ensures r.Some? ==> r.value.vars == p.vars[id := v] && r.value.scopes == p.scopes && r.value.entry == p.entry
  {
    if id < |p.vars| then Some(p.(vars := p.vars[id := v])) else None
  }

  /** Changes one variable's data type and nothing else. */
  function SetDataType<S>(p: Program<S>, id: VarId, t: DataType): (r: Option<Program<S>>)
    ensures r.Some? <==> id < |p.vars|
    ensures r.Some? ==> |r.value.vars| == |p.vars| && r.value.scopes == p.scopes && r.value.entry == p.entry
    ensures r.Some? ==> r.value.vars[id].dataType == t && r.value.vars[id].(dataType := p.vars[id].dataType) == p.vars[id]
    ensures r.Some? ==> forall j | 0 <= j < |p.vars| && j != id :: r.value.vars[j] == p.vars[j]
  {
    if id < |p.vars| then Some(p.(vars := p.vars[id := p.vars[id].(dataType := t)])) else None
  }

  function GetEntryPoint<S>(p: Program<S>): ScopeId {
    p.entry
  }

  function SetEntryPoint<S>(p: Program<S>, scope: ScopeId): (r: Program<S>)
    ensures r.scopes == p.scopes && r.vars == p.vars
  {
    p.(entry := scope)
  }

  /** Resets every variable's temporary value to its initial value. */
  method ResetAllTemporaryValue<S>(p: Program<S>) returns (r: Program<S>)
    ensures r.scopes == p.scopes && r.entry == p.entry && |r.vars| == |p.vars|
    ensures forall i | 0 <= i < |p.vars| :: r.vars[i].temporary == p.vars[i].initial
    ensures forall i | 0 <= i < |p.vars| :: r.vars[i].(temporary := p.vars[i].temporary) == p.vars[i]
  {
    var vars := p.vars;
    var i := 0;
    while i < |vars|
      invariant 0 <= i <= |vars| && |vars| == |p.vars|
      invariant forall j | 0 <= j < i :: vars[j] == ResetTemporaryValue(p.vars[j])
      invariant forall j | i <= j < |vars| :: vars[j] == p.vars[j]
    {
      vars := vars[i := ResetTemporaryValue(vars[i])];
      i := i + 1;
    }
    r := p.(vars := vars);
  }

  /** Adopts a variable and binds `name` to it in `scope`. */
  function AdoptAndDefineSymbol<S>(p: Program<S>, scope: ScopeId, name: string, v: Variable): (r: (Program<S>, VarId))
    requires scope < |p.scopes|
    ensures r.1 == |p.vars| && r.0.vars == p.vars + [v] && r.0.entry == p.entry
    ensures |r.0.scopes| == |p.scopes|
    ensures r.0.scopes[scope] == p.scopes[scope].(symbols := p.scopes[scope].symbols[name := r.1])
    ensures forall j | 0 <= j < |p.scopes| && j != scope :: r.0.scopes[j] == p.scopes[j]
  {
    var (q, id) := AdoptVariable(p, v);
    var s := q.scopes[scope];
    (q.(scopes := q.scopes[scope := s.(symbols := s.symbols[name := id])]), id)
  }

  /** Adopts a variable and records it as an intermediate of `scope`. */
  function AdoptAndDefineIntermediate<S>(p: Program<S>, scope: ScopeId, v: Variable): (r: (Program<S>, VarId))
    requires scope < |p.scopes|
    ensures r.1 == |p.vars| && r.0.vars == p.vars + [v] && r.0.entry == p.entry
    ensures |r.0.scopes| == |p.scopes|
    ensures r.0.scopes[scope] == p.scopes[scope].(intermediates := p.scopes[scope].intermediates + [r.1])
    ensures forall j | 0 <= j < |p.scopes| && j != scope :: r.0.scopes[j] == p.scopes[j]
  {
    var (q, id) := AdoptVariable(p, v);
    var s := q.scopes[scope];
    (q.(scopes := q.scopes[scope := s.(intermediates := s.intermediates + [id])]), id)
  }

  /** After defining a symbol, looking it up from the same scope finds the new
      variable. */
  lemma DefineThenLookup<S>(p: Program<S>, scope: ScopeId, name: string, v: Variable)
    requires ParentsBelow(p) && scope < |p.scopes|
    ensures var (q, id) := AdoptAndDefineSymbol(p, scope, name, v);
            ParentsBelow(q) && LookupSymbol(q, scope, name) == Some(id)
  {
    var (q, id) := AdoptAndDefineSymbol(p, scope, name, v);
    assert forall j | 0 <= j < |q.scopes| :: q.scopes[j].parent == p.scopes[j].parent;
  }

  /** A new child scope sees exactly what its parent sees, and lookups in the
      scopes that already existed do not change. */
  lemma {:induction false} ChildLookup<S>(p: Program<S>, parent: ScopeId, scope: ScopeId, name: string)
    requires ParentsBelow(p) && parent < |p.scopes| && scope < |p.scopes|
    ensures var (q, child) := CreateChildScope(p, parent).value;
            LookupSymbol(q, child, name) == LookupSymbol(p, parent, name) &&
            LookupSymbol(q, scope, name) == LookupSymbol(p, scope, name)
  {
    var (q, child) := CreateChildScope(p, parent).value;
    LookupUnchanged(p, q, parent, name);
    LookupUnchanged(p, q, scope, name);
  }

  lemma {:induction false} LookupUnchanged<S>(p: Program<S>, q: Program<S>, scope: ScopeId, name: string)
    requires ParentsBelow(p) && ParentsBelow(q) && scope < |p.scopes| <= |q.scopes|
    requires q.scopes[..|p.scopes|] == p.scopes
    ensures LookupSymbol(q, scope, name) == LookupSymbol(p, scope, name)
    decreases scope
  {
    assert q.scopes[scope] == p.scopes[scope];
    var s := p.scopes[scope];
    if name !in s.symbols && s.parent.Some? {
      LookupUnchanged(p, q, s.parent.value, name);
    }
  }
}

=== FILE: text.dfy ===
/** String assembly used by the `Debug` renderers. */
module Text {

  /** `parts` joined by `sep`. */
  function Join(parts: seq<string>, sep: string): string
    decreases |parts|
  {
    if |parts| == 0 then ""
    else if |parts| == 1 then parts[0]
    else parts[0] + sep + Join(parts[1..], sep)
  }

  /** Every part followed by `sep`. */
  function Terminated(parts: seq<string>, sep: string): string
    decreases |parts|
  {
    if |parts| == 0 then "" else Terminated(parts[..|parts| - 1], sep) + parts[|parts| - 1] + sep
  }

  /** How the renderers write a list: every part but the last followed by the
      separator, then the last part on its own. */
  function SeparatedLoop(parts: seq<string>, sep: string): string {
    if |parts| == 0 then "" else Terminated(parts[..|parts| - 1], sep) + parts[|parts| - 1]
  }

  lemma {:induction false} JoinSnoc(parts: seq<string>, x: string, sep: string)
    requires |parts| > 0
    ensures Join(parts + [x], sep) == Join(parts, sep) + sep + x
    decreases |parts|
  {
    if |parts| == 1 {
      assert (parts + [x])[1..] == [x];
    } else {
      assert (parts + [x])[1..] == parts[1..] + [x];
      JoinSnoc(parts[1..], x, sep);
    }
  }

  lemma {:induction false} TerminatedThenLast(parts: seq<string>, x: string, sep: string)
    ensures Terminated(parts, sep) + x == Join(parts + [x], sep)
    decreases |parts|
  {
    if |parts| == 0 {
      assert parts + [x] == [x];
    } else {
      var init, last := parts[..|parts| - 1], parts[|parts| - 1];
      TerminatedThenLast(init, last, sep);
      assert init + [last] == parts;
      JoinSnoc(parts, x, sep);
    }
  }

  /** The renderers' loop writes exactly the separator-joined list. */
  lemma SeparatedLoopIsJoin(parts: seq<string>, sep: string)
    ensures SeparatedLoop(parts, sep) == Join(parts, sep)
  {
    if |parts| > 0 {
      TerminatedThenLast(parts[..|parts| - 1], parts[|parts| - 1], sep);
      assert parts[..|parts| - 1] + [parts[|parts| - 1]] == parts;
    }
  }
}

=== FILE: trivial.dfy ===
/** The trivial IR's values and types, the last stop before code generation:
    32-bit scalars and nested arrays, their binary encoding and their `Debug`
    renderings. Values are the run-time values of the resolved IR. */
module Trivial {
  import opened Wrappers
  import opened Types
  import opened Ints
  import Decimal
  import Text

  datatype TType = B1 | I32 | F32 | TArray(len: nat, base: TType)

  /** A `Variable` of the trivial IR is its type. */
  datatype TVariable = TVariable(typ: TType)

  /** The f32 bit pattern of a floating-point value; floating point is not
      part of this model. */
  type FloatBits = nat -> nat

  /** The type `t` wrapped by one array level per dimension, outermost first. */
  function Wrap(dims: seq<nat>, t: TType): TType
    decreases |dims|
  {
    if |dims| == 0 then t else TArray(dims[0], Wrap(dims[1..], t))
  }

  /** A `dims[0]` x `dims[1]` x ... array every leaf of which is `element`. */
  function BuildArray(dims: seq<nat>, element: RuntimeData): (r: RuntimeData)
    ensures |dims| == 0 ==> r == element
    ensures |dims| > 0 ==> r.RtArray? && |r.items| == dims[0] &&
                           forall j | 0 <= j < dims[0] :: r.items[j] == BuildArray(dims[1..], element)
    decreases |dims|
  {
    if |dims| == 0 then element
    else
      var inner := BuildArray(dims[1..], element);
      RtArray(seq(dims[0], _ => inner))
  }

  /** The type of a value: `i32`, `f32` and `b1` for the scalars, and for an
      array its first item's type wrapped with the array's length. `None`
      where the source indexes the first item of an empty array. */
  function GetType(k: RuntimeData): (r: Option<TType>)
    ensures k.RtInt? ==> r == Some(I32)
    ensures k.RtFloat? ==> r == Some(F32)
    ensures k.RtBool? ==> r == Some(B1)
    ensures k.RtArray? ==> (r.Some? <==> |k.items| > 0 && GetType(k.items[0]).Some?)
    ensures k.RtArray? && r.Some? ==> r.value == TArray(|k.items|, GetType(k.items[0]).value)
  {
    match k
    case RtInt(_) => Some(I32)
    case RtFloat(_) => Some(F32)
    case RtBool(_) => Some(B1)
    case RtArray(items) =>
      if |items| == 0 then None
      else
        var first :- GetType(items[0]);
        Some(TArray(|items|, first))
  }

  /** An array built with non-zero dimensions has the element's type wrapped
      with those dimensions. */
  lemma {:induction false} BuildArrayType(dims: seq<nat>, element: RuntimeData)
    requires forall j | 0 <= j < |dims| :: dims[j] > 0
    ensures GetType(BuildArray(dims, element)) ==
              if GetType(element).Some? then Some(Wrap(dims, GetType(element).value)) else None
    decreases |dims|
  {
    if |dims| > 0 {
      BuildArrayType(dims[1..], element);
    }
  }

  /** The 32-bit word of a scalar: 1 or 0 for a boolean, the low 32 bits of an
      integer, the f32 bit pattern of a float. `None` for an array, which the
      source leaves unimplemented. */
  function BinaryData(k: RuntimeData, f32: FloatBits): (r: Option<nat>)
    ensures r.Some? <==> !k.RtArray?
    ensures r.Some? ==> r.value < TWO_32
    ensures k.RtBool? ==> r == Some(if k.b then 1 else 0)
    ensures k.RtInt? ==> r.value == k.i % TWO_32
  {
    match k
    case RtBool(b) => Some(if b then 1 else 0)
    case RtInt(i) => Some(AsU32(WrapI32(i)))
    case RtFloat(bits) => Some(f32(bits) % TWO_32)
    case RtArray(_) => None
  }

  /** The bytes of a value, in order: one byte per boolean, four little-endian
      bytes per integer (`as i32`) and per float. */
  function Encoding(k: RuntimeData, f32: FloatBits): seq<Byte> {
    match k
    case RtBool(b) => [if b then 1 else 0]
    case RtInt(i) => LeBytes4(AsU32(WrapI32(i)))
    case RtFloat(bits) => LeBytes4(f32(bits) % TWO_32)
    case RtArray(items) => Encodings(items, f32)
  }

  /** The encodings of `items`, concatenated in order. */
  function Encodings(items: seq<RuntimeData>, f32: FloatBits): seq<Byte>
    decreases items, |items|
  {
    if |items| == 0 then [] else Encodings(items[..|items| - 1], f32) + Encoding(items[|items| - 1], f32)
  }

  /** Appends the encoding of `k` to `to`, as the source's recursive writer
      does, item by item. */
  method AddBinaryData(k: RuntimeData, f32: FloatBits, to: seq<Byte>) returns (r: seq<Byte>)
    ensures r == to + Encoding(k, f32)
    decreases k
  {
    match k {
      case RtBool(b) =>
        r := to + [if b then 1 else 0];
      case RtInt(i) =>
        r := to + LeBytes4(AsU32(WrapI32(i)));
      case RtFloat(bits) =>
        r := to + LeBytes4(f32(bits) % TWO_32);
      case RtArray(items) =>
        r := to;
        var j := 0;
        while j < |items|
          invariant 0 <= j <= |items|
          invariant r == to + Encodings(items[..j], f32)
        {
          r := AddBinaryData(items[j], f32, r);
          assert items[..j + 1][..j] == items[..j];
          j := j + 1;
        }
        assert items[..j] == items;
    }
  }

  /** The bytes of a value as a fresh vector. */
  method ArbitraryLenBinaryData(k: RuntimeData, f32: FloatBits) returns (r: seq<Byte>)
    ensures r == Encoding(k, f32)
  {
    r := AddBinaryData(k, f32, []);
  }

  /** The number of bytes a value encodes to: one per boolean leaf, four per
      integer or float leaf. */
  function LeafSize(k: RuntimeData): nat {
    match k
    case RtBool(_) => 1
    case RtInt(_) => 4
    case RtFloat(_) => 4
    case RtArray(items) => LeafSizes(items)
  }

  function LeafSizes(items: seq<RuntimeData>): nat
    decreases items, |items|
  {
    if |items| == 0 then 0 else LeafSizes(items[..|items| - 1]) + LeafSize(items[|items| - 1])
  }

  /** The encoding is exactly as long as the sum of the leaf sizes. */
  lemma {:induction false} EncodingLength(k: RuntimeData, f32: FloatBits)
    ensures |Encoding(k, f32)| == LeafSize(k)
    decreases k, 1
  {
    if k.RtArray? {
      EncodingsLength(k.items, f32);
    }
  }

  lemma {:induction false} EncodingsLength(items: seq<RuntimeData>, f32: FloatBits)
    ensures |Encodings(items, f32)| == LeafSizes(items)
    decreases items, 0, |items|
  {
    if |items| > 0 {
      EncodingsLength(items[..|items| - 1], f32);
      EncodingLength(items[|items| - 1], f32);
    }
  }

  /** An integer array encodes as consecutive four-byte words, each of which
      reads back as its item's value `as i32`. */
  lemma {:induction false} IntArrayDecodes(items: seq<RuntimeData>, f32: FloatBits, j: nat)
    requires forall i | 0 <= i < |items| :: items[i].RtInt?
    requires j < |items|
    ensures |Encodings(items, f32)| == 4 * |items|
    ensures FromLeBytes4(Encodings(items, f32)[4 * j..4 * j + 4]) == WrapI32(items[j].i)
    decreases |items|
  {
    var init, last := items[..|items| - 1], items[|items| - 1];
    if |init| > 0 {
      IntArrayDecodes(init, f32, if j < |init| then j else 0);
    } else {
      assert Encodings(init, f32) == [];
    }
    assert |Encodings(init, f32)| == 4 * |init|;
    var e := Encodings(items, f32);
    assert Encoding(last, f32) == LeBytes4(AsU32(WrapI32(last.i)));
    assert e == Encodings(init, f32) + LeBytes4(AsU32(WrapI32(last.i)));
    if j < |init| {
      assert e[4 * j..4 * j + 4] == Encodings(init, f32)[4 * j..4 * j + 4];
      assert init[j] == items[j];
    } else {
      assert e[4 * j..4 * j + 4] == LeBytes4(AsU32(WrapI32(last.i)));
      LeBytes4RoundTrip(last.i);
    }
  }

  /** The `Debug` text of a value: `<v>i32`, `<v>f32`, `trueb1`/`falseb1`, and
      an array as its items between brackets. */
  function Render(k: RuntimeData, floatText: nat -> string): string {
    match k
    case RtInt(i) => Decimal.IntText(i) + "i32"
    case RtFloat(bits) => floatText(bits) + "f32"
    case RtBool(b) => (if b then "true" else "false") + "b1"
    case RtArray(items) =>
      "[" + Text.SeparatedLoop(seq(|items|, i requires 0 <= i < |items| => Render(items[i], floatText)), ", ") + "]"
  }

  /** An array renders as its items' renderings joined by ", " between brackets. */
  lemma RenderArray(items: seq<RuntimeData>, floatText: nat -> string)
    ensures Render(RtArray(items), floatText) ==
              "[" + Text.Join(seq(|items|, i requires 0 <= i < |items| => Render(items[i], floatText)), ", ") + "]"
  {
    Text.SeparatedLoopIsJoin(seq(|items|, i requires 0 <= i < |items| => Render(items[i], floatText)), ", ");
  }

  /** The payload of an integer; `None` where the source panics. */
  function RequireInt(k: RuntimeData): (r: Option<int>)
    ensures r.Some? <==> k.RtInt?
    ensures r.Some? ==> k == RtInt(r.value)
  {
    if k.RtInt? then Some(k.i) else None
  }

  /** The payload of a float; `None` where the source panics. */
  function RequireFloat(k: RuntimeData): (r: Option<nat>)
    ensures r.Some? <==> k.RtFloat?
    ensures r.Some? ==> k == RtFloat(r.value)
  {
    if k.RtFloat? then Some(k.bits) else None
  }

  /** The `Debug` text of a type: `b1`, `i32`, `f32`, and `[len]` followed by
      the base's text for an array. */
  function TypeText(t: TType): string {
    match t
    case B1 => "b1"
    case I32 => "i32"
    case F32 => "f32"
    case TArray(len, base) => "[" + Decimal.NatText(len) + "]" + TypeText(base)
  }

  /** The dimensions of a wrapped type read left to right, outermost first. */
  function DimsText(dims: seq<nat>): string
    decreases |dims|
  {
    if |dims| == 0 then "" else "[" + Decimal.NatText(dims[0]) + "]" + DimsText(dims[1..])
  }

  lemma {:induction false} WrapText(dims: seq<nat>, t: TType)
    ensures TypeText(Wrap(dims, t)) == DimsText(dims) + TypeText(t)
    decreases |dims|
  {
    if |dims| > 0 {
      WrapText(dims[1..], t);
    }
  }

  /** A type's text determines the type. */
  lemma {:induction false} TypeTextInjective(s: TType, t: TType)
    requires TypeText(s) == TypeText(t)
    ensures s == t
    decreases s
  {
    if s.TArray? && t.TArray? {
      var a, b := Decimal.NatText(s.len), Decimal.NatText(t.len);
      // The lengths' digits end at the first ']' of both texts.
      DigitsBeforeBracket(a, TypeText(s.base), b, TypeText(t.base));
      Decimal.NatTextInjective(s.len, t.len);
      TypeTextInjective(s.base, t.base);
    }
  }

  /** Two texts of the form `[digits]rest` agree on the digits and the rest
      when they are equal. */
  lemma DigitsBeforeBracket(a: string, x: string, b: string, y: string)
    requires forall i | 0 <= i < |a| :: a[i] != ']'
    requires forall i | 0 <= i < |b| :: b[i] != ']'
    requires "[" + a + "]" + x == "[" + b + "]" + y
    ensures a == b && x == y
  {
    var u, v := "[" + a + "]" + x, "[" + b + "]" + y;
    FirstBracket(a, x);
    FirstBracket(b, y);
    assert |a| == |b|;
    assert a == u[1..|a| + 1] && b == v[1..|b| + 1];
    assert x == u[|a| + 2..] && y == v[|b| + 2..];
  }

  lemma FirstBracket(a: string, x: string)
    requires forall i | 0 <= i < |a| :: a[i] != ']'
    ensures var u := "[" + a + "]" + x; u[|a| + 1] == ']' && forall i | 1 <= i <= |a| :: u[i] != ']'
  {
    var u := "[" + a + "]" + x;
    forall i | 1 <= i <= |a| ensures u[i] != ']' {
      assert u[i] == a[i - 1];
    }
  }

  function NewVariable(t: TType): (v: TVariable)
    ensures BorrowType(v) == t
  {
    TVariable(t)
  }

  function BorrowType(v: TVariable): TType {
    v.typ
  }

  /** A variable renders as its type. */
  function VariableText(v: TVariable): (s: string)
    ensures s == TypeText(BorrowType(v))
  {
    TypeText(v.typ)
  }
}

=== FILE: types.dfy ===
/** The abstract data model shared by every IR generation: ids are indices
    into append-only arenas, data types and compile-time values are immutable
    trees. */
module Types {
  import opened Wrappers
  import Ints

  type VarId = nat
  type ScopeId = nat

  /** Source positions are opaque: no operation inspects them. */
  datatype Position = Position(tag: nat)

  /** Identifies one built-in function; the built-in table itself is opaque. */
  type BuiltinId = nat

  /** A variable, optionally indexed by other variables. */
  datatype VarAccess = VarAccess(base: VarId, indexes: seq<VarId>)

  /** Data types. The vague and resolved generations write an array type as
      `ArrayType(len, base)`: one literal length per dimension, a
      multi-dimensional array nesting. The structure generation writes it as
      `SizedArray(base, sizes)`: one base and a list of sizes, each a variable
      access whose value is read from the program when it is needed. */
  datatype DataType =
    | Automatic
    | Dynamic(target: VarId)
    | LoadTemplateParameter(target: VarId)
    | BoolType
    | IntType
    | FloatType
    | VoidType
    | MetaType            // the type of data types (`DataType_`)
    | FunctionType        // the type of functions and macros (`Function_`, `Macro`)
    | ArrayType(len: nat, base: DataType)
    | SizedArray(base: DataType, sizes: seq<VarAccess>)

  /** A function or macro value: the body scope, the built-in it stands for
      (if any) and the position of its header. */
  datatype FunctionData = FunctionData(body: ScopeId, builtin: Option<BuiltinId>, header: Position)

  /** Compile-time values. `Unknown` means no compile-time value is available.
      Floating-point values are kept as an opaque bit pattern. */
  datatype KnownData =
    | Unknown
    | VoidValue
    | BoolValue(b: bool)
    | IntValue(i: int)
    | FloatValue(bits: nat)
    | TypeValue(t: DataType)
    | FunctionValue(f: FunctionData)
    | ArrayValue(items: seq<KnownData>)

  /** Values that exist at run time: the resolved IR's and the trivial IR's
      `KnownData`. */
  datatype RuntimeData =
    | RtBool(b: bool)
    | RtInt(i: int)
    | RtFloat(bits: nat)
    | RtArray(items: seq<RuntimeData>)

  datatype BinaryOperator =
    | Add | Subtract | Multiply | Divide | Modulo | Power
    | And | Or | Xor | BAnd | BOr | BXor
    | Equal | NotEqual | LessThan | GreaterThan | LessThanOrEqual | GreaterThanOrEqual

  /** The binary operators of the resolved IR. */
  datatype ROperator =
    | RAdd | RSubtract | RMultiply | RDivide | RModulo | RPower
    | RAnd | ROr | RXor | RBAnd | RBOr | RBXor
    | REqual | RNotEqual | RLessThan | RGreaterThan | RLessThanOrEqual | RGreaterThanOrEqual

  /** Why a construct could not be resolved. `Abort` stands for every panic,
      failed assertion, `unwrap` or `expect` of the source; `OutOfFuel` for a
      recursion deeper than the bound the model was given, where the source
      would go on recursing. */
  datatype Problem =
    | VagueFunction
    | NotFunction
    | WrongNumberOfInputs(provided: nat, expected: nat)
    | WrongNumberOfOutputs(provided: nat, expected: nat)
    | NoBiggestCommonType(left: DataType, right: DataType)
    | ArrayIndexNotInt(indexType: DataType)
    | Abort
    | OutOfFuel

  predicate IsDynamic(t: DataType) {
    t.Dynamic? || t.LoadTemplateParameter?
  }

  /** True when no `Dynamic` or `LoadTemplateParameter` occurs anywhere in `t`. */
  predicate NoDynamic(t: DataType) {
    match t
    case Dynamic(_) => false
    case LoadTemplateParameter(_) => false
    case ArrayType(_, base) => NoDynamic(base)
    case SizedArray(base, _) => NoDynamic(base)
    case _ => true
  }

  /** True when every array level inside `t` has a literal length: no size
      list occurs anywhere in `t`. */
  predicate LiteralSizes(t: DataType) {
    match t
    case SizedArray(_, _) => false
    case ArrayType(_, base) => LiteralSizes(base)
    case _ => true
  }

  /** Every integer inside `k` fits in an `i64`, as the source's type guarantees. */
  predicate I64Data(k: KnownData) {
    match k
    case IntValue(i) => Ints.IsI64(i)
    case ArrayValue(items) => forall i | 0 <= i < |items| :: I64Data(items[i])
    case _ => true
  }

  /** True when no floating-point value occurs anywhere inside `k`. */
  predicate FloatFree(k: KnownData) {
    match k
    case FloatValue(_) => false
    case ArrayValue(items) => forall i | 0 <= i < |items| :: FloatFree(items[i])
    case _ => true
  }

  /** The function equality of the structure generation compares body and
      built-in; the macro equality of the vague generation compares the body
      only. Neither looks at the header. */
  predicate SameFunction(f: FunctionData, g: FunctionData, withBuiltin: bool) {
    f.body == g.body && (withBuiltin ==> f.builtin == g.builtin)
  }

  /** Derived (`PartialEq`) equality of values with the custom function equality
      at the leaves. */
  predicate DataEq(a: KnownData, b: KnownData, withBuiltin: bool) {
    match a
    case FunctionValue(f) => b.FunctionValue? && SameFunction(f, b.f, withBuiltin)
    case ArrayValue(xs) =>
      b.ArrayValue? && |xs| == |b.items| &&
      forall i | 0 <= i < |xs| :: DataEq(xs[i], b.items[i], withBuiltin)
    case _ => a == b
  }

  /** Value equality is an equivalence relation that ignores function headers. */
  lemma {:induction false} DataEqReflexive(a: KnownData, withBuiltin: bool)
    ensures DataEq(a, a, withBuiltin)
  {
    if a.ArrayValue? {
      forall i | 0 <= i < |a.items| ensures DataEq(a.items[i], a.items[i], withBuiltin) {
        DataEqReflexive(a.items[i], withBuiltin);
      }
    }
  }

  lemma {:induction false} DataEqSymmetric(a: KnownData, b: KnownData, withBuiltin: bool)
    requires DataEq(a, b, withBuiltin)
    ensures DataEq(b, a, withBuiltin)
  {
    if a.ArrayValue? {
      forall i | 0 <= i < |b.items| ensures DataEq(b.items[i], a.items[i], withBuiltin) {
        DataEqSymmetric(a.items[i], b.items[i], withBuiltin);
      }
    }
  }

  /** Function equality holds exactly when the two records differ at most in
      their header; macro equality additionally ignores the built-in. */
  lemma SameFunctionIffOnlyHeaderDiffers(f: FunctionData, g: FunctionData)
    ensures SameFunction(f, g, true) <==> f == g.(header := f.header)
    ensures SameFunction(f, g, false) <==> f == g.(header := f.header, builtin := f.builtin)
  {
  }
}

=== FILE: unify.dfy ===
/** The biggest common type of two data types: the type both operands of a
    binary operation are widened to. */
module Unify {
  import opened Wrappers
  import opened Types

  /** `None` where the source reports that no common type exists. */
  function BiggestType(a: DataType, b: DataType): (r: Option<DataType>)
    ensures a == Automatic ==> r == Some(b)
    ensures b == Automatic ==> r == Some(a)
    ensures a == b ==> r == Some(a)
    ensures r.Some? && (a.ArrayType? || b.ArrayType?) ==> r.value.ArrayType?
    decreases a, b
  {
    if a == Automatic then Some(b)
    else if b == Automatic then Some(a)
    else if a == b then Some(a)
    else if a.ArrayType? && b.ArrayType? then
      if a.len == b.len then
        var base :- BiggestType(a.base, b.base);
        Some(ArrayType(a.len, base))
      else if a.len == 1 then
        var base :- BiggestType(a.base, b.base);
        Some(ArrayType(b.len, base))
      else if b.len == 1 then
        var base :- BiggestType(a.base, b.base);
        Some(ArrayType(a.len, base))
      else None
    else if a.ArrayType? then
      var base :- BiggestType(a.base, b);
      Some(ArrayType(a.len, base))
    else if b.ArrayType? then
      var base :- BiggestType(a, b.base);
      Some(ArrayType(b.len, base))
    else None
  }

  /** Whether a value of type `s` can be used where type `t` is expected:
      `Automatic` stands for anything, an array of length 1 stretches to any
      length, and a scalar stretches to an array of itself. */
  predicate Widens(s: DataType, t: DataType)
    decreases t
  {
    s == Automatic || s == t ||
    (t.ArrayType? && s.ArrayType? && (s.len == t.len || s.len == 1) && Widens(s.base, t.base)) ||
    (t.ArrayType? && !s.ArrayType? && Widens(s, t.base))
  }

  /** Two arrays of lengths that are neither equal nor 1 have no common type,
      nor do two different scalars. */
  lemma BiggestTypeFails(a: DataType, b: DataType)
    requires a != b && a != Automatic && b != Automatic
    requires (a.ArrayType? && b.ArrayType? && a.len != b.len && a.len != 1 && b.len != 1) ||
             (!a.ArrayType? && !b.ArrayType?)
    ensures BiggestType(a, b).None?
  {
  }

  /** The order of the operands does not matter. */
  lemma {:induction false} BiggestTypeSymmetric(a: DataType, b: DataType)
    ensures BiggestType(a, b) == BiggestType(b, a)
    decreases a, b
  {
    if a != Automatic && b != Automatic && a != b {
      if a.ArrayType? && b.ArrayType? {
        BiggestTypeSymmetric(a.base, b.base);
      } else if a.ArrayType? {
        BiggestTypeSymmetric(a.base, b);
      } else if b.ArrayType? {
        BiggestTypeSymmetric(a, b.base);
      }
    }
  }

  /** The common type is an upper bound: both operands widen to it. */
  lemma {:induction false} BiggestTypeUpperBound(a: DataType, b: DataType)
    requires BiggestType(a, b).Some?
    ensures Widens(a, BiggestType(a, b).value) && Widens(b, BiggestType(a, b).value)
    decreases a, b
  {
    var r := BiggestType(a, b).value;
    if a == Automatic || b == Automatic || a == b {
      WidensReflexive(a);
      WidensReflexive(b);
    } else if a.ArrayType? && b.ArrayType? {
      BiggestTypeUpperBound(a.base, b.base);
    } else if a.ArrayType? {
      BiggestTypeUpperBound(a.base, b);
      WidensReflexive(b);
    } else {
      BiggestTypeUpperBound(a, b.base);
    }
  }

  lemma WidensReflexive(t: DataType)
    ensures Widens(t, t)
  {
  }

  /** The common type is the least upper bound: whenever both operands widen to
      some type, a common type exists and widens to that type as well. */
  lemma {:induction false} BiggestTypeLeast(a: DataType, b: DataType, u: DataType)
    requires Widens(a, u) && Widens(b, u)
    ensures BiggestType(a, b).Some? && Widens(BiggestType(a, b).value, u)
    decreases u
  {
    if a == Automatic || b == Automatic || a == b {
    } else if a == u {
      WidensIntoArray(b, u);
      BiggestTypeSymmetric(a, b);
      WidensReflexive(u);
    } else if b == u {
      WidensIntoArray(a, u);
      WidensReflexive(u);
    } else {
      assert u.ArrayType?;
      if a.ArrayType? && b.ArrayType? {
        BiggestTypeLeast(a.base, b.base, u.base);
      } else if a.ArrayType? {
        BiggestTypeLeast(a.base, b, u.base);
      } else if b.ArrayType? {
        BiggestTypeLeast(a, b.base, u.base);
      } else {
        BiggestTypeLeast(a, b, u.base);
        assert false;
      }
    }
  }

  /** Widening into `t` from a different type `s` ends at the same common type
      as `s` and `t`: the case where one operand is itself the bound. */
  lemma {:induction false} WidensIntoArray(s: DataType, t: DataType)
    requires Widens(s, t)
    ensures BiggestType(s, t) == Some(t)
    decreases t
  {
    if s != Automatic && s != t {
      if s.ArrayType? {
        WidensIntoArray(s.base, t.base);
      } else {
        WidensIntoArray(s, t.base);
      }
    }
  }
}

=== FILE: vague_data.dfy ===
/** Compile-time values of the vague IR: array construction, indexing, type
    inference and type matching, payload extraction and `Debug` rendering. */
module VagueData {
  import opened Wrappers
  import opened Types
  import Decimal
  import Text

  /** The multi-dimensional array type with the given dimensions around `base`. */
  function NestType(dims: seq<nat>, base: DataType): DataType
    decreases |dims|
  {
    if |dims| == 0 then base else ArrayType(dims[0], NestType(dims[1..], base))
  }

  /** A `dims[0]` x `dims[1]` x ... array whose leaves are `Void`. */
  function BuildArray(dims: seq<nat>): (r: KnownData)
    ensures |dims| == 0 <==> r == VoidValue
    decreases |dims|
  {
    if |dims| == 0 then VoidValue
    else ArrayValue(seq(dims[0], _ => BuildArray(dims[1..])))
  }

  /** A one-dimensional array of `size` copies of `Void`. */
  function NewArray(size: nat): (r: KnownData)
    ensures r.ArrayValue? && |r.items| == size
    ensures forall i | 0 <= i < size :: r.items[i] == VoidValue
  {
    ArrayValue(seq(size, _ => VoidValue))
  }

  /** The element reached by descending one array level per index; `None` where
      the source panics (indexing a non-array, or an index past the end). */
  function Index(k: KnownData, indexes: seq<nat>): (r: Option<KnownData>)
    ensures |indexes| == 0 ==> r == Some(k)
    ensures |indexes| > 0 && !k.ArrayValue? ==> r.None?
    decreases |indexes|
  {
    if |indexes| == 0 then Some(k)
    else if !k.ArrayValue? then None
    else if indexes[0] >= |k.items| then None
    else Index(k.items[indexes[0]], indexes[1..])
  }

  /** The data type of a value. `None` where the source panics on an empty
      array, and for `Unknown`, which this generation does not have. */
  function GetDataType(k: KnownData): (r: Option<DataType>)
    ensures r.None? <==> k.Unknown? || (k.ArrayValue? && (|k.items| == 0 || GetDataType(k.items[0]).None?))
    ensures r.Some? ==> (r.value.ArrayType? <==> k.ArrayValue?)
    ensures r.Some? && k.ArrayValue? ==> r.value.len == |k.items| && Some(r.value.base) == GetDataType(k.items[0])
  {
    match k
    case Unknown => None
    case VoidValue => Some(VoidType)
    case BoolValue(_) => Some(BoolType)
    case IntValue(_) => Some(IntType)
    case FloatValue(_) => Some(FloatType)
    case TypeValue(_) => Some(MetaType)
    case FunctionValue(_) => Some(FunctionType)
    case ArrayValue(items) =>
      if |items| == 0 then None
      else
        var first :- GetDataType(items[0]);
        Some(ArrayType(|items|, first))
  }

  /** An array whose items all have one data type, recursively: what `collect`
      asserts of the arrays it builds. */
  predicate Uniform(k: KnownData) {
    match k
    case ArrayValue(items) =>
      |items| > 0 && GetDataType(items[0]).Some? &&
      forall i | 0 <= i < |items| :: GetDataType(items[i]) == GetDataType(items[0]) && Uniform(items[i])
    case _ => true
  }

  /** Wraps `items` into an array after checking that all of them share the
      first item's data type; `None` where that check fails. */
  function Collect(items: seq<KnownData>): (r: Option<KnownData>)
    ensures r.Some? <==> |items| > 0 && GetDataType(items[0]).Some? &&
                         forall i | 0 <= i < |items| :: GetDataType(items[i]) == GetDataType(items[0])
    ensures r.Some? ==> r.value == ArrayValue(items) && GetDataType(r.value) == Some(ArrayType(|items|, GetDataType(items[0]).value))
  {
    if |items| == 0 then None
    else
      var first :- GetDataType(items[0]);
      if forall i | 0 <= i < |items| :: GetDataType(items[i]) == Some(first) then Some(ArrayValue(items)) else None
  }

  /** Whether a value matches a type. An array is checked on its length and its
      first item only; `None` where the source's assertion fails (an empty array
      against an array type of length 0). */
  function MatchesDataType(k: KnownData, t: DataType): Option<bool> {
    match k
    case ArrayValue(items) =>
      if t.ArrayType? && t.len == |items| then
        if |items| == 0 then None else MatchesDataType(items[0], t.base)
      else Some(false)
    case Unknown => Some(false)
    case VoidValue => Some(t == VoidType)
    case BoolValue(_) => Some(t == BoolType)
    case IntValue(_) => Some(t == IntType)
    case FloatValue(_) => Some(t == FloatType)
    case TypeValue(_) => Some(t == MetaType)
    case FunctionValue(_) => Some(t == FunctionType)
  }

  /** A value matches a type exactly when that type is the value's inferred type. */
  lemma {:induction false} MatchesIffDataType(k: KnownData, t: DataType)
    ensures MatchesDataType(k, t) == Some(true) <==> GetDataType(k) == Some(t)
  {
    if k.ArrayValue? && |k.items| > 0 {
      if t.ArrayType? && t.len == |k.items| {
        MatchesIffDataType(k.items[0], t.base);
      }
    }
  }

  function RequireBool(k: KnownData): (r: Option<bool>)
    ensures r.Some? <==> k.BoolValue?
    ensures r.Some? ==> k == BoolValue(r.value)
  {
    if k.BoolValue? then Some(k.b) else None
  }

  function RequireInt(k: KnownData): (r: Option<int>)
    ensures r.Some? <==> k.IntValue?
    ensures r.Some? ==> k == IntValue(r.value)
  {
    if k.IntValue? then Some(k.i) else None
  }

  function RequireFloat(k: KnownData): (r: Option<nat>)
    ensures r.Some? <==> k.FloatValue?
    ensures r.Some? ==> k == FloatValue(r.value)
  {
    if k.FloatValue? then Some(k.bits) else None
  }

  function RequireDataType(k: KnownData): (r: Option<DataType>)
    ensures r.Some? <==> k.TypeValue?
    ensures r.Some? ==> k == TypeValue(r.value)
  {
    if k.TypeValue? then Some(k.t) else None
  }

  function RequireMacro(k: KnownData): (r: Option<FunctionData>)
    ensures r.Some? <==> k.FunctionValue?
    ensures r.Some? ==> k == FunctionValue(r.value)
  {
    if k.FunctionValue? then Some(k.f) else None
  }

  function RequireArray(k: KnownData): (r: Option<seq<KnownData>>)
    ensures r.Some? <==> k.ArrayValue?
    ensures r.Some? ==> k == ArrayValue(r.value)
  {
    if k.ArrayValue? then Some(k.items) else None
  }

  /** Renderers for the parts whose formatting lives outside this model. */
  datatype Printers = Printers(typeText: DataType -> string, floatText: nat -> string)

  /** The `Debug` text of a value. `Unknown` is this model's stand-in for a
      value not known at compile time; the vague `KnownData` has no such
      variant, so the text `[unknown]` is this model's own. */
  function Render(k: KnownData, p: Printers): string {
    match k
    case Unknown => "[unknown]"
    case VoidValue => "[void]"
    case BoolValue(b) => if b then "true" else "false"
    case IntValue(i) => Decimal.IntText(i)
    case FloatValue(bits) => p.floatText(bits)
    case TypeValue(t) => p.typeText(t)
    case FunctionValue(f) => "macro with body at s" + Decimal.NatText(f.body)
    case ArrayValue(items) =>
      "[" + Text.SeparatedLoop(seq(|items|, i requires 0 <= i < |items| => Render(items[i], p)), ", ") + "]"
  }

  /** An array renders as its items' renderings joined by ", " between brackets. */
  lemma RenderArray(items: seq<KnownData>, p: Printers)
    ensures Render(ArrayValue(items), p) == "[" + Text.Join(seq(|items|, i requires 0 <= i < |items| => Render(items[i], p)), ", ") + "]"
  {
    Text.SeparatedLoopIsJoin(seq(|items|, i requires 0 <= i < |items| => Render(items[i], p)), ", ");
  }

  /** `new_array(n)` is the one-dimensional `build_array`. */
  lemma NewArrayIsBuildArray(size: nat)
    ensures NewArray(size) == BuildArray([size])
  {
    var b := BuildArray([size]);
    assert BuildArray([size][1..]) == VoidValue;
    assert NewArray(size).items == b.items;
  }

  /** An index vector that stays inside arrays of the given dimensions. */
  predicate InBounds(dims: seq<nat>, indexes: seq<nat>) {
    |indexes| <= |dims| && forall j | 0 <= j < |indexes| :: indexes[j] < dims[j]
  }

  lemma InBoundsTail(dims: seq<nat>, indexes: seq<nat>)
    requires |indexes| > 0 && |dims| > 0
    ensures InBounds(dims, indexes) <==> indexes[0] < dims[0] && InBounds(dims[1..], indexes[1..])
  {
    if indexes[0] < dims[0] && InBounds(dims[1..], indexes[1..]) {
      forall j | 0 <= j < |indexes| ensures indexes[j] < dims[j] {
        if j > 0 { assert indexes[1..][j - 1] == indexes[j]; }
      }
    }
    if InBounds(dims, indexes) {
      forall j | 0 <= j < |indexes[1..]| ensures indexes[1..][j] < dims[1..][j] {
        assert indexes[j + 1] < dims[j + 1];
      }
    }
  }

  /** Indexing a built array succeeds exactly for in-bounds index vectors, and
      then yields the array built from the remaining dimensions. */
  lemma {:induction false} IndexBuildArray(dims: seq<nat>, indexes: seq<nat>)
    ensures Index(BuildArray(dims), indexes).Some? <==> InBounds(dims, indexes)
    ensures InBounds(dims, indexes) ==> Index(BuildArray(dims), indexes) == Some(BuildArray(dims[|indexes|..]))
    decreases |indexes|
  {
    if |indexes| > 0 && |dims| > 0 {
      InBoundsTail(dims, indexes);
      if indexes[0] < dims[0] {
        IndexBuildArray(dims[1..], indexes[1..]);
        assert BuildArray(dims).items[indexes[0]] == BuildArray(dims[1..]);
        if InBounds(dims, indexes) {
          assert dims[1..][|indexes[1..]|..] == dims[|indexes|..];
        }
      }
    }
  }

  /** A built array has a data type exactly when no dimension is zero, and then
      it is the nested array type around `Void`. */
  lemma {:induction false} BuildArrayDataType(dims: seq<nat>)
    ensures GetDataType(BuildArray(dims)).Some? <==> forall j | 0 <= j < |dims| :: dims[j] > 0
    ensures (forall j | 0 <= j < |dims| :: dims[j] > 0) ==> GetDataType(BuildArray(dims)) == Some(NestType(dims, VoidType))
    decreases |dims|
  {
    if |dims| > 0 {
      BuildArrayDataType(dims[1..]);
      if dims[0] > 0 {
        assert BuildArray(dims).items[0] == BuildArray(dims[1..]);
        if forall j | 0 <= j < |dims[1..]| :: dims[1..][j] > 0 {
          forall j | 0 <= j < |dims| ensures dims[j] > 0 {
            if j > 0 { assert dims[1..][j - 1] == dims[j]; }
          }
        }
        if forall j | 0 <= j < |dims| :: dims[j] > 0 {
          forall j | 0 <= j < |dims[1..]| ensures dims[1..][j] > 0 {
            assert dims[j + 1] > 0;
          }
        }
      } else {
        assert !(dims[0] > 0);
      }
    }
  }
}

=== FILE: vague_program.dfy ===
/** Reading compile-time values out of the vague program: literals, variables'
    temporary values, and elements of arrays addressed by known indexes. */
module VagueProgram {
  import opened Wrappers
  import opened Types
  import opened VagueData
  import opened Variables
  import opened Store

  /** The vague expressions a value can be read from; every other kind of
      expression is `Complex`. */
  datatype Expr =
    | Literal(data: KnownData)
    | VariableRef(id: VarId)
    | Access(base: Expr, indexes: seq<Expr>)
    | Complex

  /** The value an expression denotes. `None` where the source panics: an
      index that is not a known non-negative integer, a base that is not an
      array, an index outside the array, an unknown variable id, or a complex
      expression. */
  function BorrowValueOf<S>(p: Program<S>, e: Expr): (r: Option<KnownData>)
    ensures e.Literal? ==> r == Some(e.data)
    ensures e.VariableRef? ==> (r.Some? <==> e.id < |p.vars|)
    ensures e.VariableRef? && r.Some? ==> r.value == p.vars[e.id].temporary
    ensures e.Complex? ==> r.None?
    decreases e, 1, 0
  {
    match e
    case Literal(data) => Some(data)
    case VariableRef(id) => if id < |p.vars| then Some(p.vars[id].temporary) else None
    case Access(base, _) =>
      var positions := IndexValues(p, e, 0);
      if positions.None? then None
      else
        var data := BorrowValueOf(p, base);
        if data.Some? && data.value.ArrayValue? then Index(data.value, positions.value) else None
    case Complex => None
  }

  /** Whether `index` reads as a known non-negative integer, the only kind of
      index that lands inside an array (a negative `i64` cast to `usize` is
      beyond every array's bounds). */
  predicate KnownPosition<S>(p: Program<S>, index: Expr)
    decreases index, 2, 0
  {
    var v := BorrowValueOf(p, index);
    v.Some? && v.value.IntValue? && v.value.i >= 0
  }

  /** The positions named by the indexes of access `e` from the `k`-th on. */
  function IndexValues<S>(p: Program<S>, e: Expr, k: nat): (r: Option<seq<nat>>)
    requires e.Access? && k <= |e.indexes|
    ensures r.Some? <==> forall j | k <= j < |e.indexes| :: KnownPosition(p, e.indexes[j])
    ensures r.Some? ==> |r.value| == |e.indexes| - k
    ensures r.Some? ==> forall j | k <= j < |e.indexes| :: BorrowValueOf(p, e.indexes[j]) == Some(IntValue(r.value[j - k]))
    decreases e, 0, |e.indexes| - k
  {
    if k == |e.indexes| then Some([])
    else
      var v := BorrowValueOf(p, e.indexes[k]);
      if v.Some? && v.value.IntValue? && v.value.i >= 0 then
        var rest := IndexValues(p, e, k + 1);
        if rest.Some? then Some([v.value.i as nat] + rest.value) else None
      else None
  }

  /** Reading an access is indexing the value of its base with the values of
      its indexes, and fails exactly when one of the pieces fails. */
  lemma AccessReadsElement<S>(p: Program<S>, base: Expr, indexes: seq<Expr>, positions: seq<nat>)
    requires |positions| == |indexes|
    requires forall j | 0 <= j < |indexes| :: BorrowValueOf(p, indexes[j]) == Some(IntValue(positions[j]))
    ensures var data := BorrowValueOf(p, base);
            BorrowValueOf(p, Access(base, indexes)) ==
              if data.Some? && data.value.ArrayValue? then Index(data.value, positions) else None
  {
    var e := Access(base, indexes);
    var vs := IndexValues(p, e, 0);
    assert vs.Some?;
    assert vs.value == positions by {
      forall j | 0 <= j < |positions| ensures vs.value[j] == positions[j] {
        assert BorrowValueOf(p, indexes[j]) == Some(IntValue(vs.value[j]));
      }
    }
  }

  /** Whether two programs agree on the temporary value of every variable. */
  predicate SameTemporaries<S, T>(p: Program<S>, q: Program<T>) {
    |p.vars| == |q.vars| && forall i | 0 <= i < |p.vars| :: p.vars[i].temporary == q.vars[i].temporary
  }

  /** Reading depends on the variables' temporary values only: scopes, data
      types and initial values play no part. */
  lemma {:induction false} ReadsOnlyTemporaries<S, T>(p: Program<S>, q: Program<T>, e: Expr)
    requires SameTemporaries(p, q)
    ensures BorrowValueOf(p, e) == BorrowValueOf(q, e)
    decreases e, 1, 0
  {
    match e
    case Access(base, _) =>
      ReadsOnlyTemporaries(p, q, base);
      IndexValuesOnlyTemporaries(p, q, e, 0);
    case _ =>
  }

  lemma {:induction false} IndexValuesOnlyTemporaries<S, T>(p: Program<S>, q: Program<T>, e: Expr, k: nat)
    requires SameTemporaries(p, q) && e.Access? && k <= |e.indexes|
    ensures IndexValues(p, e, k) == IndexValues(q, e, k)
    decreases e, 0, |e.indexes| - k
  {
    if k < |e.indexes| {
      ReadsOnlyTemporaries(p, q, e.indexes[k]);
      IndexValuesOnlyTemporaries(p, q, e, k + 1);
    }
  }

  /** Writing a variable and reading it back gives the new temporary value. */
  lemma ModifyThenRead<S>(p: Program<S>, id: VarId, v: Variable)
    requires id < |p.vars|
    ensures BorrowValueOf(ModifyVariable(p, id, v).value, VariableRef(id)) == Some(v.temporary)
  {
  }

  /** Reading an element of a literal nested array built with `dims` succeeds
      exactly for non-empty index lists inside the dimensions, and gives the
      array the remaining dimensions describe. */
  lemma ReadBuiltArray<S>(p: Program<S>, dims: seq<nat>, indexes: seq<Expr>, positions: seq<nat>)
    requires |dims| > 0 && |positions| == |indexes|
    requires forall j | 0 <= j < |indexes| :: indexes[j] == Literal(IntValue(positions[j]))
    ensures BorrowValueOf(p, Access(Literal(BuildArray(dims)), indexes)).Some? <==> InBounds(dims, positions)
    ensures InBounds(dims, positions) ==>
              BorrowValueOf(p, Access(Literal(BuildArray(dims)), indexes)) == Some(BuildArray(dims[|positions|..]))
  {
    AccessReadsElement(p, Literal(BuildArray(dims)), indexes, positions);
    IndexBuildArray(dims, positions);
  }
}

=== FILE: variables.dfy ===
/** Variables of the structure IR and the relations between data types and
    values that consult them. */
module Variables {
  import opened Wrappers
  import opened Types
  import VagueData

  /** A variable: where it was defined, its type, its initial value, whether it
      is permanent, and the temporary value used during partial evaluation. */
  datatype Variable = Variable(definition: Position, dataType: DataType, initial: KnownData, permanent: bool, temporary: KnownData)

  /** The common constructor: a missing initial value becomes `Unknown`, and the
      temporary value starts out as the initial one. */
  function NewVariable(definition: Position, dataType: DataType, initial: Option<KnownData>, permanent: bool): (v: Variable)
    ensures v.temporary == v.initial
    ensures initial.Some? ==> v.initial == initial.value
    ensures initial.None? ==> v.initial == Unknown
    ensures v.dataType == dataType && v.permanent == permanent && v.definition == definition
  {
    var value := initial.GetOr(Unknown);
    Variable(definition, dataType, value, permanent, value)
  }

  function MutableVariable(definition: Position, dataType: DataType, initial: Option<KnownData>): (v: Variable)
    ensures !v.permanent && v.temporary == v.initial && v.dataType == dataType
  {
    NewVariable(definition, dataType, initial, false)
  }

  function Constant(definition: Position, dataType: DataType, value: KnownData): (v: Variable)
    ensures v.permanent && v.initial == value && v.temporary == value && v.dataType == dataType
  {
    NewVariable(definition, dataType, Some(value), true)
  }

  /** A permanent variable holding a function, defined at the function's header. */
  function FunctionDef(f: FunctionData): (v: Variable)
    ensures v.permanent && v.dataType == FunctionType && v.initial == FunctionValue(f) && v.temporary == v.initial
    ensures v.definition == f.header
  {
    Constant(f.header, FunctionType, FunctionValue(f))
  }

  /** A permanent variable holding a data type. */
  function DataTypeVariable(definition: Position, value: DataType): (v: Variable)
    ensures v.permanent && v.dataType == MetaType && v.initial == TypeValue(value) && v.temporary == v.initial
  {
    Constant(definition, MetaType, TypeValue(value))
  }

  function AutomaticVariable(definition: Position): (v: Variable)
    ensures !v.permanent && v.dataType == Automatic && v.initial == Unknown && v.temporary == Unknown
  {
    MutableVariable(definition, Automatic, None)
  }

  function BoolLiteral(definition: Position, value: bool): (v: Variable)
    ensures v.permanent && v.dataType == BoolType && v.initial == BoolValue(value) && v.temporary == v.initial
  {
    Constant(definition, BoolType, BoolValue(value))
  }

  function IntLiteral(definition: Position, value: int): (v: Variable)
    ensures v.permanent && v.dataType == IntType && v.initial == IntValue(value) && v.temporary == v.initial
  {
    Constant(definition, IntType, IntValue(value))
  }

  function FloatLiteral(definition: Position, bits: nat): (v: Variable)
    ensures v.permanent && v.dataType == FloatType && v.initial == FloatValue(bits) && v.temporary == v.initial
  {
    Constant(definition, FloatType, FloatValue(bits))
  }

  function VoidVariable(definition: Position): (v: Variable)
    ensures !v.permanent && v.dataType == VoidType && v.initial == Unknown && v.temporary == Unknown
  {
    MutableVariable(definition, VoidType, None)
  }

  /** Sets the temporary value back to the initial value, leaving every other
      field alone. */
  function ResetTemporaryValue(v: Variable): (r: Variable)
    ensures r.temporary == v.initial
    ensures r.(temporary := v.temporary) == v
  {
    v.(temporary := v.initial)
  }

  /** Resetting is idempotent, and a freshly constructed variable is already
      reset. */
  lemma ResetIdempotent(v: Variable, definition: Position, dataType: DataType, initial: Option<KnownData>, permanent: bool)
    ensures ResetTemporaryValue(ResetTemporaryValue(v)) == ResetTemporaryValue(v)
    ensures ResetTemporaryValue(NewVariable(definition, dataType, initial, permanent)) == NewVariable(definition, dataType, initial, permanent)
  {
  }

  function IsAutomatic(t: DataType): (r: bool)
    ensures r <==> t == Automatic
  {
    t.Automatic?
  }

  /** Whether two data types are known to describe the same type. Dynamic and
      template types compare the temporary values of their targets, which must be
      known. Arrays with literal lengths compare base and length. Arrays with
      size lists compare their bases first, then the two size lists pairwise
      up to the shorter one, each size read from the program and required to be
      known and equal. `None` where the source panics on a variable id that
      does not exist or on a size it cannot read. */
  function Equivalent(a: DataType, b: DataType, vars: seq<Variable>): Option<bool> {
    match a
    case Dynamic(x) => DynamicEquivalent(x, b, vars)
    case LoadTemplateParameter(x) => DynamicEquivalent(x, b, vars)
    case ArrayType(len, base) =>
      if b.ArrayType? then
        var same :- Equivalent(base, b.base, vars);
        Some(same && len == b.len)
      else Some(false)
    case SizedArray(base, sizes) =>
      if b.SizedArray? then
        var same :- Equivalent(base, b.base, vars);
        if same then SizesAgree(sizes, b.sizes, vars) else Some(false)
      else Some(false)
    case _ => Some(a == b)
  }

  function DynamicEquivalent(x: VarId, b: DataType, vars: seq<Variable>): Option<bool> {
    if IsDynamic(b) then
      if x >= |vars| || b.target >= |vars| then None
      else Some(vars[x].temporary != Unknown && DataEq(vars[x].temporary, vars[b.target].temporary, true))
    else Some(false)
  }

  /** The positions the index variables of an access hold: each must hold a
      known non-negative integer. */
  function IndexPositions(vars: seq<Variable>, ids: seq<VarId>): (r: Option<seq<nat>>)
    ensures r.Some? <==> forall j | 0 <= j < |ids| :: ids[j] < |vars| && vars[ids[j]].temporary.IntValue? && vars[ids[j]].temporary.i >= 0
    ensures r.Some? ==> |r.value| == |ids| && forall j | 0 <= j < |ids| :: r.value[j] == vars[ids[j]].temporary.i
  {
    if |ids| == 0 then Some([])
    else if ids[0] < |vars| && vars[ids[0]].temporary.IntValue? && vars[ids[0]].temporary.i >= 0 then
      var rest := IndexPositions(vars, ids[1..]);
      if rest.Some? then Some([vars[ids[0]].temporary.i as nat] + rest.value) else None
    else None
  }

  /** The value an array size reads as: the temporary value of its base
      variable, indexed by the values of its index variables. `None` where the
      read panics: a variable that does not exist, an index that is not a known
      non-negative integer, or a position outside the array. */
  function SizeValue(vars: seq<Variable>, s: VarAccess): (r: Option<KnownData>)
    ensures s.indexes == [] ==> r == (if s.base < |vars| then Some(vars[s.base].temporary) else None)
  {
    if s.base >= |vars| then None
    else
      var positions :- IndexPositions(vars, s.indexes);
      VagueData.Index(vars[s.base].temporary, positions)
  }

  /** The size loop of `equivalent`: walks both lists in step until the
      shorter one ends; a size that is unknown or differs from its partner
      stops the walk with `false`. */
  function SizesAgree(xs: seq<VarAccess>, ys: seq<VarAccess>, vars: seq<Variable>): Option<bool>
    decreases |xs|
  {
    if |xs| == 0 || |ys| == 0 then Some(true)
    else
      var v :- SizeValue(vars, xs[0]);
      var w :- SizeValue(vars, ys[0]);
      if v == Unknown || !DataEq(v, w, true) then Some(false)
      else SizesAgree(xs[1..], ys[1..], vars)
  }

  /** Two sizes agree when both read, the first is known, and they are equal. */
  predicate SizePairAgrees(vars: seq<Variable>, x: VarAccess, y: VarAccess) {
    SizeValue(vars, x).Some? && SizeValue(vars, y).Some? &&
    SizeValue(vars, x).value != Unknown && DataEq(SizeValue(vars, x).value, SizeValue(vars, y).value, true)
  }

  /** The size lists agree exactly when every pair the zip forms agrees; the
      sizes past the end of the shorter list play no part. */
  lemma {:induction false} SizesAgreeZip(xs: seq<VarAccess>, ys: seq<VarAccess>, vars: seq<Variable>)
    ensures SizesAgree(xs, ys, vars) == Some(true) <==>
            forall i | 0 <= i < |xs| && i < |ys| :: SizePairAgrees(vars, xs[i], ys[i])
    decreases |xs|
  {
    if |xs| > 0 && |ys| > 0 {
      SizesAgreeZip(xs[1..], ys[1..], vars);
      if SizesAgree(xs, ys, vars) == Some(true) {
        forall i | 0 <= i < |xs| && i < |ys| ensures SizePairAgrees(vars, xs[i], ys[i]) {
          if i > 0 {
            assert xs[1..][i - 1] == xs[i] && ys[1..][i - 1] == ys[i];
          }
        }
      }
      if forall i | 0 <= i < |xs| && i < |ys| :: SizePairAgrees(vars, xs[i], ys[i]) {
        assert SizePairAgrees(vars, xs[0], ys[0]);
        forall i | 0 <= i < |xs| - 1 && i < |ys| - 1 ensures SizePairAgrees(vars, xs[1..][i], ys[1..][i]) {
          assert SizePairAgrees(vars, xs[i + 1], ys[i + 1]);
        }
      }
    }
  }

  /** Array types with size lists: equivalent exactly when the bases are and
      every pair of sizes the zip forms agrees. */
  lemma SizedArrayEquivalent(base: DataType, xs: seq<VarAccess>, other: DataType, ys: seq<VarAccess>, vars: seq<Variable>)
    ensures Equivalent(SizedArray(base, xs), SizedArray(other, ys), vars) == Some(true) <==>
            Equivalent(base, other, vars) == Some(true) &&
            forall i | 0 <= i < |xs| && i < |ys| :: SizePairAgrees(vars, xs[i], ys[i])
  {
    SizesAgreeZip(xs, ys, vars);
  }

  /** The zip stops at the shorter list: a two-dimensional `[n][m]Int` is
      equivalent to a one-dimensional `[n]Int` whenever `n` reads as a known
      value, whatever `m` is. */
  lemma ExtraSizesIgnored(n: VarAccess, m: VarAccess, vars: seq<Variable>)
    requires n.indexes == [] && n.base < |vars| && vars[n.base].temporary != Unknown
    ensures Equivalent(SizedArray(IntType, [n, m]), SizedArray(IntType, [n]), vars) == Some(true)
  {
    DataEqReflexive(vars[n.base].temporary, true);
    SizesAgreeZip([n, m], [n], vars);
  }

  /** On types without dynamic parts whose arrays all have literal lengths,
      equivalence is plain equality. */
  lemma {:induction false} EquivalentNoDynamic(a: DataType, b: DataType, vars: seq<Variable>)
    requires NoDynamic(a) && LiteralSizes(a)
    ensures Equivalent(a, b, vars) == Some(a == b)
  {
    if a.ArrayType? && b.ArrayType? {
      EquivalentNoDynamic(a.base, b.base, vars);
    }
  }

  lemma DataEqKeepsKnown(x: KnownData, y: KnownData)
    requires x != Unknown && DataEq(x, y, true)
    ensures y != Unknown
  {
  }

  /** Equivalence is symmetric. */
  lemma {:induction false} EquivalentSymmetric(a: DataType, b: DataType, vars: seq<Variable>)
    requires Equivalent(a, b, vars) == Some(true)
    ensures Equivalent(b, a, vars) == Some(true)
  {
    if IsDynamic(a) {
      var x, y := vars[a.target].temporary, vars[b.target].temporary;
      DataEqKeepsKnown(x, y);
      DataEqSymmetric(x, y, true);
    } else if a.ArrayType? {
      EquivalentSymmetric(a.base, b.base, vars);
    } else if a.SizedArray? {
      EquivalentSymmetric(a.base, b.base, vars);
      SizesAgreeSymmetric(a.sizes, b.sizes, vars);
    }
  }

  lemma {:induction false} SizesAgreeSymmetric(xs: seq<VarAccess>, ys: seq<VarAccess>, vars: seq<Variable>)
    requires SizesAgree(xs, ys, vars) == Some(true)
    ensures SizesAgree(ys, xs, vars) == Some(true)
    decreases |xs|
  {
    if |xs| > 0 && |ys| > 0 {
      var v, w := SizeValue(vars, xs[0]).value, SizeValue(vars, ys[0]).value;
      DataEqKeepsKnown(v, w);
      DataEqSymmetric(v, w, true);
      SizesAgreeSymmetric(xs[1..], ys[1..], vars);
    }
  }

  /** A dynamic type is never equivalent to a non-dynamic one. */
  lemma DynamicOnlyMatchesDynamic(a: DataType, b: DataType, vars: seq<Variable>)
    requires IsDynamic(a) != IsDynamic(b)
    ensures Equivalent(a, b, vars) != Some(true)
  {
  }

  /** Whether a value matches a type, in the structure IR: `Unknown` matches
      nothing and an array matches an array type when every item matches its
      base, whatever the sizes. The items of an `ArrayValue` stand for all the
      items of the structure IR's multi-dimensional array, as it lists them
      when it checks them. */
  predicate MatchesDataType(k: KnownData, t: DataType) {
    match k
    case Unknown => false
    case ArrayValue(items) =>
      (t.ArrayType? || t.SizedArray?) && forall i | 0 <= i < |items| :: MatchesDataType(items[i], t.base)
    case VoidValue => t == VoidType
    case BoolValue(_) => t == BoolType
    case IntValue(_) => t == IntType
    case FloatValue(_) => t == FloatType
    case TypeValue(_) => t == MetaType
    case FunctionValue(_) => t == FunctionType
  }

  /** The sizes of an array type play no part in matching: neither a literal
      length, nor the values or the number of the sizes in a size list. */
  lemma MatchesIgnoresLength(k: KnownData, n: nat, m: nat, xs: seq<VarAccess>, ys: seq<VarAccess>, base: DataType)
    ensures MatchesDataType(k, ArrayType(n, base)) == MatchesDataType(k, ArrayType(m, base))
    ensures MatchesDataType(k, SizedArray(base, xs)) == MatchesDataType(k, SizedArray(base, ys))
    ensures MatchesDataType(k, SizedArray(base, xs)) == MatchesDataType(k, ArrayType(n, base))
  {
  }

  /** For a uniform value, the inferred type of the vague IR is one it matches,
      and the structure IR matches every item where the vague IR only looks at
      the first. */
  lemma {:induction false} UniformMatchesInferredType(k: KnownData, t: DataType)
    requires VagueData.Uniform(k) && VagueData.GetDataType(k) == Some(t)
    ensures MatchesDataType(k, t)
  {
    if k.ArrayValue? {
      var first := VagueData.GetDataType(k.items[0]).value;
      assert t == ArrayType(|k.items|, first);
      forall i | 0 <= i < |k.items| ensures MatchesDataType(k.items[i], t.base) {
        UniformMatchesInferredType(k.items[i], first);
      }
    }
  }
}

=== FILE: wrappers.dfy ===
/** Failure-carrying result types shared by every module of the model.
    `Option` stands for the source's `Option` and for operations that can only
    panic; `Result` carries a compile problem or an abort. */
module Wrappers {

  datatype Option<+T> = None | Some(value: T) {

    predicate IsFailure() {
      None?
    }

    function PropagateFailure<U>(): Option<U>
      requires None?
    {
      None
    }

    function Extract(): T
      requires Some?
    {
      value
    }

    function GetOr(default: T): T {
      match this
      case Some(v) => v
      case None => default
    }
  }

  datatype Result<+T, +E> = Ok(value: T) | Err(error: E) {

    predicate IsFailure() {
      Err?
    }

    function PropagateFailure<U>(): Result<U, E>
      requires Err?
    {
      Err(error)
    }

    function Extract(): T
      requires Ok?
    {
      value
    }
  }

  function Max(a: int, b: int): int {
    if a >= b then a else b
  }
}
